=== FILE: README.md ===
# trammel constraint core, in Dafny

trammel describes SVG diagrams whose shapes are placed relative to one
another. This project models the part of it that does the computing:

- **The reference-expression language** (`ExprLexer`, `ExprParser`,
  `ExprGrammar`). A shape property may be an arithmetic expression over
  numbers, `#id.anchor` references and `$self.anchor` references.
  - `ExprLexer` models `tokenize`.
  - `ExprParser` models `parseExpr`, `evaluate`, `parseAndEvaluate` and
    `collectAnchors`.
  - `ExprGrammar` is a printer from trees to token streams. It proves that
    parsing inverts printing, which is what fixes the grammar's precedence
    and associativity.
- **The anchor registry of a render pass** (`SolverContext`). It models
  `parseRef`, `AnchorRegistry` (register, resolve, resolvePoint, checkBounds,
  reset, diagnostics) and the reset at the start of each `SolverProvider`
  render.
- **The constraint helpers of app-claude**, one module per file:
  `ClaudeQuery`, `ClaudeAlign`, `ClaudeDistribute`, `ClaudeOffset`,
  `ClaudeMirror` and `ClaudeGeometric`. Each helper is a pure function from
  shapes to shapes or points.
- **The rational helpers of app-codex** (`CodexFunctions`). Where app-codex
  differs from app-claude, it is modelled and compared with app-claude by a
  lemma.
- **The error collector** (`ErrorCollector`).

Shared records (points, rects, circles, lines, corners and edges) live in
`Geometry`. `Results` holds the `Result` and `Option` wrappers that stand for
a thrown exception and for `null`.

Numbers are exact reals. The JavaScript number of an evaluated expression is
`Finite(v)` or `NonFinite`, where `NonFinite` stands for NaN and both
infinities.

## Model

| member | source | states |
|---|---|---|
| ExprLexer.ScanNumber | app-claude/src/claude-render/primitives/ExprParser.ts:147-160 | The scan consumes only digits and at most one dot. It consumes at least one character when it starts on a digit or a first dot. It stops only where the next character is neither a digit nor a second dot. |
| ExprLexer.ScanRef | app-claude/src/claude-render/primitives/ExprParser.ts:109-129 | A `#` either yields a REF token that starts there, has the `#id.anchor` shape, is the input's own text and cannot be extended, or yields an error at a later position. A missing id is reported right after the `#`. A missing dot is reported right after a `#id` whose run has ended. A missing anchor is reported right after `#id.`. |
| ExprLexer.ScanSelfRef | app-claude/src/claude-render/primitives/ExprParser.ts:88-106 | A `$` either yields a maximal SELF_REF token of the `$self.anchor` shape, or yields one of the three `$self` errors at a position where that defect really is. |
| ExprLexer.AnchorMissingAfterSelf | app-claude/src/claude-render/primitives/ExprParser.ts:97-101 | `$self.` not followed by an identifier character is an error reported just after the dot. |
| ExprLexer.NumberToken | app-claude/src/claude-render/primitives/ExprParser.ts:65-69 | A NUMBER token, signed or not, starts where its text starts, copies the input and cannot be extended. |
| ExprLexer.NextToken | app-claude/src/claude-render/primitives/ExprParser.ts:55-131 | The token at a non-blank character is the input's text at that position. A `-` becomes part of a NUMBER exactly in unary position before a digit or dot. Any failure is one of the tokenizer's errors, at or after that position, at a place where the defect it names is present in the text. |
| ExprLexer.Lex | app-claude/src/claude-render/primitives/ExprParser.ts:48-135 | The loop extends the tokens found so far to a complete tokenization, or reports, at or after the current position, a lexical error whose defect is present in the text. |
| ExprLexer.Tokenize | app-claude/src/claude-render/primitives/ExprParser.ts:44-136 | On success, every non-blank character is covered by exactly the tokens the scanner finds, in order. Each token is maximal and obeys the minus rule. The list ends with EOF at the input's length. On failure, the error names a defect present at its position. `TokenizeExactly` shows that such a failure happens only on text with no tokenization at all. |
| ExprLexer.LexScans | app-claude/src/claude-render/primitives/ExprParser.ts:48-135 | The tokenizer returns exactly the scanned tokens, followed by EOF. |
| ExprLexer.TokenizeScans | app-claude/src/claude-render/primitives/ExprParser.ts:44-136 | `tokenize` from position 0 is the scanned token list plus EOF. |
| ExprLexer.NextTokenUnique | app-claude/src/claude-render/primitives/ExprParser.ts:55-131 | Any token that could start at its position, obeying the minus rule, is exactly the token the scanner produces there. |
| ExprLexer.TokenizeComplete | app-claude/src/claude-render/primitives/ExprParser.ts:44-136 | Valid text tokenizes: whenever a token list is a well-formed tokenization of the input, `tokenize` returns exactly that list. |
| ExprLexer.TokenizeExactly | app-claude/src/claude-render/primitives/ExprParser.ts:44-136 | `tokenize` succeeds exactly on text that has a well-formed tokenization, and that tokenization is unique. So every error it reports is on text that no tokenization fits. |
| ExprLexer.DigitTokenized | app-claude/src/claude-render/primitives/ExprParser.ts:80-84 | A lone digit is a one-character NUMBER token. |
| ExprLexer.TwoNumbersTokenized | app-claude/src/__tests__/expr-parser.test.ts:48-59 | `42 42` tokenizes to two NUMBER tokens at positions 0 and 3, then EOF at 5. |
| ExprLexer.SumOfProductTokenized | app-claude/src/__tests__/expr-parser.test.ts:10-46 | The exact token list of `1+2*3`. |
| ExprLexer.GroupedSumTokenized | app-claude/src/claude-render/primitives/ExprParser.ts:76-77 | `(1+2)*3`: each parenthesis is a token of its own, at its own position. |
| ExprLexer.AmpersandRejected | app-claude/src/__tests__/expr-parser.test.ts:84-86 | `10 & 5` fails at position 3, on the unexpected `&`. |
| ExprLexer.HashWithoutDotRejected | app-claude/src/__tests__/expr-parser.test.ts:88-90 | `#box` fails at position 4, where the dot after the shape id belongs. |
| ExprLexer.SelfWithoutDotRejected | app-claude/src/__tests__/expr-parser.test.ts:92-94 | `$self` fails at position 5, where the dot after `$self` belongs. |
| ExprLexer.DifferenceTokenized | app-claude/src/__tests__/expr-parser.test.ts:68-82 | In `10-3-2`, a `-` right after a number is the MINUS operator and not a sign. |
| ExprParser.IndexOf | app-claude/src/claude-render/primitives/ExprParser.ts:226 | Returns the first index of the character, or -1 exactly when the character is absent. |
| ExprParser.ParseSum | app-claude/src/claude-render/primitives/ExprParser.ts:193-202 | An `expr` consumes at least one token and stops before the EOF. |
| ExprParser.ParseProduct | app-claude/src/claude-render/primitives/ExprParser.ts:204-213 | A `term` consumes at least one token and stops before the EOF. |
| ExprParser.ParseFactor | app-claude/src/claude-render/primitives/ExprParser.ts:215-250 | A `factor` consumes at least one token and stops before the EOF. |
| ExprParser.SumErrors | app-claude/src/claude-render/primitives/ExprParser.ts:182-250 | Every error of the `expr` rule names a token at or after the one the rule started at, and reports that token's position. |
| ExprParser.FactorErrors | app-claude/src/claude-render/primitives/ExprParser.ts:239-249 | Every error of the `factor` rule names a later-or-same token at that token's position. |
| ExprParser.ParseTokens | app-claude/src/claude-render/primitives/ExprParser.ts:172-261 | A parse error reported on a token stream names one of its tokens at that token's position, and is never a lexical error. |
| ExprParser.TokenizedIsWellFormed | app-claude/src/claude-render/primitives/ExprParser.ts:134-135 | Every successful tokenization is a stream the parser accepts: it ends in EOF and its numbers are readable. |
| ExprParser.ParseExpr | app-claude/src/claude-render/primitives/ExprParser.ts:170-171 | A tokenizer failure is returned unchanged. A lexical error is reported exactly when the text has no well-formed tokenization, and the error's defect is present at its position. |
| ExprParser.NumberValue | app-claude/src/claude-render/primitives/ExprParser.ts:218-221 | `parseFloat` of a NUMBER text is NaN exactly for `.` and `-.`. Otherwise its sign is the text's sign. `DecimalValue` gives the value itself. |
| ExprParser.DigitsAppend | app-claude/src/claude-render/primitives/ExprParser.ts:218-221 | Appending digits to a run multiplies its value by ten per appended digit, then adds the appended digits' own value. |
| ExprParser.DecimalValue | app-claude/src/claude-render/primitives/ExprParser.ts:218-221 | A literal `w.f` reads as the integer of all its digits divided by ten to the number of fraction digits. Either side may be empty, but not both. A leading `-` negates the value. |
| ExprParser.PiLiteral | app-claude/src/__tests__/expr-parser.test.ts:105-107 | `3.14` reads as 3.14. |
| ExprParser.HalfLiteral | app-claude/src/__tests__/expr-parser.test.ts:307-310 | `0.5` reads as 0.5. |
| ExprParser.LeadingDotLiteral | app-claude/src/claude-render/primitives/ExprParser.ts:218-221 | `.5`, with no integer digits, reads as 0.5. |
| ExprParser.DotEndedLiteral | app-claude/src/claude-render/primitives/ExprParser.ts:218-221 | `5.`, with no fraction digits, reads as 5. |
| ExprParser.NegativeLiteral | app-claude/src/claude-render/primitives/ExprParser.ts:218-221 | `-2.5` reads as -2.5. |
| ExprParser.Evaluate | app-claude/src/claude-render/primitives/ExprParser.ts:267-286 | A tree without references always evaluates. `EvaluateFailsAtFirstFailingLeaf` says when and how it fails. |
| ExprParser.CollectAnchors | app-claude/src/claude-render/primitives/ExprParser.ts:295-313 | One anchor for every leaf the evaluator looks up. |
| ExprParser.Apply | app-claude/src/claude-render/primitives/ExprParser.ts:278-283 | The result is finite exactly when both operands are finite and the step is not a division by zero. |
| ExprParser.ParseAndEvaluate | app-claude/src/claude-render/primitives/ExprParser.ts:290-292 | It fails with a syntax error exactly when `parseExpr` fails. Otherwise its outcome is the evaluation of the parsed tree. |
| ExprParser.CollectAnchorsMatchesLeaves | app-claude/src/claude-render/primitives/ExprParser.ts:295-313 | `collectAnchors` lists the anchors the evaluator looks up, one per reference leaf, in lookup order. |
| ExprParser.EvaluateFailsAtFirstFailingLeaf | app-claude/src/claude-render/primitives/ExprParser.ts:267-286 | Evaluation fails exactly when some looked-up leaf fails. The error is the first failing leaf's, left to right. |
| ExprParser.EvaluateIsLocal | app-claude/src/claude-render/primitives/ExprParser.ts:267-286 | Two lookups that agree on the tree's leaves give the same result. |
| ExprParser.FirstFailureAppend | app-claude/src/claude-render/primitives/ExprParser.ts:276-277 | Over concatenated leaves, the first failure is the left part's first failure if there is one, and otherwise the right part's. |
| ExprGrammar.NatText | app-claude/src/claude-render/primitives/ExprParser.ts:218-221 | The decimal text of a natural number is a non-empty run of digits whose value is that number. |
| ExprGrammar.IntTextValue | app-claude/src/claude-render/primitives/ExprParser.ts:218-221 | The printed text of an integer is a valid NUMBER text, and `parseFloat` reads it back as that integer. |
| ExprGrammar.LeafRoundTrip | app-claude/src/claude-render/primitives/ExprParser.ts:223-237 | A printed reference leaf reads back as the same leaf. REF splits at its first dot; SELF_REF drops `$self.`. |
| ExprGrammar.FactorRoundTrip | app-claude/src/claude-render/primitives/ExprParser.ts:215-244 | The `factor` rule reads a printed leaf or parenthesised tree back exactly, consuming exactly its tokens. |
| ExprGrammar.ProductRoundTrip | app-claude/src/claude-render/primitives/ExprParser.ts:204-213 | The `term` rule reads a printed product back exactly, left-nested, when the next token ends a term. |
| ExprGrammar.SumRoundTrip | app-claude/src/claude-render/primitives/ExprParser.ts:193-202 | The `expr` rule reads a printed sum back exactly, left-nested, when the next token ends an expression. |
| ExprGrammar.RoundTrip | app-claude/src/claude-render/primitives/ExprParser.ts:162-261 | Parsing inverts printing: every printable tree prints to a well-formed stream that parses back to the same tree. |
| ExprGrammar.TrailingTokenRejected | app-claude/src/claude-render/primitives/ExprParser.ts:252-259 | A complete expression followed by a number, reference or parenthesis is rejected at that token's position. |
| ExprGrammar.UnclosedParenRejected | app-claude/src/claude-render/primitives/ExprParser.ts:239-243 | An opening parenthesis never closed is reported at the EOF token as a missing RPAREN. |
| ExprGrammar.ParsesRetokenized | app-claude/src/claude-render/primitives/ExprParser.ts:170-171 | `parseExpr` of any text that tokenizes to a printed tree (positions aside) returns that tree. |
| ExprGrammar.ProductBindsTighter | app-claude/src/__tests__/expr-parser.test.ts:147-159 | On tokens, `1 + 2 * 3` parses as `1 + (2 * 3)`. |
| ExprGrammar.ParenthesesGroup | app-claude/src/__tests__/expr-parser.test.ts:161-173 | On tokens, `(1 + 2) * 3` keeps its grouping. |
| ExprGrammar.SubtractionAssociatesLeft | app-claude/src/__tests__/expr-parser.test.ts:175-191 | On tokens, `10 - 3 - 2` parses as `(10 - 3) - 2`. |
| ExprGrammar.EmptyInputRejected | app-claude/src/__tests__/expr-parser.test.ts:193-195 | Empty input is rejected at position 0, on the EOF token. |
| ExprGrammar.TrailingNumberInText | app-claude/src/__tests__/expr-parser.test.ts:197-199 | `42 42` is rejected at position 3, on the trailing number. |
| ExprGrammar.ProductBindsTighterInText | app-claude/src/__tests__/expr-parser.test.ts:147-159 | The text `1+2*3` parses as `1 + (2 * 3)`. |
| ExprGrammar.ParenthesesGroupInText | app-claude/src/__tests__/expr-parser.test.ts:161-173 | The text `(1+2)*3` parses as `(1 + 2) * 3`. |
| ExprGrammar.SubtractionAssociatesLeftInText | app-claude/src/__tests__/expr-parser.test.ts:175-191 | The text `10-3-2` parses as `(10 - 3) - 2`. |
| SolverContext.ParseRef | app-claude/src/claude-render/primitives/SolverContext.tsx:26-32 | A successful parse gives a well-formed reference whose text is the input. Anything else is an invalid-reference error naming the input. |
| SolverContext.ParseRefComplete | app-claude/src/claude-render/primitives/SolverContext.tsx:27 | Every well-formed reference is read back from its own text. |
| SolverContext.ParseRefExactly | app-claude/src/claude-render/primitives/SolverContext.tsx:26-32 | `parseRef` yields a reference exactly when that reference is well formed and written as the input: both directions. |
| SolverContext.ParseRefExamples | app-claude/src/__tests__/claude-render.primitives.test.tsx:44-47 | `#box.right` parses; `box.right` does not. |
| SolverContext.ParseRefSplitsAtFirstDot | app-claude/src/claude-render/primitives/SolverContext.tsx:27 | The id stops at the first dot. `#a.v0.x` has anchor `v0.x`. |
| SolverContext.SetViewBox | app-claude/src/claude-render/primitives/SolverContext.tsx:55-57 | Only the view-box changes. |
| SolverContext.Register | app-claude/src/claude-render/primitives/SolverContext.tsx:59-61 | The id's anchors are exactly the new set. Other ids, the diagnostics and the view-box are unchanged. |
| SolverContext.AddDiagnostic | app-claude/src/claude-render/primitives/SolverContext.tsx:63-65 | Exactly one diagnostic is appended after the old ones; nothing else changes. |
| SolverContext.CheckSide | app-claude/src/claude-render/primitives/SolverContext.tsx:78-80 | One side check appends that side's warning when the side is outside, and nothing otherwise. |
| SolverContext.CheckBounds | app-claude/src/claude-render/primitives/SolverContext.tsx:71-90 | Without a view-box nothing changes. Otherwise the warnings for the outside sides are appended in left, top, right, bottom order. Anchors and view-box stay. |
| SolverContext.WarningsExactly | app-claude/src/claude-render/primitives/SolverContext.tsx:78-89 | The warnings are for the shape and name exactly the sides that are outside, one warning per side. |
| SolverContext.CheckBoundsCount | app-claude/src/claude-render/primitives/SolverContext.tsx:71-90 | Bounds inside the view-box add nothing; at most four warnings are added. |
| SolverContext.CheckBoundsExample | app-claude/src/__tests__/claude-render.primitives.test.tsx:75-85 | A shape past the left and bottom edges gets exactly those two warnings, in that order. |
| SolverContext.Find | app-claude/src/claude-render/primitives/SolverContext.tsx:93-101 | A lookup succeeds exactly when the anchor is stored. Otherwise it reports the missing shape first, then the missing anchor. |
| SolverContext.Resolve | app-claude/src/claude-render/primitives/SolverContext.tsx:92-106 | Each failure (invalid reference, unknown shape, unknown anchor, point where a number is wanted) is reported only when that is the case. A success comes from a parsed reference. |
| SolverContext.ResolvePoint | app-claude/src/claude-render/primitives/SolverContext.tsx:108-122 | The same checks as `resolve`, for point anchors; a number anchor is refused. |
| SolverContext.ResolveFindsStored | app-claude/src/claude-render/primitives/SolverContext.tsx:92-122 | A stored number resolves through its reference, and a stored point through `resolvePoint`. |
| SolverContext.ResolveDuality | app-claude/src/claude-render/primitives/SolverContext.tsx:102-103 | At most one of the two resolvers succeeds, and they fail alike when both fail. |
| SolverContext.RegisterReplaces | app-claude/src/claude-render/primitives/SolverContext.tsx:59-61 | A second `register` replaces the whole anchor set: anchors only in the old set are no longer found. |
| SolverContext.RegisterKeepsOthers | app-claude/src/claude-render/primitives/SolverContext.tsx:59-61 | Registering one id leaves every reference to another id resolving as before. |
| SolverContext.ResolveExamples | app-claude/src/__tests__/claude-render.primitives.test.tsx:49-63 | The tests' scalar anchors resolve to their values. |
| SolverContext.ResolveRefusals | app-claude/src/__tests__/claude-render.primitives.test.tsx:49-63 | A number asked for as a point is refused, and an unknown shape is reported. |
| SolverContext.ResolvePointExamples | app-claude/src/__tests__/claude-render.primitives.test.tsx:49-63 | A point anchor resolves through `resolvePoint` and is refused by `resolve`. |
| SolverContext.Reset | app-claude/src/claude-render/primitives/SolverContext.tsx:124-127 | Anchors and diagnostics are emptied; the view-box stays. |
| SolverContext.ResetForgets | app-claude/src/claude-render/primitives/SolverContext.tsx:124-127 | After a reset, every well-formed reference names an unknown shape. |
| SolverContext.BeginPass | app-claude/src/claude-render/primitives/SolverContext.tsx:148-152 | A render pass starts with no anchors and no diagnostics. The view-box is the given one, or else the previous one. |
| SolverContext.BeginPassForgets | app-claude/src/claude-render/primitives/SolverContext.tsx:137-152 | Nothing of one pass but the view-box reaches the next, and starting a pass twice is starting it once. |
| SolverContext.ResetExample | app-claude/src/__tests__/claude-render.primitives.test.tsx:87-96 | After a reset the diagnostics are gone and the box no longer resolves. |
| SolverContext.LookupIn | app-claude/src/claude-render/primitives/ExprParser.ts:271-274 | The evaluator's lookup answers a reference with the number stored under it, where `$self` stands for the caller's shape. |
| SolverContext.ResolveExpr | app-claude/src/__tests__/expr-parser.test.ts:290-336 | Expression-valued `resolve` fails with a syntax error exactly when `parseExpr` fails. Otherwise it is the parsed tree evaluated against the registry. |
| SolverContext.TreeOfOneRef | app-claude/src/__tests__/expr-parser.test.ts:298-301 | A tree made of one reference resolves like `resolve` of its text: same number, same error. |
| SolverContext.SelfIsCaller | app-claude/src/__tests__/expr-parser.test.ts:313-316 | `$self.a` resolves like a reference to the caller's shape, and fails without one. |
| SolverContext.ResolveSelfExample | app-claude/src/__tests__/expr-parser.test.ts:313-316 | `$self.width * 2` for shape `a` is 200. |
| SolverContext.ResolveTreeMisses | app-claude/src/__tests__/expr-parser.test.ts:328-336 | An unknown shape and an unknown anchor fail with their own errors. |
| SolverContext.ResolveTreeExamples | app-claude/src/__tests__/expr-parser.test.ts:323-326 | `#a.width + (#b.width * 2) - 10` is 250. |
| SolverContext.AxisWarningsExactly | app-claude/src/__tests__/expr-parser.test.ts:338-353 | The axis warnings are for the shape, and name exactly the anchors on the other axis than the property. |
| SolverContext.ResolveWithAxisCheck | app-claude/src/__tests__/expr-parser.test.ts:338-353 | The value is the expression-valued `resolve`. Axis warnings are only appended, never anything else, and nothing is added when the expression does not parse. |
| SolverContext.OneRefOneWarning | app-claude/src/__tests__/claude-render.primitives.test.tsx:65-73 | One reference gets one warning when its anchor is on the other axis, and none otherwise. |
| SolverContext.AxisCheckExample | app-claude/src/__tests__/expr-parser.test.ts:338-345 | `#box.top` used for an x property gives one warning and still resolves. |
| ClaudeQuery.RectCenter | app-claude/src/constraints/query.ts:3-5 | A rect's centre is halfway along both of its diagonals. |
| ClaudeQuery.RectCorner | app-claude/src/constraints/query.ts:7-18 | The left corners lie at the rect's x and the right ones one width further. The top corners lie at its y and the bottom ones one height further. |
| ClaudeQuery.RectEdge | app-claude/src/constraints/query.ts:33-44 | An edge runs between two of the rect's corners. Top and bottom are horizontal with the rect's width; left and right are vertical with its height. |
| ClaudeQuery.RectEdgeMidpoint | app-claude/src/constraints/query.ts:20-31 | The midpoint of an edge is halfway between that edge's endpoints. |
| ClaudeQuery.CircleCenter | app-claude/src/constraints/query.ts:46-48 | The circle's centre is the point (cx, cy). `CircleBoundingBox` shows that the bounding box is centred on it. |
| ClaudeQuery.CircleBoundingBox | app-claude/src/constraints/query.ts:50-57 | A square of side 2r centred on the circle. |
| ClaudeQuery.LineLineIntersection | app-claude/src/constraints/query.ts:93-100 | None exactly when the denominator is within 1e-10 of zero. Otherwise the point lies on both lines. |
| ClaudeQuery.IntersectionIsUnique | app-claude/src/constraints/query.ts:93-100 | When an intersection is returned, it is the only point on both lines. |
| ClaudeQuery.RectQueryExamples | app-claude/src/__tests__/constraints.test.ts:31-70 | The tests' rect centre, corner, edge midpoint and edge, and a circle's bounding box. |
| ClaudeQuery.ParallelLinesExample | app-claude/src/__tests__/constraints.test.ts:119-131 | Parallel lines have no intersection. |
| ClaudeAlign.GetCenter | app-claude/src/constraints/align.ts:4-6 | The centre of a rect or of a circle. |
| ClaudeAlign.CenterAtOwnCenter | app-claude/src/constraints/align.ts:4-6 | Centring a shape on its own centre leaves it unchanged. |
| ClaudeAlign.AlignCenterX | app-claude/src/constraints/align.ts:8-12 | The target centre takes `a`'s x and keeps `b`'s y. |
| ClaudeAlign.AlignCenterY | app-claude/src/constraints/align.ts:14-18 | The target centre takes `a`'s y and keeps `b`'s x. |
| ClaudeAlign.AlignCenterXAligns | app-claude/src/constraints/align.ts:8-12 | Moving `b` to the returned centre lines its x up with `a`'s. Asking again then returns the same centre. |
| ClaudeAlign.AlignCenterYAligns | app-claude/src/constraints/align.ts:14-18 | The same on the y axis. |
| ClaudeAlign.AlignCentersSwap | app-claude/src/constraints/align.ts:8-18 | Aligning on x for `(a, b)` gives the same point as aligning on y for `(b, a)`. |
| ClaudeAlign.EdgeCoord | app-claude/src/constraints/align.ts:20-27 | The coordinate an edge lies on: y for top and bottom, x for left and right. It agrees with the edge segment and its midpoint. |
| ClaudeAlign.EdgeCoordShifts | app-claude/src/constraints/align.ts:20-27 | Moving a rect shifts each edge coordinate by the move along that edge's axis. |
| ClaudeAlign.AlignEdge | app-claude/src/constraints/align.ts:29-42 | The new origin keeps `b`'s coordinate along the edge's own direction. |
| ClaudeAlign.AlignFlush | app-claude/src/constraints/align.ts:44-51 | The gap is zero exactly when the edges coincide, and positive exactly when `a`'s edge lies beyond `b`'s. |
| ClaudeAlign.AlignEdgeMakesFlush | app-claude/src/constraints/align.ts:29-51 | Placing `b` at the returned origin makes the edges flush. The move is exactly the flush gap along one axis. |
| ClaudeAlign.AlignEdgeWhenFlush | app-claude/src/constraints/align.ts:29-42 | A rect that is already flush is not moved. |
| ClaudeAlign.AlignFlushAntisymmetric | app-claude/src/constraints/align.ts:44-51 | Measuring the other way round flips the gap's sign, and an edge is flush with itself. |
| ClaudeAlign.AlignCenterXExample | app-claude/src/__tests__/constraints.test.ts:174-178 | The tests' alignCenterX result. |
| ClaudeAlign.AlignCenterYExample | app-claude/src/__tests__/constraints.test.ts:180-184 | The tests' alignCenterY result. |
| ClaudeAlign.AlignEdgeExample | app-claude/src/__tests__/constraints.test.ts:186-190 | The tests' alignEdge result: y = 50. |
| ClaudeAlign.AlignFlushExample | app-claude/src/__tests__/constraints.test.ts:192-196 | The tests' alignFlush result: -100. |
| ClaudeDistribute.DistributeEvenly | app-claude/src/constraints/distribute.ts:4-12 | A count of zero or less gives nothing. Otherwise `count` offsets with the same gap before, between and after the items. |
| ClaudeDistribute.EvenlySpacedIsDistribution | app-claude/src/constraints/distribute.ts:4-12 | The equal-gap layout is unique: any evenly spaced placement is `distributeEvenly`'s. |
| ClaudeDistribute.EvenGap | app-claude/src/constraints/distribute.ts:6-7 | In an even layout, the gap is the free space divided by the count plus one. |
| ClaudeDistribute.SingleItemCentred | app-claude/src/constraints/distribute.ts:4-12 | A single item is centred in the total width. |
| ClaudeDistribute.DistributeEvenlyExamples | app-claude/src/__tests__/constraints.test.ts:200-218 | The tests' offsets for three items, zero items and one item. |
| ClaudeDistribute.DistributeAlongEdge | app-claude/src/constraints/distribute.ts:14-32 | One point per offset, placed along the edge's axis at the offset from the rect's side, on the line through the edge's midpoint. |
| ClaudeDistribute.SingleItemOnEdgeCentred | app-claude/src/constraints/distribute.ts:14-32 | One item along an edge is centred on the edge's midpoint. |
| ClaudeDistribute.GridPositions | app-claude/src/constraints/distribute.ts:34-51 | The loop returns the row-by-row grid with steps of cell size plus gap. |
| ClaudeDistribute.GridPositionsExample | app-claude/src/__tests__/constraints.test.ts:237-243 | The tests' grid has 6 cells, and its first cells are where the tests expect them. |
| Geometry.GridLayout | app-claude/src/constraints/distribute.ts:34-51 | A grid has rows times cols cells. The cell of row r and column c is at c steps right and r steps down from the origin. |
| ClaudeOffset.InsetRect | app-claude/src/constraints/offset.ts:23-38 | Every edge moves inwards by its own amount: a uniform number on every side, or the per-side amounts. |
| ClaudeOffset.UniformIsPerSide | app-claude/src/constraints/offset.ts:23-38 | A uniform inset equals the same amount given for all four sides. |
| ClaudeOffset.InsetsCompose | app-claude/src/constraints/offset.ts:23-38 | Insetting twice is insetting once by the side-by-side sum. |
| ClaudeOffset.InsetUndone | app-claude/src/constraints/offset.ts:24-31 | An inset by `a` is undone by an inset by `-a`, and an inset by zero changes nothing. |
| ClaudeOffset.UniformInsetKeepsCenter | app-claude/src/constraints/offset.ts:24-31 | A uniform inset keeps the rect's centre. |
| ClaudeOffset.InsetRectExamples | app-claude/src/__tests__/constraints.test.ts:282-290 | The tests' uniform and per-side insets. |
| ClaudeOffset.OffsetCircle | app-claude/src/constraints/offset.ts:40-42 | The centre is kept and the radius grows by the offset. |
| ClaudeOffset.OffsetCircleBoundingBox | app-claude/src/constraints/offset.ts:40-42 | Growing a circle by d grows its bounding box by d on every side. |
| ClaudeOffset.OffsetsCompose | app-claude/src/constraints/offset.ts:40-42 | Offsets add up. |
| ClaudeOffset.OffsetCircleExample | app-claude/src/__tests__/constraints.test.ts:292-295 | The tests' offset circle. |
| ClaudeMirror.ReflectPoint | app-claude/src/constraints/mirror.ts:4-16 | A degenerate axis (squared length 0) leaves the point. Otherwise the result is the mirror image: the axis bisects the two points at right angles. |
| ClaudeMirror.ReflectionIsUnique | app-claude/src/constraints/mirror.ts:4-16 | Across a proper axis there is exactly one mirror image. |
| ClaudeMirror.ReflectTwice | app-claude/src/constraints/mirror.ts:4-16 | Mirroring twice gives back the point. |
| ClaudeMirror.ReflectFixesExactlyTheAxis | app-claude/src/constraints/mirror.ts:4-16 | A proper axis leaves a point where it is exactly when the point is on it. |
| ClaudeMirror.ReflectAcrossDegenerateAxis | app-claude/src/constraints/mirror.ts:8 | An axis whose endpoints coincide leaves every point where it is. |
| ClaudeMirror.ReflectAcrossVertical | app-claude/src/constraints/mirror.ts:4-16 | Across a vertical axis only x changes, reflected about the axis's x. |
| ClaudeMirror.ReflectAcrossHorizontal | app-claude/src/constraints/mirror.ts:4-16 | Across a horizontal axis only y changes. |
| ClaudeMirror.ReflectKeepsDistance | app-claude/src/constraints/mirror.ts:4-16 | Mirroring keeps the distance between any two points. |
| ClaudeMirror.MirrorPoint | app-claude/src/constraints/mirror.ts:18-20 | Mirrors a point as `reflectPoint` does. |
| ClaudeMirror.MirrorLine | app-claude/src/constraints/mirror.ts:22-27 | Each endpoint is reflected across the axis on its own, so the mirrored segment is as long as the original. A zero-length axis leaves the line unchanged. |
| ClaudeMirror.MirrorLineTwice | app-claude/src/constraints/mirror.ts:22-27 | Mirroring a line twice gives it back. |
| ClaudeMirror.MirrorCircle | app-claude/src/constraints/mirror.ts:29-32 | The radius is kept and the centre is reflected across the axis. A zero-length axis leaves the circle unchanged. |
| ClaudeMirror.MirrorCircleTwice | app-claude/src/constraints/mirror.ts:29-32 | Mirroring a circle twice gives it back. |
| ClaudeMirror.MirrorRect | app-claude/src/constraints/mirror.ts:34-45 | The result has non-negative size and is spanned by the mirrored top-left and bottom-right corners. |
| ClaudeMirror.MirrorRectAcrossVertical | app-claude/src/constraints/mirror.ts:34-45 | Across a vertical axis, a rect of non-negative size keeps its size and is reflected in x. |
| ClaudeMirror.MirrorRectTwiceAcrossVertical | app-claude/src/constraints/mirror.ts:34-45 | Mirroring such a rect twice across a vertical axis gives it back. |
| ClaudeMirror.MirrorRectExample | app-claude/src/__tests__/constraints.test.ts:512-517 | The tests' rect mirrored across x = 5. |
| ClaudeMirror.MirrorPointAbout | app-claude/src/constraints/mirror.ts:47-52 | The centre is the midpoint of the point and its image. |
| ClaudeMirror.MirrorPointAboutTwice | app-claude/src/constraints/mirror.ts:47-52 | Reflecting through a centre twice gives back the point. The centre is the only fixed point. |
| ClaudeMirror.MirrorAboutIsTwoReflections | app-claude/src/constraints/mirror.ts:4-52 | Reflecting through a centre equals reflecting across the vertical, then the horizontal, line through it. |
| ClaudeGeometric.Coincident | app-claude/src/constraints/geometric.ts:4-6 | The target is a copy of the first point. |
| ClaudeGeometric.CoincidentIgnoresSecond | app-claude/src/constraints/geometric.ts:4-6 | Only the first point matters, and applying the constraint again changes nothing. |
| ClaudeGeometric.CenterAtPoint | app-claude/src/constraints/geometric.ts:8-13 | The same kind of shape, moved but not resized, whose centre is the point. |
| ClaudeGeometric.CenterAtPointIsUnique | app-claude/src/constraints/geometric.ts:8-13 | That shape is the only one of that kind, size and centre. |
| ClaudeGeometric.CenterAtPointTwice | app-claude/src/constraints/geometric.ts:8-13 | Only the last centre counts. |
| ClaudeGeometric.CenterAtPointExamples | app-claude/src/__tests__/constraints.test.ts:340-348 | The tests' circle and rect. |
| ClaudeGeometric.CenterAtCorner | app-claude/src/constraints/geometric.ts:15-18 | The circle keeps its radius and is centred on the corner. |
| ClaudeGeometric.CenterAtCornerIsCenterAtPoint | app-claude/src/constraints/geometric.ts:15-18 | Centring on a corner is `centerAtPoint` on that corner's point. |
| ClaudeGeometric.CenterAtEdgeMidpoint | app-claude/src/constraints/geometric.ts:20-23 | The circle keeps its radius and is centred halfway along the edge. |
| ClaudeGeometric.CenterAtEdgeMidpointIsCenterAtPoint | app-claude/src/constraints/geometric.ts:20-23 | Centring on an edge midpoint is `centerAtPoint` on that midpoint. |
| ClaudeGeometric.CenterAtRectExamples | app-claude/src/__tests__/constraints.test.ts:350-360 | The tests' corner and edge-midpoint results. |
| ClaudeGeometric.Concentric | app-claude/src/constraints/geometric.ts:25-31 | `b` takes `a`'s centre, keeps its own radius and kind, and an arc keeps its angles. |
| ClaudeGeometric.ConcentricWhenCentred | app-claude/src/constraints/geometric.ts:25-31 | A shape already on `a`'s centre is left as it is. |
| ClaudeGeometric.ConcentricTwice | app-claude/src/constraints/geometric.ts:25-31 | Applying the constraint twice is applying it once, and a shape is concentric with itself. |
| ClaudeGeometric.ConcentricExample | app-claude/src/__tests__/constraints.test.ts:362-367 | The tests' concentric circle. |
| ClaudeGeometric.Horizontal | app-claude/src/constraints/geometric.ts:114-117 | The line is flat at the height of its midpoint, and both x's are kept. |
| ClaudeGeometric.HorizontalIsUnique | app-claude/src/constraints/geometric.ts:114-117 | It is the only flat line with those x's and that midpoint. |
| ClaudeGeometric.HorizontalKeepsFlatLine | app-claude/src/constraints/geometric.ts:114-117 | A line that is already flat is unchanged. |
| ClaudeGeometric.Vertical | app-claude/src/constraints/geometric.ts:119-122 | The line is upright at the x of its midpoint, and both y's are kept. |
| ClaudeGeometric.VerticalIsUnique | app-claude/src/constraints/geometric.ts:119-122 | It is the only upright line with those y's and that midpoint. |
| ClaudeGeometric.VerticalKeepsUprightLine | app-claude/src/constraints/geometric.ts:119-122 | A line that is already upright is unchanged. |
| ClaudeGeometric.HorizontalVerticalExamples | app-claude/src/__tests__/constraints.test.ts:369-383 | The tests' flattened and upright lines. |
| ClaudeGeometric.HorizontalDistance | app-claude/src/constraints/geometric.ts:124-126 | The absolute x difference: non-negative, one of the two signed differences, and zero exactly when the x's agree. |
| ClaudeGeometric.VerticalDistance | app-claude/src/constraints/geometric.ts:128-130 | The same for y. |
| ClaudeGeometric.AxisDistancesSymmetric | app-claude/src/constraints/geometric.ts:124-130 | Both distances are symmetric, and each is the other with the axes swapped. |
| ClaudeGeometric.AxisDistanceExamples | app-claude/src/__tests__/constraints.test.ts:385-391 | The tests' distances 15 and 25. |
| ClaudeGeometric.Midpoint | app-claude/src/constraints/geometric.ts:132-140 | None exactly when a point comes without a second point. Otherwise twice the result is the sum of the two points or of the line's ends. |
| ClaudeGeometric.MidpointForms | app-claude/src/constraints/geometric.ts:132-140 | The line form equals the two-point form, and the order of the two points does not matter. |
| ClaudeGeometric.MidpointEquidistant | app-claude/src/constraints/geometric.ts:132-140 | The midpoint is equally far from both points. |
| ClaudeGeometric.MidpointExample | app-claude/src/__tests__/constraints.test.ts:393-400 | The tests' midpoint, and None without a second point. |
| ClaudeGeometric.PointOnLineAt | app-claude/src/constraints/geometric.ts:164-169 | The point lies on the line. On a proper line, its foot parameter is `t` itself. |
| ClaudeGeometric.PointOnLineAtEnds | app-claude/src/constraints/geometric.ts:164-169 | Parameter 0 is the start, 1 the end and 0.5 the midpoint. |
| ClaudeGeometric.PointOnLineAtExamples | app-claude/src/__tests__/constraints.test.ts:421-426 | The tests' points at 0, 0.5 and 1. |
| ClaudeGeometric.NearestParameter | app-claude/src/constraints/geometric.ts:142-151 | The clamped parameter lies in [0, 1]. |
| ClaudeGeometric.NearestPointOnLine | app-claude/src/constraints/geometric.ts:142-151 | The result is a point of the segment. A zero-length segment gives its start. |
| ClaudeGeometric.NearestIsClosest | app-claude/src/constraints/geometric.ts:142-151 | No point of the segment is closer to the point than the result. |
| ClaudeGeometric.NearestBeforeStart | app-claude/src/constraints/geometric.ts:142-151 | A point lying before the start projects to the start. |
| ClaudeGeometric.NearestBeyondEnd | app-claude/src/constraints/geometric.ts:142-151 | A point lying beyond the end of a proper segment projects to the end. |
| ClaudeGeometric.NearestOfPointOnSegment | app-claude/src/constraints/geometric.ts:142-151 | A point of the segment is its own nearest point. |
| ClaudeGeometric.NearestBeforeExample | app-claude/src/__tests__/constraints.test.ts:402-407 | The tests' point before the segment's start projects to (0, 0). |
| CodexFunctions.CornerNamed | app-codex/src/constraints/functions.ts:32-45 | A corner name selects its own corner; any other name selects top-left. |
| CodexFunctions.EdgeNamed | app-codex/src/constraints/functions.ts:47-66 | An edge name selects its own edge; any other name selects the top edge. |
| CodexFunctions.NamesRoundTrip | app-codex/src/constraints/functions.ts:32-66 | Every corner and edge is selected by its own name. |
| CodexFunctions.RectCorner | app-codex/src/constraints/functions.ts:32-45 | Agrees with app-claude on the selected corner. An unknown name gives the rect's origin. |
| CodexFunctions.RectEdge | app-codex/src/constraints/functions.ts:47-66 | Agrees with app-claude on the selected edge. An unknown name gives the top edge. |
| CodexFunctions.RectEdgeMidpoint | app-codex/src/constraints/functions.ts:68-71 | The midpoint of the selected edge, as app-claude computes it. |
| CodexFunctions.RectQueryExamples | app-codex/src/constraints/functions.ts:32-71 | A named corner, an unknown corner name, an unknown edge name and a named edge midpoint. |
| CodexFunctions.AlignEdge | app-codex/src/constraints/functions.ts:206-212 | Moving `b` to the result puts its edge's start point on `a`'s edge's start point. |
| CodexFunctions.AlignFlush | app-codex/src/constraints/functions.ts:214-221 | The gap is measured along the axis of `a`'s edge: x for a left or right edge, y otherwise. It runs from `b`'s edge's start point to `a`'s edge coordinate, whatever axis `b`'s edge runs along. For two edges on the same axis it is app-claude's gap. |
| CodexFunctions.AlignEdgeMakesFlush | app-codex/src/constraints/functions.ts:206-221 | After `b` moves to the returned origin, the flush gap is zero. |
| CodexFunctions.AlignEdgeAgainstClaude | app-codex/src/constraints/functions.ts:206-212 | For edges along the same axis, app-codex moves `b` like app-claude along that axis, and also snaps the other coordinate. |
| CodexFunctions.GridPositions | app-codex/src/constraints/functions.ts:235-254 | The loop returns the row-by-row grid from the origin, with separate gaps per axis. |
| CodexFunctions.Horizontal | app-codex/src/constraints/functions.ts:352-354 | The start stays; the end keeps its x and takes the start's y. |
| CodexFunctions.Vertical | app-codex/src/constraints/functions.ts:356-358 | The start stays; the end keeps its y and takes the start's x. |
| CodexFunctions.HorizontalAgainstClaude | app-codex/src/constraints/functions.ts:352-354 | The two apps flatten a line alike exactly when it is already flat, and flattening twice is flattening once. |
| CodexFunctions.VerticalAgainstClaude | app-codex/src/constraints/functions.ts:356-358 | The two apps stand a line up alike exactly when it is already upright, and doing it twice is doing it once. |
| CodexFunctions.Midpoint | app-codex/src/constraints/functions.ts:368-374 | The same point as app-claude's midpoint. Without a second point, it is the point itself. |
| CodexFunctions.NearestPointOnLine | app-codex/src/constraints/functions.ts:376-383 | Without clamping: on a proper line, the foot of the perpendicular. A zero-length line gives its start. |
| CodexFunctions.NearestIsClosestOnLine | app-codex/src/constraints/functions.ts:376-383 | The foot is at least as close as every point of the infinite line. |
| CodexFunctions.NearestAgainstClaude | app-codex/src/constraints/functions.ts:376-383 | When the foot falls within the segment, both apps agree; before or beyond it, app-claude clamps to the ends. |
| CodexFunctions.MirrorPoint | app-codex/src/constraints/functions.ts:566-569 | Across a proper axis it is app-claude's mirror. Across a degenerate one, it is the reflection through the axis's start. |
| CodexFunctions.MirrorPointTwice | app-codex/src/constraints/functions.ts:566-569 | Mirroring twice gives back the point, for every axis. |
| ErrorCollector.New | app-claude/src/errors/collector.ts:3-4 | A fresh collector holds no errors. |
| ErrorCollector.Report | app-claude/src/errors/collector.ts:6-8 | The error is appended after everything reported before, and the collector then has errors. |
| ErrorCollector.HasErrors | app-claude/src/errors/collector.ts:10-12 | True exactly when the error list is not empty. |
| ErrorCollector.GetErrors | app-claude/src/errors/collector.ts:14-16 | The returned copy loses nothing: a collector rebuilt from it is the collector that was read. `Report`, `Clear` and `AfterLastClear` say what it holds. |
| ErrorCollector.Clear | app-claude/src/errors/collector.ts:18-20 | Afterwards nothing is reported. |
| ErrorCollector.RunAppend | app-claude/src/errors/collector.ts:3-21 | Running one list of operations and then another is running both. |
| ErrorCollector.RunWithoutClear | app-claude/src/errors/collector.ts:6-8 | Without a clear, a run keeps what was there and appends its reports in order. |
| ErrorCollector.AfterLastClear | app-claude/src/errors/collector.ts:18-20 | After the last clear, the collector holds exactly what was reported since. |
| ErrorCollector.FreshRun | app-claude/src/errors/collector.ts:3-16 | A fresh collector given only reports holds them all, in order, and has errors exactly when there was one. |
| ErrorCollector.CollectorExamples | app-claude/src/__tests__/errors.test.ts:5-45 | Three reports are kept in order, and a clear leaves no errors. |

## Left out

- Numbers are exact reals, not IEEE doubles: there is no rounding, no overflow, no underflow and no signed zero.
- ExprParser.Apply: `NonFinite` lumps NaN and both infinities together. So `x / Infinity`, which JavaScript gives as 0, is `NonFinite` here. For example, `1 / (1 / 0)` is 0 in JavaScript but `NonFinite` in the model.
- ExprParser.NumberValue: a literal too long for a double, which `parseFloat` reads as Infinity, is its exact value here. A decimal literal such as `3.14` is the exact rational it spells, not the nearest double.
- SolverContext.Register: `register` stores the caller's `values` object by reference, so a caller that later mutates that object changes the registry. Anchor maps here are values, so later changes by the caller are not modelled.
- ExprParser.Evaluate: the lookup returns a finite real or an error. A registry anchor holding NaN or an infinity cannot be expressed.
- ClaudeQuery.LineLineIntersection: the `1e-10` parallel threshold is the exact real 1/10^10 and is compared against an exact denominator.
- ClaudeMirror.ReflectPoint: a squared axis length that underflows to 0 in doubles is non-zero here. The degenerate branch is taken only for an exact zero.
- ClaudeGeometric.NearestPointOnLine: the same `lenSq === 0` underflow as `reflectPoint` is not modelled.
- CodexFunctions.NearestPointOnLine: the same `lenSq === 0` underflow as `reflectPoint` is not modelled.
- ClaudeDistribute.DistributeEvenly: `count` is an integer. In JavaScript a fractional positive count is not rejected. `Array.from({ length: count })` truncates it, so `2.5` gives 2 offsets and `0.5` gives none. The gap is still computed from the fractional count. That case is not modelled.
- ClaudeDistribute.DistributeAlongEdge: `count` is an integer, as for `distributeEvenly`. A fractional count gives its truncated number of points, spaced with the fractional gap, and that case is not modelled.
- ClaudeDistribute.GridPositions: `rows` and `cols` are integers. A fractional bound, where the `for` loop runs `ceil` of it times, is not modelled.
- CodexFunctions.GridPositions: the same integer bounds as app-claude's grid.
- SolverContext.CheckBounds: diagnostics carry structured messages (side, coordinate, limit), not the formatted sentences, because JavaScript number-to-string formatting is not modelled.
- SolverContext.Find: anchor sets are Dafny maps, so names such as `constructor` or `__proto__` are found only when registered. In JavaScript, `shapeAnchors[anchor]` also reaches inherited object properties (`#box.constructor` resolves to a function and is refused as a point).
- SolverContext.Resolve: the same as `Find` for inherited object properties.
- SolverContext.ResolvePoint: the same as `Find` for inherited object properties.
- SolverContext.ResolveExpr: the expression-valued `resolve(expr, selfId)` appears only in the tests. It is modelled as the parse-then-evaluate pipeline the tests expect, not from an implementation.
- SolverContext.ResolveWithAxisCheck: it also appears only in the tests. The classification of anchors into x and y axes is a parameter, and the warning text is not modelled.
- `registerShape`, `realizedShapes` and `checkRotatedBounds` of the registry are not modelled: they concern rotated shapes drawn by the React layer.
- The React components, SVG rendering, hooks and every other I/O of both apps are not modelled.
- Error messages are structured reasons with positions (`ExprLexer.Reason`, `SolverContext.ResolveError`), not the thrown messages' text.
- The grammar comment in ExprParser.ts lists a `unaryMinus factor` rule, but `parseFactor` has no such branch. The model follows the code: a `-` reaches the parser only inside a NUMBER token, and `-(1)` is a parse error.
- `scanNumber` accepts `.`, `5.` and `.5`. The model keeps them; a lone `.` (and `-.`) reads as NaN, which is `NonFinite`.
- ExprGrammar's printer emits non-negative integer literals and position 0 only. The round trip therefore covers trees whose literals are natural numbers; `ParsesRetokenized` carries it over to real inputs with any positions.
- ClaudeGeometric.NearestIsClosest: it requires the segment to have a non-zero squared length or coinciding endpoints. The two are equivalent for exact reals, but the verifier's nonlinear arithmetic does not derive `v * v == 0 ==> v == 0` here.
- ErrorCollector.GetErrors: `getErrors` returns a copy so that callers cannot change the collector. Collectors here are immutable values, so the copy has nothing to protect.
- Trigonometric and square-root helpers are not modelled, because they need real `sqrt`, `atan2`, `sin` and `cos`. In query.ts these are `lineLength`, `lineAngle`, `lineDirection`, the distance helpers and the line/circle, circle/circle and line/rect intersections. In the other files they are `offsetPoint`, `parallelLine`, `distributeOnCircle`, `collinear`, `nearestPointOnCircle` and `pointOnCircleAt`.
- app-codex's `distributeAlongEdge` is not modelled (it places items with `pointOnLineAt` at `(i + 1) / (count + 1)`).
- app-codex's `mirrorLine`, `mirrorCircle` and `mirrorRect` are not modelled. Its `mirrorRect` mirrors the centre.
- app-codex's helpers that coincide with app-claude's (`rectCenter`, `circleCenter`, `circleBoundingBox`, `insetRect`, `distributeEvenly`, `pointOnLineAt`, `mirrorPointAbout`) are not modelled twice; the app-claude definitions stand for both.
- app-codex's `errors.tsx` is not part of this model.

=== FILE: claude_align.dfy ===
/** Alignment helpers of app-claude (app-claude/src/constraints/align.ts).
    Each returns where a second shape should go — a centre or a rect origin —
    or, for `alignFlush`, the signed gap between two edges. */
module ClaudeAlign {
  import opened Geometry
  import ClaudeQuery
  import ClaudeGeometric

  /** `getCenter`: a rect's centre or a circle's centre. */
  function GetCenter(s: Shape): (c: Point)
    ensures s.RectShape? ==> c == ClaudeQuery.RectCenter(s.rect)
    ensures s.CircleShape? ==> c == ClaudeQuery.CircleCenter(s.circle)
  {
    match s
    case RectShape(r) => ClaudeQuery.RectCenter(r)
    case CircleShape(c) => ClaudeQuery.CircleCenter(c)
  }

  /** Centring a shape on its own centre leaves it where it is. */
  lemma CenterAtOwnCenter(s: Shape)
    ensures ClaudeGeometric.CenterAtPoint(s, GetCenter(s)) == s
  {
  }

  /** The same rect with its top-left corner moved to `origin`. */
  function PlacedAt(r: Rect, origin: Point): (t: Rect)
    ensures ClaudeQuery.RectCorner(t, TopLeft) == origin
    ensures t.width == r.width && t.height == r.height
  {
    Rect(origin.x, origin.y, r.width, r.height)
  }

  /** `alignCenterX`: the centre `b` should take so that it sits on the same
      vertical line as `a`'s centre; `b` keeps its own y. */
  function AlignCenterX(a: Shape, b: Shape): (p: Point)
    ensures p.x == GetCenter(a).x
    ensures p.y == GetCenter(b).y
  {
    Point(GetCenter(a).x, GetCenter(b).y)
  }

  /** `alignCenterY`: the centre `b` should take so that it sits on the same
      horizontal line as `a`'s centre; `b` keeps its own x. */
  function AlignCenterY(a: Shape, b: Shape): (p: Point)
    ensures p.y == GetCenter(a).y
    ensures p.x == GetCenter(b).x
  {
    Point(GetCenter(b).x, GetCenter(a).y)
  }

  /** Moving `b` (with `centerAtPoint`) to the centre `alignCenterX` returns lines its centre up with
      `a`'s on x, leaves its centre's y where it was, and a second alignment
      asks for no further move. */
  lemma AlignCenterXAligns(a: Shape, b: Shape)
    ensures GetCenter(ClaudeGeometric.CenterAtPoint(b, AlignCenterX(a, b))).x == GetCenter(a).x
    ensures GetCenter(ClaudeGeometric.CenterAtPoint(b, AlignCenterX(a, b))).y == GetCenter(b).y
    ensures AlignCenterX(a, ClaudeGeometric.CenterAtPoint(b, AlignCenterX(a, b))) == AlignCenterX(a, b)
  {
  }

  /** The same for `alignCenterY`, on the other axis. */
  lemma AlignCenterYAligns(a: Shape, b: Shape)
    ensures GetCenter(ClaudeGeometric.CenterAtPoint(b, AlignCenterY(a, b))).y == GetCenter(a).y
    ensures GetCenter(ClaudeGeometric.CenterAtPoint(b, AlignCenterY(a, b))).x == GetCenter(b).x
    ensures AlignCenterY(a, ClaudeGeometric.CenterAtPoint(b, AlignCenterY(a, b))) == AlignCenterY(a, b)
  {
  }

  /** The two centre alignments are mirror images: aligning `b` to `a` on one
      axis takes the coordinates the other alignment of `a` to `b` swaps. */
  lemma AlignCentersSwap(a: Shape, b: Shape)
    ensures AlignCenterX(a, b) == AlignCenterY(b, a)
  {
  }

  /** `getEdgeCoord`: the coordinate an edge lies on — y for top and bottom,
      x for left and right — which is where the edge's segment runs and
      where its midpoint sits. */
  function EdgeCoord(r: Rect, e: Edge): (v: real)
    ensures IsHorizontal(e) ==> v == ClaudeQuery.RectEdge(r, e).from.y == ClaudeQuery.RectEdge(r, e).to.y
    ensures !IsHorizontal(e) ==> v == ClaudeQuery.RectEdge(r, e).from.x == ClaudeQuery.RectEdge(r, e).to.x
    ensures IsHorizontal(e) ==> v == ClaudeQuery.RectEdgeMidpoint(r, e).y
    ensures !IsHorizontal(e) ==> v == ClaudeQuery.RectEdgeMidpoint(r, e).x
  {
    match e
    case Top => r.y
    case Bottom => r.y + r.height
    case Left => r.x
    case Right => r.x + r.width
  }

  /** Moving a rect shifts each of its edge coordinates by the move along that
      edge's axis. */
  lemma EdgeCoordShifts(r: Rect, origin: Point, e: Edge)
    ensures IsHorizontal(e) ==> EdgeCoord(PlacedAt(r, origin), e) == EdgeCoord(r, e) + (origin.y - r.y)
    ensures !IsHorizontal(e) ==> EdgeCoord(PlacedAt(r, origin), e) == EdgeCoord(r, e) + (origin.x - r.x)
  {
  }

  /** `alignEdge`: the origin `b` should take so that its edge `bEdge` lies
      on the coordinate of `a`'s edge `aEdge`. Only `bEdge` decides the axis
      of the move, so a perpendicular `aEdge` contributes its coordinate on
      the other axis unchanged. */
  function AlignEdge(a: Rect, aEdge: Edge, b: Rect, bEdge: Edge): (origin: Point)
    ensures IsHorizontal(bEdge) ==> origin.x == b.x
    ensures !IsHorizontal(bEdge) ==> origin.y == b.y
  {
    var aCoord := EdgeCoord(a, aEdge);
    var bCoord := EdgeCoord(b, bEdge);
    if bEdge == Top || bEdge == Bottom then
      Point(b.x, b.y + (aCoord - bCoord))
    else
      Point(b.x + (aCoord - bCoord), b.y)
  }

  /** `alignFlush`: the signed distance from `b`'s edge to `a`'s edge. */
  function AlignFlush(a: Rect, aEdge: Edge, b: Rect, bEdge: Edge): (gap: real)
    ensures gap == 0.0 <==> EdgeCoord(a, aEdge) == EdgeCoord(b, bEdge)
    ensures gap > 0.0 <==> EdgeCoord(a, aEdge) > EdgeCoord(b, bEdge)
  {
    EdgeCoord(a, aEdge) - EdgeCoord(b, bEdge)
  }

  /** Placing `b` at the origin `alignEdge` returns puts its edge on `a`'s
      edge: the gap `alignFlush` measures afterwards is zero, `b` keeps its
      size, and it moved by exactly the gap measured before, along the axis
      of `bEdge` only. */
  lemma AlignEdgeMakesFlush(a: Rect, aEdge: Edge, b: Rect, bEdge: Edge)
    ensures AlignFlush(a, aEdge, PlacedAt(b, AlignEdge(a, aEdge, b, bEdge)), bEdge) == 0.0
    ensures IsHorizontal(bEdge) ==> AlignEdge(a, aEdge, b, bEdge) == Point(b.x, b.y + AlignFlush(a, aEdge, b, bEdge))
    ensures !IsHorizontal(bEdge) ==> AlignEdge(a, aEdge, b, bEdge) == Point(b.x + AlignFlush(a, aEdge, b, bEdge), b.y)
  {
    EdgeCoordShifts(b, AlignEdge(a, aEdge, b, bEdge), bEdge);
  }

  /** A rect already flush needs no move. */
  lemma AlignEdgeWhenFlush(a: Rect, aEdge: Edge, b: Rect, bEdge: Edge)
    requires AlignFlush(a, aEdge, b, bEdge) == 0.0
    ensures AlignEdge(a, aEdge, b, bEdge) == ClaudeQuery.RectCorner(b, TopLeft)
  {
  }

  /** Measuring the gap the other way round flips its sign; an edge is flush
      with itself. */
  lemma AlignFlushAntisymmetric(a: Rect, aEdge: Edge, b: Rect, bEdge: Edge)
    ensures AlignFlush(a, aEdge, b, bEdge) == -AlignFlush(b, bEdge, a, aEdge)
    ensures AlignFlush(a, aEdge, a, aEdge) == 0.0
  {
  }

  /** The shapes of the tests: `a` = {0, 0, 100, 50}, `b` = {200, 200, 60, 30}. */
  lemma AlignCenterXExample()
    ensures AlignCenterX(RectShape(Rect(0.0, 0.0, 100.0, 50.0)), RectShape(Rect(200.0, 200.0, 60.0, 30.0)))
         == Point(50.0, 215.0)
  {
  }

  lemma AlignCenterYExample()
    ensures AlignCenterY(RectShape(Rect(0.0, 0.0, 100.0, 50.0)), RectShape(Rect(200.0, 200.0, 60.0, 30.0)))
         == Point(230.0, 25.0)
  {
  }

  lemma AlignEdgeExample()
    ensures AlignEdge(Rect(0.0, 0.0, 100.0, 50.0), Bottom, Rect(200.0, 200.0, 60.0, 30.0), Top).y == 50.0
  {
  }

  lemma AlignFlushExample()
    ensures AlignFlush(Rect(0.0, 0.0, 100.0, 50.0), Right, Rect(200.0, 200.0, 60.0, 30.0), Left) == -100.0
  {
  }
}

=== FILE: claude_distribute.dfy ===
/** Distribution helpers of app-claude (app-claude/src/constraints/distribute.ts):
    spreading items evenly across a length or along a rect's edge, and laying
    out a grid of cells. */
module ClaudeDistribute {
  import opened Geometry
  import ClaudeQuery

  /** The layout `distributeEvenly` produces, stated without its formula:
      items of width `w` start at the offsets in `s`, and the gap before the
      first item, the gaps between neighbours and the gap after the last item
      (up to `total`) are all the same — namely `s[0]`. */
  ghost predicate EvenlySpaced(s: seq<real>, w: real, total: real) {
    && |s| > 0
    && (forall i :: 0 < i < |s| ==> s[i] - (s[i - 1] + w) == s[0])
    && total - (s[|s| - 1] + w) == s[0]
  }

  /** `distributeEvenly`: the start offsets of `count` items of width
      `itemWidth` spread across `totalWidth` with equal gaps at both ends
      and between items. No items for a count that is zero or negative. */
  function DistributeEvenly(count: int, itemWidth: real, totalWidth: real): (r: seq<real>)
    ensures count <= 0 ==> r == []
    ensures count > 0 ==> |r| == count && EvenlySpaced(r, itemWidth, totalWidth)
  {
    if count <= 0 then
      []
    else
      var n := count as real;
      var gap := (totalWidth - n * itemWidth) / (n + 1.0);
      var r := seq(count, i requires 0 <= i < count => gap + i as real * (itemWidth + gap));
      EvenLayout(r, count, itemWidth, totalWidth, gap);
      r
  }

  lemma EvenLayout(r: seq<real>, count: int, w: real, total: real, gap: real)
    requires count > 0
    requires gap == (total - count as real * w) / (count as real + 1.0)
    requires |r| == count
    requires forall i :: 0 <= i < count ==> r[i] == gap + i as real * (w + gap)
    ensures EvenlySpaced(r, w, total)
  {
    var n := count as real;
    assert gap * (n + 1.0) == total - n * w;
    forall i | 0 < i < |r|
      ensures r[i] - (r[i - 1] + w) == r[0]
    {
      assert r[i] == gap + (i - 1) as real * (w + gap) + (w + gap);
    }
    assert r[count - 1] + w == gap + (n - 1.0) * (w + gap) + w;
    assert (n - 1.0) * (w + gap) == n * w + n * gap - w - gap;
  }

  /** Offsets that step by the same amount `d` from one to the next form an
      arithmetic progression. */
  lemma {:induction false} Progression(s: seq<real>, d: real, i: nat)
    requires forall j :: 0 < j < |s| ==> s[j] - s[j - 1] == d
    requires i < |s|
    ensures s[i] == s[0] + i as real * d
  {
    if i > 0 {
      Progression(s, d, i - 1);
    }
  }

  /** The gap of an even layout is fixed by the number of items, their width
      and the total: `n` items and `n + 1` equal gaps fill the total. */
  lemma SolveGap(g: real, w: real, total: real, n: real)
    requires n >= 1.0
    requires total - (g + (n - 1.0) * (w + g) + w) == g
    ensures g == (total - n * w) / (n + 1.0)
  {
    assert (n - 1.0) * (w + g) == n * w + n * g - w - g;
    assert g * (n + 1.0) == total - n * w;
  }

  /** In an even layout every offset is the first one plus whole steps of
      one item and one gap. */
  lemma EvenSteps(s: seq<real>, w: real, total: real)
    requires EvenlySpaced(s, w, total)
    ensures forall i :: 0 <= i < |s| ==> s[i] == s[0] + i as real * (w + s[0])
  {
    forall j | 0 < j < |s|
      ensures s[j] - s[j - 1] == w + s[0]
    {
    }
    forall i | 0 <= i < |s|
      ensures s[i] == s[0] + i as real * (w + s[0])
    {
      Progression(s, w + s[0], i);
    }
  }

  /** In an even layout the first offset (the gap) is what `distributeEvenly`
      computes. */
  lemma EvenGap(s: seq<real>, w: real, total: real)
    requires EvenlySpaced(s, w, total)
    ensures s[0] == (total - |s| as real * w) / (|s| as real + 1.0)
  {
    var count := |s|;
    EvenSteps(s, w, total);
    assert s[count - 1] == s[0] + (count - 1) as real * (w + s[0]);
    assert (count - 1) as real == count as real - 1.0;
    SolveGap(s[0], w, total, count as real);
  }

  lemma DistributionAt(count: int, w: real, total: real, i: int)
    requires 0 <= i < count
    ensures DistributeEvenly(count, w, total)[i]
         == (total - count as real * w) / (count as real + 1.0)
            + i as real * (w + (total - count as real * w) / (count as real + 1.0))
  {
  }

  /** The equal-gap layout is unique: any evenly spaced placement of `|s|`
      items is the one `distributeEvenly` computes. */
  lemma EvenlySpacedIsDistribution(s: seq<real>, w: real, total: real)
    requires EvenlySpaced(s, w, total)
    ensures s == DistributeEvenly(|s|, w, total)
  {
    EvenSteps(s, w, total);
    EvenGap(s, w, total);
    var r := DistributeEvenly(|s|, w, total);
    forall i | 0 <= i < |s|
      ensures s[i] == r[i]
    {
      DistributionAt(|s|, w, total, i);
    }
  }

  /** A single item is centred: its middle sits at half the total width. */
  lemma SingleItemCentred(w: real, total: real)
    ensures |DistributeEvenly(1, w, total)| == 1
    ensures DistributeEvenly(1, w, total)[0] + w / 2.0 == total / 2.0
  {
  }

  /** The examples of the tests. */
  lemma DistributeEvenlyExamples()
    ensures DistributeEvenly(3, 10.0, 100.0) == [17.5, 45.0, 72.5]
    ensures DistributeEvenly(0, 10.0, 100.0) == []
    ensures DistributeEvenly(1, 20.0, 100.0) == [40.0]
  {
    var r := DistributeEvenly(3, 10.0, 100.0);
    assert r[0] == 17.5 && r[1] == 45.0 && r[2] == 72.5;
  }

  /** A step of `d` along an edge: along x for top and bottom, along y for
      left and right. */
  function Along(e: Edge, d: real): Point {
    if IsHorizontal(e) then Point(d, 0.0) else Point(0.0, d)
  }

  /** The length of an edge: the rect's width for top and bottom, its height
      for left and right. */
  function EdgeLength(r: Rect, e: Edge): real {
    if IsHorizontal(e) then r.width else r.height
  }

  /** `distributeAlongEdge`: the item positions spread evenly along one edge
      of a rect. Every point lies on the edge, at the distance from the
      edge's start corner that `distributeEvenly` gives for the edge's
      length. */
  function DistributeAlongEdge(count: int, itemSize: real, rect: Rect, edge: Edge): (pts: seq<Point>)
    ensures |pts| == |DistributeEvenly(count, itemSize, EdgeLength(rect, edge))|
    ensures forall i :: 0 <= i < |pts| ==>
      pts[i] == Add(ClaudeQuery.RectEdge(rect, edge).from, Along(edge, DistributeEvenly(count, itemSize, EdgeLength(rect, edge))[i]))
  {
    if count <= 0 then
      []
    else
      var horizontal := edge == Top || edge == Bottom;
      var totalLength := if horizontal then rect.width else rect.height;
      var positions := DistributeEvenly(count, itemSize, totalLength);
      var mid := ClaudeQuery.RectEdgeMidpoint(rect, edge);
      if horizontal then
        seq(|positions|, i requires 0 <= i < |positions| => Point(rect.x + positions[i], mid.y))
      else
        seq(|positions|, i requires 0 <= i < |positions| => Point(mid.x, rect.y + positions[i]))
  }

  /** One item along an edge is centred on the edge's midpoint. */
  lemma SingleItemOnEdgeCentred(itemSize: real, rect: Rect, edge: Edge)
    ensures |DistributeAlongEdge(1, itemSize, rect, edge)| == 1
    ensures Add(DistributeAlongEdge(1, itemSize, rect, edge)[0], Along(edge, itemSize / 2.0))
         == ClaudeQuery.RectEdgeMidpoint(rect, edge)
  {
    SingleItemCentred(itemSize, EdgeLength(rect, edge));
  }

  /** `gridPositions` (note its argument order: columns first): the
      top-left corner of each cell, row by row, one cell plus one gap apart,
      from the origin. */
  method GridPositions(cols: int, rows: int, cellWidth: real, cellHeight: real, gap: real)
    returns (points: seq<Point>)
    ensures points == GridCells(rows, cols, cellWidth + gap, cellHeight + gap, Point(0.0, 0.0))
  {
    var stepX, stepY := cellWidth + gap, cellHeight + gap;
    points := [];
    var row := 0;
    while row < rows
      invariant 0 <= row
      invariant row <= rows || row == 0
      invariant cols <= 0 ==> points == []
      invariant cols > 0 ==> |points| == row * cols
      invariant cols > 0 ==> forall k :: 0 <= k < |points| ==> points[k] == GridCell(k, cols, stepX, stepY, Point(0.0, 0.0))
    {
      var col := 0;
      while col < cols
        invariant 0 <= col
        invariant cols > 0 ==> col <= cols
        invariant cols <= 0 ==> points == []
        invariant cols > 0 ==> |points| == row * cols + col
        invariant cols > 0 ==> forall k :: 0 <= k < |points| ==> points[k] == GridCell(k, cols, stepX, stepY, Point(0.0, 0.0))
      {
        GridCellAt(row, col, cols, stepX, stepY, Point(0.0, 0.0));
        points := points + [Point(col as real * stepX, row as real * stepY)];
        col := col + 1;
      }
      assert cols > 0 ==> row * cols + cols == (row + 1) * cols;
      row := row + 1;
    }
    if rows > 0 && cols > 0 {
      var grid := GridCells(rows, cols, stepX, stepY, Point(0.0, 0.0));
      assert |points| == |grid|;
      forall k | 0 <= k < |points|
        ensures points[k] == grid[k]
      {
      }
    } else if cols > 0 {
      assert row == 0 && |points| == 0;
    }
  }

  /** The grid of the tests: two columns, three rows, 10 by 10 cells, gap 5. */
  lemma GridPositionsExample()
    ensures |GridCells(3, 2, 10.0 + 5.0, 10.0 + 5.0, Point(0.0, 0.0))| == 6
    ensures GridCells(3, 2, 10.0 + 5.0, 10.0 + 5.0, Point(0.0, 0.0))[0] == Point(0.0, 0.0)
    ensures GridCells(3, 2, 10.0 + 5.0, 10.0 + 5.0, Point(0.0, 0.0))[1] == Point(15.0, 0.0)
    ensures GridCells(3, 2, 10.0 + 5.0, 10.0 + 5.0, Point(0.0, 0.0))[2] == Point(0.0, 15.0)
  {
    var g := GridCells(3, 2, 15.0, 15.0, Point(0.0, 0.0));
    assert g[1] == GridCell(1, 2, 15.0, 15.0, Point(0.0, 0.0));
    assert g[2] == GridCell(2, 2, 15.0, 15.0, Point(0.0, 0.0));
  }
}

=== FILE: claude_geometric.dfy ===
/** Geometric constraint helpers of app-claude
    (app-claude/src/constraints/geometric.ts) that need no trigonometry or
    square roots: placing shapes on points, flattening lines, distances
    along one axis, midpoints, the nearest point of a segment and points
    along a line. */
module ClaudeGeometric {
  import opened Results
  import opened Geometry
  import ClaudeQuery

  /** `coincident`: the point the second one should move to is a copy of
      the first; the second point's own position plays no part. */
  function Coincident(a: Point, b: Point): (r: Point)
    ensures r == a
  {
    Point(a.x, a.y)
  }

  /** Only the first point matters. */
  lemma CoincidentIgnoresSecond(a: Point, b: Point, c: Point)
    ensures Coincident(a, b) == Coincident(a, c)
    ensures Coincident(Coincident(a, b), c) == Coincident(a, b)
  {
  }

  /** `centerAtPoint`: the same shape moved (not resized) so that its centre
      is `point` — a circle takes the point as its centre, a rect is shifted
      by half its size. */
  function CenterAtPoint(shape: Shape, point: Point): (t: Shape)
    ensures t.RectShape? == shape.RectShape?
    ensures t.RectShape? ==> ClaudeQuery.RectCenter(t.rect) == point
    ensures t.RectShape? ==> t.rect.width == shape.rect.width && t.rect.height == shape.rect.height
    ensures t.CircleShape? ==> ClaudeQuery.CircleCenter(t.circle) == point
    ensures t.CircleShape? ==> t.circle.r == shape.circle.r
  {
    match shape
    case CircleShape(c) => CircleShape(Circle(point.x, point.y, c.r))
    case RectShape(r) => RectShape(Rect(point.x - r.width / 2.0, point.y - r.height / 2.0, r.width, r.height))
  }

  /** The shape `centerAtPoint` returns is the only one of the same kind and
      size whose centre is the point. */
  lemma CenterAtPointIsUnique(shape: Shape, point: Point, t: Shape)
    requires t.RectShape? == shape.RectShape?
    requires t.RectShape? ==> ClaudeQuery.RectCenter(t.rect) == point
    requires t.RectShape? ==> t.rect.width == shape.rect.width && t.rect.height == shape.rect.height
    requires t.CircleShape? ==> ClaudeQuery.CircleCenter(t.circle) == point
    requires t.CircleShape? ==> t.circle.r == shape.circle.r
    ensures t == CenterAtPoint(shape, point)
  {
  }

  /** Only the last centre counts. */
  lemma CenterAtPointTwice(shape: Shape, p: Point, q: Point)
    ensures CenterAtPoint(CenterAtPoint(shape, p), q) == CenterAtPoint(shape, q)
  {
  }

  /** The examples of the tests. */
  lemma CenterAtPointExamples()
    ensures CenterAtPoint(CircleShape(Circle(0.0, 0.0, 5.0)), Point(10.0, 20.0)) == CircleShape(Circle(10.0, 20.0, 5.0))
    ensures CenterAtPoint(RectShape(Rect(0.0, 0.0, 20.0, 10.0)), Point(50.0, 50.0)) == RectShape(Rect(40.0, 45.0, 20.0, 10.0))
  {
  }

  /** `centerAtCorner`: the circle, with its radius, centred on a corner of
      the rect. */
  function CenterAtCorner(shape: Circle, rect: Rect, corner: Corner): (c: Circle)
    ensures ClaudeQuery.CircleCenter(c) == ClaudeQuery.RectCorner(rect, corner)
    ensures c.r == shape.r
  {
    var pt := ClaudeQuery.RectCorner(rect, corner);
    Circle(pt.x, pt.y, shape.r)
  }

  /** Centring on a corner is centring on the point of that corner. */
  lemma CenterAtCornerIsCenterAtPoint(shape: Circle, rect: Rect, corner: Corner)
    ensures CircleShape(CenterAtCorner(shape, rect, corner))
         == CenterAtPoint(CircleShape(shape), ClaudeQuery.RectCorner(rect, corner))
  {
  }

  /** `centerAtEdgeMidpoint`: the circle, with its radius, centred on the
      middle of an edge of the rect. */
  function CenterAtEdgeMidpoint(shape: Circle, rect: Rect, edge: Edge): (c: Circle)
    ensures ClaudeQuery.CircleCenter(c) == Mid(ClaudeQuery.RectEdge(rect, edge).from, ClaudeQuery.RectEdge(rect, edge).to)
    ensures c.r == shape.r
  {
    var pt := ClaudeQuery.RectEdgeMidpoint(rect, edge);
    Circle(pt.x, pt.y, shape.r)
  }

  /** Centring on an edge's midpoint is centring on that point. */
  lemma CenterAtEdgeMidpointIsCenterAtPoint(shape: Circle, rect: Rect, edge: Edge)
    ensures CircleShape(CenterAtEdgeMidpoint(shape, rect, edge))
         == CenterAtPoint(CircleShape(shape), ClaudeQuery.RectEdgeMidpoint(rect, edge))
  {
  }

  /** The examples of the tests: a circle of radius 5 on the top-right
      corner and on the bottom edge's midpoint of a 100 by 50 rect. */
  lemma CenterAtRectExamples()
    ensures CenterAtCorner(Circle(0.0, 0.0, 5.0), Rect(0.0, 0.0, 100.0, 50.0), TopRight) == Circle(100.0, 0.0, 5.0)
    ensures CenterAtEdgeMidpoint(Circle(0.0, 0.0, 5.0), Rect(0.0, 0.0, 100.0, 50.0), Bottom) == Circle(50.0, 50.0, 5.0)
  {
  }

  /** The centre and radius every round shape has. */
  function RoundCenter(s: Round): Point {
    match s
    case RoundCircle(c) => Point(c.cx, c.cy)
    case RoundArc(a) => Point(a.cx, a.cy)
  }

  function RoundRadius(s: Round): real {
    match s
    case RoundCircle(c) => c.r
    case RoundArc(a) => a.r
  }

  /** `concentric`: `b` moved onto `a`'s centre. It keeps its own radius, and
      an arc stays an arc with its own angles; `a`'s kind and radius play no
      part. */
  function Concentric(a: Round, b: Round): (r: Round)
    ensures RoundCenter(r) == RoundCenter(a)
    ensures RoundRadius(r) == RoundRadius(b)
    ensures r.RoundArc? == b.RoundArc?
    ensures r.RoundArc? ==> r.arc.startAngle == b.arc.startAngle && r.arc.endAngle == b.arc.endAngle
  {
    var center := RoundCenter(a);
    match b
    case RoundCircle(c) => RoundCircle(Circle(center.x, center.y, c.r))
    case RoundArc(arc) => RoundArc(Arc(center.x, center.y, arc.r, arc.startAngle, arc.endAngle))
  }

  /** A shape already on `a`'s centre is left as it is; in particular every
      shape is concentric with itself, and a second call changes nothing. */
  lemma ConcentricWhenCentred(a: Round, b: Round)
    requires RoundCenter(b) == RoundCenter(a)
    ensures Concentric(a, b) == b
  {
  }

  lemma ConcentricTwice(a: Round, b: Round)
    ensures Concentric(a, Concentric(a, b)) == Concentric(a, b)
    ensures Concentric(b, b) == b
  {
    ConcentricWhenCentred(a, Concentric(a, b));
    ConcentricWhenCentred(b, b);
  }

  /** The example of the tests. */
  lemma ConcentricExample()
    ensures Concentric(RoundCircle(Circle(10.0, 20.0, 5.0)), RoundCircle(Circle(99.0, 99.0, 15.0)))
         == RoundCircle(Circle(10.0, 20.0, 15.0))
  {
  }

  /** `horizontal`: the line flattened onto the height of its midpoint; both
      endpoints keep their x, so the midpoint does not move. */
  function Horizontal(line: Line): (r: Line)
    ensures r.from.y == r.to.y
    ensures r.from.x == line.from.x && r.to.x == line.to.x
    ensures Mid(r.from, r.to) == Mid(line.from, line.to)
  {
    var y := (line.from.y + line.to.y) / 2.0;
    Line(Point(line.from.x, y), Point(line.to.x, y))
  }

  /** The flattened line is the only horizontal line with those x's and that
      midpoint; so a line that is already horizontal is left alone. */
  lemma HorizontalIsUnique(line: Line, r: Line)
    requires r.from.y == r.to.y
    requires r.from.x == line.from.x && r.to.x == line.to.x
    requires Mid(r.from, r.to) == Mid(line.from, line.to)
    ensures r == Horizontal(line)
  {
  }

  lemma HorizontalKeepsFlatLine(line: Line)
    requires line.from.y == line.to.y
    ensures Horizontal(line) == line
  {
    HorizontalIsUnique(line, line);
  }

  /** `vertical`: the line stood upright on the x of its midpoint; both
      endpoints keep their y. */
  function Vertical(line: Line): (r: Line)
    ensures r.from.x == r.to.x
    ensures r.from.y == line.from.y && r.to.y == line.to.y
    ensures Mid(r.from, r.to) == Mid(line.from, line.to)
  {
    var x := (line.from.x + line.to.x) / 2.0;
    Line(Point(x, line.from.y), Point(x, line.to.y))
  }

  lemma VerticalIsUnique(line: Line, r: Line)
    requires r.from.x == r.to.x
    requires r.from.y == line.from.y && r.to.y == line.to.y
    requires Mid(r.from, r.to) == Mid(line.from, line.to)
    ensures r == Vertical(line)
  {
  }

  lemma VerticalKeepsUprightLine(line: Line)
    requires line.from.x == line.to.x
    ensures Vertical(line) == line
  {
    VerticalIsUnique(line, line);
  }

  /** The examples of the tests. */
  lemma HorizontalVerticalExamples()
    ensures Horizontal(Line(Point(0.0, 3.0), Point(10.0, 7.0))) == Line(Point(0.0, 5.0), Point(10.0, 5.0))
    ensures Vertical(Line(Point(3.0, 0.0), Point(7.0, 10.0))) == Line(Point(5.0, 0.0), Point(5.0, 10.0))
  {
  }

  /** `horizontalDistance`: how far apart two points are along x, never
      negative, and zero exactly when they share an x. */
  function HorizontalDistance(a: Point, b: Point): (d: real)
    ensures d >= 0.0
    ensures d == b.x - a.x || d == a.x - b.x
    ensures d == 0.0 <==> a.x == b.x
  {
    Abs(b.x - a.x)
  }

  /** `verticalDistance`: the same along y. */
  function VerticalDistance(a: Point, b: Point): (d: real)
    ensures d >= 0.0
    ensures d == b.y - a.y || d == a.y - b.y
    ensures d == 0.0 <==> a.y == b.y
  {
    Abs(b.y - a.y)
  }

  /** Both distances are symmetric, and each ignores the other axis: the
      vertical distance from `a` to `b` is the horizontal distance between
      the points with their coordinates swapped. */
  lemma AxisDistancesSymmetric(a: Point, b: Point)
    ensures HorizontalDistance(a, b) == HorizontalDistance(b, a)
    ensures VerticalDistance(a, b) == VerticalDistance(b, a)
    ensures VerticalDistance(a, b) == HorizontalDistance(Point(a.y, a.x), Point(b.y, b.x))
  {
  }

  /** The examples of the tests. */
  lemma AxisDistanceExamples()
    ensures HorizontalDistance(Point(10.0, 0.0), Point(25.0, 100.0)) == 15.0
    ensures VerticalDistance(Point(0.0, 10.0), Point(100.0, 35.0)) == 25.0
  {
  }

  /** The first argument of `midpoint`: a point, or a line (told apart by
      `'from' in a`). */
  datatype PointOrLine = APoint(point: Point) | ALine(line: Line)

  /** `midpoint`: the point halfway along a line, or halfway between two
      points. Given a point and no second point, geometric.ts reads a field
      of `undefined` and throws; `None` stands for that failure. */
  function Midpoint(a: PointOrLine, b: Option<Point>): (r: Option<Point>)
    ensures r.None? <==> a.APoint? && b.None?
    ensures r.Some? && a.ALine? ==> Scale(2.0, r.value) == Add(a.line.from, a.line.to)
    ensures r.Some? && a.APoint? ==> Scale(2.0, r.value) == Add(a.point, b.value)
  {
    match a
    case ALine(line) => Some(Point((line.from.x + line.to.x) / 2.0, (line.from.y + line.to.y) / 2.0))
    case APoint(p1) =>
      if b.None? then None
      else
        var p2 := b.value;
        Some(Point((p1.x + p2.x) / 2.0, (p1.y + p2.y) / 2.0))
  }

  /** The two forms agree: the midpoint of a line is the midpoint of its
      endpoints, whatever second argument comes along; the order of two
      points does not matter; and the midpoint is equally far from both. */
  lemma MidpointForms(line: Line, b: Option<Point>)
    ensures Midpoint(ALine(line), b) == Midpoint(APoint(line.from), Some(line.to))
    ensures Midpoint(APoint(line.from), Some(line.to)) == Midpoint(APoint(line.to), Some(line.from))
  {
  }

  lemma MidpointEquidistant(p: Point, q: Point)
    ensures DistSq(Midpoint(APoint(p), Some(q)).value, p) == DistSq(Midpoint(APoint(p), Some(q)).value, q)
  {
    var m := Midpoint(APoint(p), Some(q)).value;
    assert Sub(m, p) == Point((q.x - p.x) / 2.0, (q.y - p.y) / 2.0);
    assert Sub(m, q) == Point(-((q.x - p.x) / 2.0), -((q.y - p.y) / 2.0));
  }

  /** The example of the tests. */
  lemma MidpointExample()
    ensures Midpoint(APoint(Point(0.0, 0.0)), Some(Point(10.0, 10.0))) == Some(Point(5.0, 5.0))
    ensures Midpoint(APoint(Point(0.0, 0.0)), None) == None
  {
  }

  /** `pointOnLineAt`: the point at parameter `t` along the line, on the
      infinite line through it; on a line of proper length the parameter can
      be read back off the point. */
  function PointOnLineAt(line: Line, t: real): (p: Point)
    ensures OnLine(p, line)
    ensures LengthSq(line) != 0.0 ==> FootParameter(p, line) == t
  {
    var p := Point(line.from.x + t * (line.to.x - line.from.x), line.from.y + t * (line.to.y - line.from.y));
    AtFacts(line, t);
    assert p == At(line, t);
    p
  }

  lemma AtFacts(line: Line, t: real)
    ensures OnLine(At(line, t), line)
    ensures LengthSq(line) != 0.0 ==> FootParameter(At(line, t), line) == t
  {
    var d := Direction(line);
    assert Sub(At(line, t), line.from) == Scale(t, d);
    assert Cross(Scale(t, d), d) == t * (d.x * d.y - d.y * d.x);
    assert Dot(Scale(t, d), d) == t * Dot(d, d);
    assert LengthSq(line) == Dot(d, d);
  }

  /** Parameter 0 is the start, 1 the end and one half the midpoint. */
  lemma PointOnLineAtEnds(line: Line)
    ensures PointOnLineAt(line, 0.0) == line.from
    ensures PointOnLineAt(line, 1.0) == line.to
    ensures Some(PointOnLineAt(line, 0.5)) == Midpoint(ALine(line), None)
  {
  }

  /** The examples of the tests. */
  lemma PointOnLineAtExamples()
    ensures PointOnLineAt(Line(Point(0.0, 0.0), Point(10.0, 10.0)), 0.5) == Point(5.0, 5.0)
    ensures PointOnLineAt(Line(Point(0.0, 0.0), Point(10.0, 10.0)), 0.0) == Point(0.0, 0.0)
    ensures PointOnLineAt(Line(Point(0.0, 0.0), Point(10.0, 10.0)), 1.0) == Point(10.0, 10.0)
  {
    PointOnLineAtEnds(Line(Point(0.0, 0.0), Point(10.0, 10.0)));
  }

  /** The parameter of the nearest point: the foot of the perpendicular,
      clamped to the segment; the start for a segment of no length. */
  function NearestParameter(point: Point, line: Line): (t: real)
    ensures 0.0 <= t <= 1.0
  {
    if LengthSq(line) == 0.0 then 0.0 else Clamp01(FootParameter(point, line))
  }

  /** `nearestPointOnLine`: a point of the segment (not of the infinite
      line) — the start when the segment has no length. That it is the
      closest such point is `NearestIsClosest`. */
  function NearestPointOnLine(point: Point, line: Line): (r: Point)
    ensures exists t :: 0.0 <= t <= 1.0 && r == At(line, t)
    ensures LengthSq(line) == 0.0 ==> r == line.from
  {
    var d := Direction(line);
    var lenSq := Dot(d, d);
    if lenSq == 0.0 then
      assert line.from == At(line, 0.0);
      line.from
    else
      var t := Clamp01(Dot(Sub(point, line.from), d) / lenSq);
      assert t == NearestParameter(point, line);
      At(line, t)
  }

  lemma NearestAtParameter(point: Point, line: Line)
    ensures NearestPointOnLine(point, line) == At(line, NearestParameter(point, line))
  {
  }

  /** The squared distance from `point` to the point at parameter `s`, as a
      polynomial in `s`. */
  lemma DistanceAlong(point: Point, line: Line, s: real)
    ensures DistSq(point, At(line, s))
         == Dot(Sub(point, line.from), Sub(point, line.from))
            - 2.0 * s * Dot(Sub(point, line.from), Direction(line))
            + s * s * LengthSq(line)
  {
    var u, d := Sub(point, line.from), Direction(line);
    assert Sub(point, At(line, s)) == Point(u.x - s * d.x, u.y - s * d.y);
    assert LengthSq(line) == d.x * d.x + d.y * d.y;
    assert (u.x - s * d.x) * (u.x - s * d.x) == u.x * u.x - 2.0 * s * (u.x * d.x) + s * s * (d.x * d.x);
    assert (u.y - s * d.y) * (u.y - s * d.y) == u.y * u.y - 2.0 * s * (u.y * d.y) + s * s * (d.y * d.y);
  }

  /** For `f(s) = U - 2sD + s²L`, `f(s) - f(t)` factors as `(s - t)((s + t)L - 2D)`. */
  lemma QuadraticGap(uu: real, dd: real, ll: real, s: real, t: real)
    ensures (uu - 2.0 * s * dd + s * s * ll) - (uu - 2.0 * t * dd + t * t * ll)
         == (s - t) * ((s + t) * ll - 2.0 * dd)
  {
  }

  lemma ZeroFactor(a: real, b: real)
    requires a == 0.0
    ensures a * b == 0.0
  {
  }

  lemma NonNegative(a: real, b: real)
    requires a >= 0.0 && b >= 0.0
    ensures a * b >= 0.0
  {
    if a == 0.0 {
      ZeroFactor(a, b);
    } else if b == 0.0 {
      ZeroFactor(b, a);
      assert a * b == b * a;
    } else {
      Positive(a, b);
    }
  }

  /** The case of a foot beyond the end: `D > L`. */
  lemma AfterEnd(dd: real, ll: real, s: real)
    requires ll > 0.0 && dd > ll
    requires 0.0 <= s <= 1.0
    ensures (s - 1.0) * ((s + 1.0) * ll - 2.0 * dd) >= 0.0
  {
    var a, b := 1.0 - s, 2.0 * dd - (s + 1.0) * ll;
    assert b == 2.0 * (dd - ll) + a * ll;
    NonNegative(a, ll);
    NonNegative(a, b);
    assert (s - 1.0) * ((s + 1.0) * ll - 2.0 * dd) == a * b;
  }

  /** The factor is never negative when `t` is the clamped minimiser
      `D / L` and `s` lies in `[0, 1]`. */
  lemma ClampedMinimum(dd: real, ll: real, s: real)
    requires ll > 0.0
    requires 0.0 <= s <= 1.0
    ensures (s - Clamp01(dd / ll)) * ((s + Clamp01(dd / ll)) * ll - 2.0 * dd) >= 0.0
  {
    var q := dd / ll;
    assert q * ll == dd;
    var t := Clamp01(q);
    if q < 0.0 {
      assert t == 0.0;
      assert dd < 0.0 by {
        Positive(-q, ll);
        assert (-q) * ll == -(q * ll);
      }
      assert s * (s * ll - 2.0 * dd) >= 0.0 by {
        if s > 0.0 {
          Positive(s, s * ll - 2.0 * dd);
        }
      }
    } else if q > 1.0 {
      assert t == 1.0;
      assert dd > ll by {
        Positive(q - 1.0, ll);
        assert (q - 1.0) * ll == q * ll - ll;
      }
      AfterEnd(dd, ll, s);
    } else {
      assert t == q;
      assert (s + q) * ll - 2.0 * dd == (s - q) * ll;
      Square(s - q);
      assert (s - q) * ((s - q) * ll) == ((s - q) * (s - q)) * ll;
    }
  }

  /** The nearest point is at least as close to `point` as every point of
      the segment. */
  lemma NearestIsClosest(point: Point, line: Line, s: real)
    requires 0.0 <= s <= 1.0
    requires LengthSq(line) != 0.0 || line.from == line.to
    ensures DistSq(point, NearestPointOnLine(point, line)) <= DistSq(point, At(line, s))
  {
    LengthSqZero(line);
    if line.from == line.to {
      AtOnPointSegment(line, s);
    } else {
      var u, d := Sub(point, line.from), Direction(line);
      var uu, dd, ll := Dot(u, u), Dot(u, d), LengthSq(line);
      var t := NearestParameter(point, line);
      NearestAtParameter(point, line);
      DistanceAlong(point, line, s);
      DistanceAlong(point, line, t);
      QuadraticGap(uu, dd, ll, s, t);
      assert t == Clamp01(dd / ll);
      ClampedMinimum(dd, ll, s);
    }
  }

  /** A segment whose endpoints coincide is a single point. */
  lemma AtOnPointSegment(line: Line, s: real)
    requires line.from == line.to
    ensures At(line, s) == line.from
  {
    assert Direction(line) == Point(0.0, 0.0);
  }

  /** Beyond the start of the segment the nearest point is the start; beyond
      its end it is the end (for a segment of proper length). */
  lemma NearestBeforeStart(point: Point, line: Line)
    requires Dot(Sub(point, line.from), Direction(line)) <= 0.0
    ensures NearestPointOnLine(point, line) == line.from
  {
    var ll := LengthSq(line);
    LengthSqZero(line);
    if ll != 0.0 {
      var q := FootParameter(point, line);
      assert q * ll == Dot(Sub(point, line.from), Direction(line));
      assert q <= 0.0;
      assert Clamp01(q) == 0.0;
      assert At(line, 0.0) == line.from;
    }
  }

  lemma NearestBeyondEnd(point: Point, line: Line)
    requires Dot(Sub(point, line.to), Direction(line)) >= 0.0
    ensures LengthSq(line) != 0.0 ==> NearestPointOnLine(point, line) == line.to
  {
    var ll := LengthSq(line);
    LengthSqZero(line);
    if ll != 0.0 {
      var d := Direction(line);
      var q := FootParameter(point, line);
      assert q * ll == Dot(Sub(point, line.from), d);
      assert Dot(Sub(point, line.from), d) == Dot(Sub(point, line.to), d) + Dot(d, d);
      assert q >= 1.0;
      assert Clamp01(q) == 1.0;
      assert At(line, 1.0) == line.to;
    }
  }

  /** A point of a segment of proper length is its own nearest point. */
  lemma NearestOfPointOnSegment(line: Line, s: real)
    requires 0.0 <= s <= 1.0
    requires LengthSq(line) != 0.0
    ensures NearestPointOnLine(At(line, s), line) == At(line, s)
  {
    AtFacts(line, s);
  }

  /** The first example of the tests: the segment from (0, 0) to (10, 0)
      and a point before its start. */
  lemma NearestBeforeExample()
    ensures NearestPointOnLine(Point(-5.0, 3.0), Line(Point(0.0, 0.0), Point(10.0, 0.0))) == Point(0.0, 0.0)
  {
    var l := Line(Point(0.0, 0.0), Point(10.0, 0.0));
    assert Dot(Sub(Point(-5.0, 3.0), l.from), Direction(l)) == -50.0;
    NearestBeforeStart(Point(-5.0, 3.0), l);
  }
}

=== FILE: claude_mirror.dfy ===
/** Mirror helpers of app-claude (app-claude/src/constraints/mirror.ts):
    reflecting points, lines, circles and rects across an axis line, and
    points through a centre. */
module ClaudeMirror {
  import opened Geometry
  import ClaudeQuery

  /** What makes `q` the mirror image of `p` across a proper axis: the
      segment from `p` to `q` is cut in half by the axis and crosses it at
      right angles. */
  ghost predicate IsReflection(p: Point, q: Point, axis: Line) {
    OnLine(Mid(p, q), axis) && Dot(Sub(q, p), Direction(axis)) == 0.0
  }

  /** `reflectPoint`: the mirror image of `point` across the line through
      `axis`; an axis whose squared length is zero reflects nothing. */
  function ReflectPoint(point: Point, axis: Line): (q: Point)
    ensures LengthSq(axis) == 0.0 ==> q == point
    ensures LengthSq(axis) != 0.0 ==> IsReflection(point, q, axis)
  {
    var d := Direction(axis);
    var lenSq := Dot(d, d);
    if lenSq == 0.0 then
      point
    else
      var t := Dot(Sub(point, axis.from), d) / lenSq;
      var proj := At(axis, t);
      ReflectionFacts(point, axis, t, proj);
      Point(2.0 * proj.x - point.x, 2.0 * proj.y - point.y)
  }

  lemma ReflectionFacts(p: Point, axis: Line, t: real, proj: Point)
    requires LengthSq(axis) != 0.0
    requires t == Dot(Sub(p, axis.from), Direction(axis)) / LengthSq(axis)
    requires proj == At(axis, t)
    ensures IsReflection(p, Point(2.0 * proj.x - p.x, 2.0 * proj.y - p.y), axis)
  {
    var d := Direction(axis);
    var q := Point(2.0 * proj.x - p.x, 2.0 * proj.y - p.y);
    assert Mid(p, q) == proj;
    assert Cross(Sub(proj, axis.from), d) == t * (d.x * d.y - d.y * d.x);
    assert t * LengthSq(axis) == Dot(Sub(p, axis.from), d);
    assert Sub(q, p) == Scale(2.0, Sub(proj, p));
    assert Sub(proj, p) == Sub(Scale(t, d), Sub(p, axis.from));
    assert Dot(Sub(Scale(t, d), Sub(p, axis.from)), d) == t * LengthSq(axis) - Dot(Sub(p, axis.from), d);
  }

  /** Across a proper axis there is exactly one mirror image: any point that
      satisfies the mirror conditions is the one `reflectPoint` returns. */
  lemma ReflectionIsUnique(p: Point, q: Point, axis: Line)
    requires LengthSq(axis) != 0.0
    requires IsReflection(p, q, axis)
    ensures q == ReflectPoint(p, axis)
  {
    var r := ReflectPoint(p, axis);
    var d := Direction(axis);
    var w := Sub(q, r);
    // Both midpoints lie on the axis, so half of `w` runs along it...
    assert Cross(Sub(Mid(p, q), axis.from), d) == 0.0;
    assert Cross(Sub(Mid(p, r), axis.from), d) == 0.0;
    assert Sub(Mid(p, q), Mid(p, r)) == Scale(0.5, w);
    assert Cross(w, d) == 0.0;
    // ... while both displacements from `p` are perpendicular to it.
    assert Dot(w, d) == Dot(Sub(q, p), d) - Dot(Sub(r, p), d);
    assert Dot(w, d) == 0.0;
    WhenCrossAndDotVanish(w, d);
  }

  /** A vector both parallel and perpendicular to a non-zero vector is zero. */
  lemma WhenCrossAndDotVanish(w: Point, d: Point)
    requires Cross(w, d) == 0.0 && Dot(w, d) == 0.0
    requires Dot(d, d) != 0.0
    ensures w == Point(0.0, 0.0)
  {
    assert w.x * Dot(d, d) == d.x * Dot(w, d) + d.y * Cross(w, d);
    assert w.y * Dot(d, d) == d.y * Dot(w, d) - d.x * Cross(w, d);
  }

  /** Mirroring twice across the same axis gives back the point. */
  lemma ReflectTwice(p: Point, axis: Line)
    ensures ReflectPoint(ReflectPoint(p, axis), axis) == p
  {
    if LengthSq(axis) != 0.0 {
      var q := ReflectPoint(p, axis);
      assert Mid(q, p) == Mid(p, q);
      assert Dot(Sub(p, q), Direction(axis)) == -Dot(Sub(q, p), Direction(axis));
      ReflectionIsUnique(q, p, axis);
    }
  }

  /** The points a proper axis leaves where they are are exactly the points on it. */
  lemma ReflectFixesExactlyTheAxis(p: Point, axis: Line)
    requires LengthSq(axis) != 0.0
    ensures ReflectPoint(p, axis) == p <==> OnLine(p, axis)
  {
    assert Mid(p, p) == p;
    if OnLine(p, axis) {
      assert Dot(Sub(p, p), Direction(axis)) == 0.0;
      ReflectionIsUnique(p, p, axis);
    }
  }

  /** An axis whose endpoints coincide leaves every point where it is. */
  lemma ReflectAcrossDegenerateAxis(p: Point, axis: Line)
    requires axis.from == axis.to
    ensures ReflectPoint(p, axis) == p
  {
    LengthSqZero(axis);
  }

  /** A proper axis (one `reflectPoint` does not treat as degenerate) along
      a vertical line. */
  predicate IsVerticalAxis(axis: Line) {
    axis.from.x == axis.to.x && LengthSq(axis) != 0.0
  }

  /** A proper axis along a horizontal line. */
  predicate IsHorizontalAxis(axis: Line) {
    axis.from.y == axis.to.y && LengthSq(axis) != 0.0
  }

  /** Across a vertical axis only x changes: it is reflected about the axis's x. */
  lemma ReflectAcrossVertical(p: Point, axis: Line)
    requires IsVerticalAxis(axis)
    ensures ReflectPoint(p, axis) == Point(2.0 * axis.from.x - p.x, p.y)
  {
    var d := Direction(axis);
    var q := Point(2.0 * axis.from.x - p.x, p.y);
    assert Mid(p, q) == Point(axis.from.x, p.y);
    assert OnLine(Mid(p, q), axis);
    assert Dot(Sub(q, p), d) == 0.0;
    ReflectionIsUnique(p, q, axis);
  }

  /** Across a horizontal axis only y changes: it is reflected about the axis's y. */
  lemma ReflectAcrossHorizontal(p: Point, axis: Line)
    requires IsHorizontalAxis(axis)
    ensures ReflectPoint(p, axis) == Point(p.x, 2.0 * axis.from.y - p.y)
  {
    var d := Direction(axis);
    var q := Point(p.x, 2.0 * axis.from.y - p.y);
    assert Mid(p, q) == Point(p.x, axis.from.y);
    assert OnLine(Mid(p, q), axis);
    assert Dot(Sub(q, p), d) == 0.0;
    ReflectionIsUnique(p, q, axis);
  }

  /** Across a proper axis the mirror image is twice the foot of the
      perpendicular, minus the point. */
  lemma ReflectThroughFoot(p: Point, axis: Line)
    requires LengthSq(axis) != 0.0
    ensures ReflectPoint(p, axis) == Sub(Scale(2.0, At(axis, FootParameter(p, axis))), p)
  {
  }

  /** Mirroring keeps distances: the mirror images of two points are as far
      apart as the points. */
  lemma ReflectKeepsDistance(p: Point, q: Point, axis: Line)
    ensures DistSq(ReflectPoint(p, axis), ReflectPoint(q, axis)) == DistSq(p, q)
  {
    if LengthSq(axis) != 0.0 {
      var d := Direction(axis);
      var len := LengthSq(axis);
      var tp, tq := FootParameter(p, axis), FootParameter(q, axis);
      var w := Sub(p, q);
      var s := tp - tq;
      FootDifference(p, q, axis);
      ReflectThroughFoot(p, axis);
      ReflectThroughFoot(q, axis);
      ReflectedDifference(p, q, axis.from, d, tp, tq);
      DistanceOfReflected(w, d, s, len);
    }
  }

  /** The difference of two points reflected through feet at `tp` and `tq`
      along `from + t·d`. */
  lemma ReflectedDifference(p: Point, q: Point, from: Point, d: Point, tp: real, tq: real)
    ensures Sub(Sub(Scale(2.0, Add(from, Scale(tp, d))), p), Sub(Scale(2.0, Add(from, Scale(tq, d))), q))
         == Sub(Scale(2.0 * (tp - tq), d), Sub(p, q))
  {
    assert 2.0 * (tp - tq) * d.x == 2.0 * (tp * d.x) - 2.0 * (tq * d.x);
    assert 2.0 * (tp - tq) * d.y == 2.0 * (tp * d.y) - 2.0 * (tq * d.y);
  }

  lemma FootDifference(p: Point, q: Point, axis: Line)
    requires LengthSq(axis) != 0.0
    ensures (FootParameter(p, axis) - FootParameter(q, axis)) * LengthSq(axis) == Dot(Sub(p, q), Direction(axis))
  {
    var d := Direction(axis);
    var len := LengthSq(axis);
    var tp, tq := FootParameter(p, axis), FootParameter(q, axis);
    assert tp * len == Dot(Sub(p, axis.from), d);
    assert tq * len == Dot(Sub(q, axis.from), d);
    assert (tp - tq) * len == tp * len - tq * len;
    assert Dot(Sub(p, axis.from), d) - Dot(Sub(q, axis.from), d) == Dot(Sub(p, q), d);
  }

  lemma DistanceOfReflected(w: Point, d: Point, s: real, len: real)
    requires len == Dot(d, d)
    requires s * len == Dot(w, d)
    ensures Dot(Sub(Scale(2.0 * s, d), w), Sub(Scale(2.0 * s, d), w)) == Dot(w, w)
  {
    var v := Sub(Scale(2.0 * s, d), w);
    assert Dot(v, v) == 4.0 * s * (s * len) - 4.0 * s * Dot(w, d) + Dot(w, w);
  }

  /** `mirrorPoint`. */
  function MirrorPoint(point: Point, axis: Line): (q: Point)
    ensures LengthSq(axis) == 0.0 ==> q == point
    ensures LengthSq(axis) != 0.0 ==> IsReflection(point, q, axis)
  {
    ReflectPoint(point, axis)
  }

  /** `mirrorLine`: each endpoint mirrored on its own; the mirrored segment
      is as long as the original, and a degenerate axis changes nothing. */
  function MirrorLine(line: Line, axis: Line): (m: Line)
    ensures LengthSq(axis) != 0.0 ==> IsReflection(line.from, m.from, axis) && IsReflection(line.to, m.to, axis)
    ensures LengthSq(axis) == 0.0 ==> m == line
    ensures LengthSq(m) == LengthSq(line)
  {
    ReflectKeepsDistance(line.to, line.from, axis);
    Line(ReflectPoint(line.from, axis), ReflectPoint(line.to, axis))
  }

  lemma MirrorLineTwice(line: Line, axis: Line)
    ensures MirrorLine(MirrorLine(line, axis), axis) == line
  {
    ReflectTwice(line.from, axis);
    ReflectTwice(line.to, axis);
  }

  /** `mirrorCircle`: the centre mirrored, the radius kept. */
  function MirrorCircle(circle: Circle, axis: Line): (m: Circle)
    ensures m.r == circle.r
    ensures LengthSq(axis) != 0.0 ==> IsReflection(ClaudeQuery.CircleCenter(circle), ClaudeQuery.CircleCenter(m), axis)
    ensures LengthSq(axis) == 0.0 ==> m == circle
  {
    var center := ReflectPoint(Point(circle.cx, circle.cy), axis);
    Circle(center.x, center.y, circle.r)
  }

  lemma MirrorCircleTwice(circle: Circle, axis: Line)
    ensures MirrorCircle(MirrorCircle(circle, axis), axis) == circle
  {
    ReflectTwice(Point(circle.cx, circle.cy), axis);
  }

  /** `mirrorRect`: the axis-aligned rect that has the mirror images of the
      top-left and bottom-right corners as opposite corners. */
  function MirrorRect(rect: Rect, axis: Line): (m: Rect)
    ensures m.width >= 0.0 && m.height >= 0.0
    ensures ClaudeQuery.RectCenter(m)
         == Mid(ReflectPoint(ClaudeQuery.RectCorner(rect, TopLeft), axis),
                ReflectPoint(ClaudeQuery.RectCorner(rect, BottomRight), axis))
    ensures m.width == Abs(ReflectPoint(ClaudeQuery.RectCorner(rect, BottomRight), axis).x
                           - ReflectPoint(ClaudeQuery.RectCorner(rect, TopLeft), axis).x)
    ensures m.height == Abs(ReflectPoint(ClaudeQuery.RectCorner(rect, BottomRight), axis).y
                            - ReflectPoint(ClaudeQuery.RectCorner(rect, TopLeft), axis).y)
  {
    var tl := ReflectPoint(Point(rect.x, rect.y), axis);
    var br := ReflectPoint(Point(rect.x + rect.width, rect.y + rect.height), axis);
    var x := Min(tl.x, br.x);
    var y := Min(tl.y, br.y);
    Rect(x, y, Abs(br.x - tl.x), Abs(br.y - tl.y))
  }

  /** Across a vertical axis a rect of non-negative size keeps its size and
      top, and its left edge lands where its right edge's mirror image is. */
  lemma MirrorRectAcrossVertical(rect: Rect, axis: Line)
    requires IsVerticalAxis(axis)
    requires rect.width >= 0.0 && rect.height >= 0.0
    ensures MirrorRect(rect, axis)
         == Rect(2.0 * axis.from.x - (rect.x + rect.width), rect.y, rect.width, rect.height)
  {
    ReflectAcrossVertical(Point(rect.x, rect.y), axis);
    ReflectAcrossVertical(Point(rect.x + rect.width, rect.y + rect.height), axis);
  }

  /** So mirroring such a rect twice across a vertical axis gives it back. */
  lemma MirrorRectTwiceAcrossVertical(rect: Rect, axis: Line)
    requires IsVerticalAxis(axis)
    requires rect.width >= 0.0 && rect.height >= 0.0
    ensures MirrorRect(MirrorRect(rect, axis), axis) == rect
  {
    MirrorRectAcrossVertical(rect, axis);
    MirrorRectAcrossVertical(MirrorRect(rect, axis), axis);
  }

  /** The example of the tests: {1, 2, 3, 4} across the vertical line x = 5. */
  lemma MirrorRectExample()
    ensures MirrorRect(Rect(1.0, 2.0, 3.0, 4.0), Line(Point(5.0, 0.0), Point(5.0, 10.0))) == Rect(6.0, 2.0, 3.0, 4.0)
  {
    var axis := Line(Point(5.0, 0.0), Point(5.0, 10.0));
    assert Direction(axis) == Point(0.0, 10.0);
    assert LengthSq(axis) == 100.0;
    MirrorRectAcrossVertical(Rect(1.0, 2.0, 3.0, 4.0), axis);
  }

  /** `mirrorPointAbout`: the point reflected through `center`, which is the
      midpoint between the point and its image. */
  function MirrorPointAbout(point: Point, center: Point): (q: Point)
    ensures Mid(point, q) == center
  {
    Point(2.0 * center.x - point.x, 2.0 * center.y - point.y)
  }

  /** Reflecting through a centre twice gives back the point, and the centre
      is the only point it leaves in place. */
  lemma MirrorPointAboutTwice(p: Point, c: Point)
    ensures MirrorPointAbout(MirrorPointAbout(p, c), c) == p
    ensures MirrorPointAbout(p, c) == p <==> p == c
  {
  }

  /** Reflecting through a centre is reflecting across a vertical and then a
      horizontal axis through it. */
  lemma MirrorAboutIsTwoReflections(p: Point, c: Point, v: Line, h: Line)
    requires IsVerticalAxis(v) && v.from.x == c.x
    requires IsHorizontalAxis(h) && h.from.y == c.y
    ensures MirrorPointAbout(p, c) == ReflectPoint(ReflectPoint(p, v), h)
  {
    ReflectAcrossVertical(p, v);
    ReflectAcrossHorizontal(ReflectPoint(p, v), h);
  }
}

=== FILE: claude_offset.dfy ===
/** Offset helpers of app-claude (app-claude/src/constraints/offset.ts) that
    need no trigonometry: insetting a rect and growing a circle. */
module ClaudeOffset {
  import opened Geometry
  import ClaudeQuery
  import ClaudeAlign

  /** The second argument of `insetRect`: one number for every side, or a
      record with one number per side. */
  datatype Inset =
    | Uniform(amount: real)
    | PerSide(top: real, right: real, bottom: real, left: real)

  /** How far an inset moves one side. */
  function SideAmount(inset: Inset, e: Edge): real {
    match inset
    case Uniform(a) => a
    case PerSide(top, right, bottom, left) =>
      match e
      case Top => top
      case Right => right
      case Bottom => bottom
      case Left => left
  }

  /** The direction "inwards" along an edge's axis: down from the top, right
      from the left, up from the bottom, left from the right. */
  function Inward(e: Edge): real {
    if e == Top || e == Left then 1.0 else -1.0
  }

  /** `insetRect`: every side moves inwards by its own amount (outwards for a
      negative amount), and nothing else about the rect changes. */
  function InsetRect(rect: Rect, inset: Inset): (r: Rect)
    ensures forall e: Edge ::
              ClaudeAlign.EdgeCoord(r, e) == ClaudeAlign.EdgeCoord(rect, e) + Inward(e) * SideAmount(inset, e)
  {
    match inset
    case Uniform(a) =>
      Rect(rect.x + a, rect.y + a, rect.width - a * 2.0, rect.height - a * 2.0)
    case PerSide(top, right, bottom, left) =>
      Rect(rect.x + left, rect.y + top, rect.width - left - right, rect.height - top - bottom)
  }

  /** The two forms agree: a number insets every side by that number. */
  lemma UniformIsPerSide(rect: Rect, a: real)
    ensures InsetRect(rect, Uniform(a)) == InsetRect(rect, PerSide(a, a, a, a))
  {
  }

  /** The rect an inset produces is fixed by where its four edges end up. */
  lemma RectFromEdges(r: Rect, s: Rect)
    requires forall e: Edge :: ClaudeAlign.EdgeCoord(r, e) == ClaudeAlign.EdgeCoord(s, e)
    ensures r == s
  {
    assert ClaudeAlign.EdgeCoord(r, Left) == ClaudeAlign.EdgeCoord(s, Left);
    assert ClaudeAlign.EdgeCoord(r, Top) == ClaudeAlign.EdgeCoord(s, Top);
    assert ClaudeAlign.EdgeCoord(r, Right) == ClaudeAlign.EdgeCoord(s, Right);
    assert ClaudeAlign.EdgeCoord(r, Bottom) == ClaudeAlign.EdgeCoord(s, Bottom);
  }

  /** Side by side sum of two insets. */
  function Combined(i: Inset, j: Inset): (k: Inset)
    ensures forall e: Edge :: SideAmount(k, e) == SideAmount(i, e) + SideAmount(j, e)
  {
    PerSide(
      SideAmount(i, Top) + SideAmount(j, Top),
      SideAmount(i, Right) + SideAmount(j, Right),
      SideAmount(i, Bottom) + SideAmount(j, Bottom),
      SideAmount(i, Left) + SideAmount(j, Left))
  }

  /** Insetting twice is insetting once by the side by side sum. */
  lemma InsetsCompose(rect: Rect, i: Inset, j: Inset)
    ensures InsetRect(InsetRect(rect, i), j) == InsetRect(rect, Combined(i, j))
  {
    RectFromEdges(InsetRect(InsetRect(rect, i), j), InsetRect(rect, Combined(i, j)));
  }

  /** An inset by `a` is undone by an inset by `-a`; an inset by zero
      changes nothing. */
  lemma InsetUndone(rect: Rect, a: real)
    ensures InsetRect(InsetRect(rect, Uniform(a)), Uniform(-a)) == rect
    ensures InsetRect(rect, Uniform(0.0)) == rect
  {
  }

  /** A uniform inset keeps the rect's centre where it was. */
  lemma UniformInsetKeepsCenter(rect: Rect, a: real)
    ensures ClaudeQuery.RectCenter(InsetRect(rect, Uniform(a))) == ClaudeQuery.RectCenter(rect)
  {
  }

  /** The examples of the tests. */
  lemma InsetRectExamples()
    ensures InsetRect(Rect(0.0, 0.0, 100.0, 50.0), Uniform(10.0)) == Rect(10.0, 10.0, 80.0, 30.0)
    ensures InsetRect(Rect(0.0, 0.0, 100.0, 50.0), PerSide(5.0, 10.0, 15.0, 20.0)) == Rect(20.0, 5.0, 70.0, 30.0)
  {
  }

  /** `offsetCircle`: the same centre, the radius grown by `offset` (shrunk
      for a negative one). */
  function OffsetCircle(c: Circle, offset: real): (d: Circle)
    ensures ClaudeQuery.CircleCenter(d) == ClaudeQuery.CircleCenter(c)
    ensures d.r - c.r == offset
  {
    Circle(c.cx, c.cy, c.r + offset)
  }

  /** Growing a circle by `d` grows its bounding box by `d` on every side. */
  lemma OffsetCircleBoundingBox(c: Circle, d: real)
    ensures ClaudeQuery.CircleBoundingBox(OffsetCircle(c, d))
         == InsetRect(ClaudeQuery.CircleBoundingBox(c), Uniform(-d))
  {
  }

  /** Offsets add up. */
  lemma OffsetsCompose(c: Circle, d: real, e: real)
    ensures OffsetCircle(OffsetCircle(c, d), e) == OffsetCircle(c, d + e)
  {
  }

  /** The example of the tests. */
  lemma OffsetCircleExample()
    ensures OffsetCircle(Circle(10.0, 20.0, 5.0), 3.0) == Circle(10.0, 20.0, 8.0)
  {
  }
}

=== FILE: claude_query.dfy ===
/** Shape queries of app-claude (app-claude/src/constraints/query.ts): centres,
    corners, edges, edge midpoints, circle bounding boxes and the intersection
    of two lines. */
module ClaudeQuery {
  import opened Results
  import opened Geometry

  /** The centre of a rect: halfway along both of its diagonals. */
  function RectCenter(r: Rect): (c: Point)
    ensures c == Mid(RectCorner(r, TopLeft), RectCorner(r, BottomRight))
    ensures c == Mid(RectCorner(r, TopRight), RectCorner(r, BottomLeft))
  {
    Point(r.x + r.width / 2.0, r.y + r.height / 2.0)
  }

  /** The left corners lie at the rect's x and the right ones one width
      further; the top corners lie at its y and the bottom ones one height
      further. */
  function RectCorner(r: Rect, corner: Corner): (p: Point)
    ensures p.x == if corner == TopRight || corner == BottomRight then r.x + r.width else r.x
    ensures p.y == if corner == BottomLeft || corner == BottomRight then r.y + r.height else r.y
  {
    match corner
    case TopLeft => Point(r.x, r.y)
    case TopRight => Point(r.x + r.width, r.y)
    case BottomLeft => Point(r.x, r.y + r.height)
    case BottomRight => Point(r.x + r.width, r.y + r.height)
  }

  /** The corners an edge runs between, in the order `rectEdge` gives them. */
  function EdgeStart(e: Edge): Corner {
    match e
    case Top => TopLeft
    case Bottom => BottomLeft
    case Left => TopLeft
    case Right => TopRight
  }

  function EdgeEnd(e: Edge): Corner {
    match e
    case Top => TopRight
    case Bottom => BottomRight
    case Left => BottomLeft
    case Right => BottomRight
  }

  /** An edge runs between two corners of the rect; top and bottom edges are
      horizontal segments one width long, left and right edges vertical
      segments one height long. */
  function RectEdge(r: Rect, e: Edge): (l: Line)
    ensures l.from == RectCorner(r, EdgeStart(e)) && l.to == RectCorner(r, EdgeEnd(e))
    ensures IsHorizontal(e) ==> l.from.y == l.to.y && l.to.x - l.from.x == r.width
    ensures !IsHorizontal(e) ==> l.from.x == l.to.x && l.to.y - l.from.y == r.height
  {
    match e
    case Top => Line(Point(r.x, r.y), Point(r.x + r.width, r.y))
    case Bottom => Line(Point(r.x, r.y + r.height), Point(r.x + r.width, r.y + r.height))
    case Left => Line(Point(r.x, r.y), Point(r.x, r.y + r.height))
    case Right => Line(Point(r.x + r.width, r.y), Point(r.x + r.width, r.y + r.height))
  }

  /** The midpoint of an edge is halfway between the edge's endpoints. */
  function RectEdgeMidpoint(r: Rect, e: Edge): (m: Point)
    ensures m == Mid(RectEdge(r, e).from, RectEdge(r, e).to)
  {
    match e
    case Top => Point(r.x + r.width / 2.0, r.y)
    case Bottom => Point(r.x + r.width / 2.0, r.y + r.height)
    case Left => Point(r.x, r.y + r.height / 2.0)
    case Right => Point(r.x + r.width, r.y + r.height / 2.0)
  }

  /** The centre of a circle is the point (cx, cy). */
  function CircleCenter(c: Circle): (p: Point)
    ensures p.x == c.cx && p.y == c.cy
  {
    Point(c.cx, c.cy)
  }

  /** The bounding box of a circle is a square of side `2r` centred on the circle. */
  function CircleBoundingBox(c: Circle): (b: Rect)
    ensures b.width == b.height == 2.0 * c.r
    ensures RectCenter(b) == CircleCenter(c)
  {
    Rect(c.cx - c.r, c.cy - c.r, c.r * 2.0, c.r * 2.0)
  }

  /** The `1e-10` below which two lines count as parallel. */
  const ParallelEpsilon: real := 1.0 / 10000000000.0

  /** The determinant of the two lines' directions (up to sign). */
  function Denominator(a: Line, b: Line): real {
    (a.from.x - a.to.x) * (b.from.y - b.to.y) - (a.from.y - a.to.y) * (b.from.x - b.to.x)
  }

  /** `lineLineIntersection`: none when the denominator is within `1e-10` of
      zero; otherwise the point where the two infinite lines cross, written as
      a point along `a`. */
  function LineLineIntersection(a: Line, b: Line): (r: Option<Point>)
    ensures r.None? <==> Abs(Denominator(a, b)) < ParallelEpsilon
    ensures r.Some? ==> OnLine(r.value, a) && OnLine(r.value, b)
  {
    var denom := Denominator(a, b);
    if Abs(denom) < ParallelEpsilon then None
    else
      var x1, y1, x2, y2 := a.from.x, a.from.y, a.to.x, a.to.y;
      var x3, y3, x4, y4 := b.from.x, b.from.y, b.to.x, b.to.y;
      var num := (x1 - x3) * (y3 - y4) - (y1 - y3) * (x3 - x4);
      var t := num / denom;
      var p := Point(x1 + t * (x2 - x1), y1 + t * (y2 - y1));
      IntersectionOnBoth(a, b, num, denom, t, p);
      Some(p)
  }

  lemma IntersectionOnBoth(a: Line, b: Line, num: real, denom: real, t: real, p: Point)
    requires denom == Denominator(a, b) && denom != 0.0
    requires num == (a.from.x - b.from.x) * (b.from.y - b.to.y) - (a.from.y - b.from.y) * (b.from.x - b.to.x)
    requires t == num / denom
    requires p == At(a, t)
    ensures OnLine(p, a) && OnLine(p, b)
  {
    assert t * denom == num;
    var d := Direction(a);
    assert Sub(p, a.from) == Scale(t, d);
    assert Cross(Scale(t, d), d) == t * (d.x * d.y - d.y * d.x);
    var e := Direction(b);
    var u := Sub(a.from, b.from);
    assert Sub(p, b.from) == Add(u, Scale(t, d));
    assert Cross(u, e) == -num;
    assert Cross(d, e) == denom;
    assert Cross(Add(u, Scale(t, d)), e) == Cross(u, e) + t * Cross(d, e);
  }

  /** When the lines are not parallel, the intersection is the only point on both. */
  lemma IntersectionIsUnique(a: Line, b: Line, q: Point)
    requires LineLineIntersection(a, b).Some?
    requires OnLine(q, a) && OnLine(q, b)
    ensures q == LineLineIntersection(a, b).value
  {
    var p := LineLineIntersection(a, b).value;
    var d, e := Direction(a), Direction(b);
    var w := Sub(q, p);
    assert Cross(d, e) == Denominator(a, b) != 0.0;
    // q and p both lie on both lines, so their difference is parallel to both directions.
    assert Cross(w, d) == Cross(Sub(q, a.from), d) - Cross(Sub(p, a.from), d);
    assert Cross(w, e) == Cross(Sub(q, b.from), e) - Cross(Sub(p, b.from), e);
    assert w.x * d.y == w.y * d.x && w.x * e.y == w.y * e.x;
    assert w.x * Cross(d, e) == 0.0 by {
      assert w.x * (d.x * e.y - d.y * e.x) == d.x * (w.x * e.y) - e.x * (w.x * d.y);
    }
    assert w.y * Cross(d, e) == 0.0 by {
      assert w.y * (d.x * e.y - d.y * e.x) == e.y * (w.y * d.x) - d.y * (w.y * e.x);
    }
  }

  /** The rect of the tests: centre, corners, edge midpoints and edges. */
  lemma RectQueryExamples()
    ensures RectCenter(Rect(10.0, 20.0, 100.0, 50.0)) == Point(60.0, 45.0)
    ensures RectCorner(Rect(10.0, 20.0, 100.0, 50.0), BottomRight) == Point(110.0, 70.0)
    ensures RectEdgeMidpoint(Rect(10.0, 20.0, 100.0, 50.0), Left) == Point(10.0, 45.0)
    ensures RectEdge(Rect(10.0, 20.0, 100.0, 50.0), Right) == Line(Point(110.0, 20.0), Point(110.0, 70.0))
    ensures CircleBoundingBox(Circle(50.0, 50.0, 25.0)) == Rect(25.0, 25.0, 50.0, 50.0)
  {
  }

  /** Parallel lines have no intersection. */
  lemma ParallelLinesExample()
    ensures LineLineIntersection(Line(Point(0.0, 0.0), Point(10.0, 0.0)), Line(Point(0.0, 5.0), Point(10.0, 5.0))) == None
  {
    assert Denominator(Line(Point(0.0, 0.0), Point(10.0, 0.0)), Line(Point(0.0, 5.0), Point(10.0, 5.0))) == 0.0;
  }
}

=== FILE: codex_functions.dfy ===
/** The rational helpers of app-codex (app-codex/src/constraints/functions.ts)
    that differ from their app-claude counterparts. Corner and edge names are
    strings there, with a fallback for a name outside the union type. Where
    the two apps compute the same formula (`rectCenter`, `circleCenter`,
    `circleBoundingBox`, `insetRect`, `distributeEvenly`, `pointOnLineAt`,
    `mirrorPointAbout`), the app-claude definition serves both. */
module CodexFunctions {
  import opened Results
  import opened Geometry
  import ClaudeQuery
  import ClaudeAlign
  import ClaudeGeometric
  import ClaudeMirror

  // ---------------------------------------------------------------------------
  // Corner and edge names
  // ---------------------------------------------------------------------------

  function CornerName(c: Corner): string {
    match c
    case TopLeft => "topLeft"
    case TopRight => "topRight"
    case BottomLeft => "bottomLeft"
    case BottomRight => "bottomRight"
  }

  function EdgeName(e: Edge): string {
    match e
    case Top => "top"
    case Bottom => "bottom"
    case Left => "left"
    case Right => "right"
  }

  /** The corner a name selects: its own corner, or the top-left one for a
      name that is none of the four. */
  function CornerNamed(name: string): (c: Corner)
    ensures name == CornerName(c) || (c == TopLeft && forall k: Corner :: name != CornerName(k))
  {
    if name == "topRight" then TopRight
    else if name == "bottomLeft" then BottomLeft
    else if name == "bottomRight" then BottomRight
    else TopLeft
  }

  /** The edge a name selects: its own edge, or the top one for a name that
      is none of the four. */
  function EdgeNamed(name: string): (e: Edge)
    ensures name == EdgeName(e) || (e == Top && forall k: Edge :: name != EdgeName(k))
  {
    if name == "bottom" then Bottom
    else if name == "left" then Left
    else if name == "right" then Right
    else Top
  }

  /** Every corner and edge is selected by its own name. */
  lemma NamesRoundTrip(c: Corner, e: Edge)
    ensures CornerNamed(CornerName(c)) == c
    ensures EdgeNamed(EdgeName(e)) == e
  {
  }

  // ---------------------------------------------------------------------------
  // Rect queries
  // ---------------------------------------------------------------------------

  /** `rectCorner`: the corner the name selects, as app-claude computes it;
      an unknown name gives the rect's origin. */
  function RectCorner(rect: Rect, corner: string): (p: Point)
    ensures p == ClaudeQuery.RectCorner(rect, CornerNamed(corner))
    ensures (forall k: Corner :: corner != CornerName(k)) ==> p == Point(rect.x, rect.y)
  {
    if corner == "topLeft" then Point(rect.x, rect.y)
    else if corner == "topRight" then Point(rect.x + rect.width, rect.y)
    else if corner == "bottomLeft" then Point(rect.x, rect.y + rect.height)
    else if corner == "bottomRight" then Point(rect.x + rect.width, rect.y + rect.height)
    else Point(rect.x, rect.y)
  }

  /** `rectEdge`: the segment of the edge the name selects, as app-claude
      computes it; an unknown name falls back to the top edge. */
  function RectEdge(rect: Rect, edge: string): (l: Line)
    ensures l == ClaudeQuery.RectEdge(rect, EdgeNamed(edge))
    ensures (forall k: Edge :: edge != EdgeName(k)) ==> l == RectEdge(rect, "top")
    decreases if edge == "top" then 0 else 1
  {
    if edge == "top" then Line(Point(rect.x, rect.y), Point(rect.x + rect.width, rect.y))
    else if edge == "bottom" then
      Line(Point(rect.x, rect.y + rect.height), Point(rect.x + rect.width, rect.y + rect.height))
    else if edge == "left" then Line(Point(rect.x, rect.y), Point(rect.x, rect.y + rect.height))
    else if edge == "right" then
      Line(Point(rect.x + rect.width, rect.y), Point(rect.x + rect.width, rect.y + rect.height))
    else RectEdge(rect, "top")
  }

  /** `rectEdgeMidpoint`: the midpoint of the named edge's segment, the same
      point app-claude gives. */
  function RectEdgeMidpoint(rect: Rect, edge: string): (m: Point)
    ensures m == ClaudeQuery.RectEdgeMidpoint(rect, EdgeNamed(edge))
  {
    var e := RectEdge(rect, edge);
    Midpoint(ClaudeGeometric.ALine(e), None)
  }

  /** The examples of the tests. */
  lemma RectQueryExamples()
    ensures RectCorner(Rect(10.0, 20.0, 100.0, 50.0), "bottomRight") == Point(110.0, 70.0)
    ensures RectCorner(Rect(10.0, 20.0, 100.0, 50.0), "middle") == Point(10.0, 20.0)
    ensures RectEdge(Rect(10.0, 20.0, 100.0, 50.0), "side") == Line(Point(10.0, 20.0), Point(110.0, 20.0))
    ensures RectEdgeMidpoint(Rect(10.0, 20.0, 100.0, 50.0), "left") == Point(10.0, 45.0)
  {
    assert CornerNamed("middle") == TopLeft;
    assert EdgeNamed("side") == Top;
    assert EdgeNamed("left") == Left;
  }

  // ---------------------------------------------------------------------------
  // Alignment
  // ---------------------------------------------------------------------------

  /** `alignEdge`: the origin that moves `b` by the offset between the two
      edges' start points, on both axes. Placed there, `b`'s edge starts
      where `a`'s edge starts. */
  function AlignEdge(a: Rect, aEdge: string, b: Rect, bEdge: string): (origin: Point)
    ensures RectEdge(ClaudeAlign.PlacedAt(b, origin), bEdge).from == RectEdge(a, aEdge).from
  {
    var aLine := RectEdge(a, aEdge);
    var bLine := RectEdge(b, bEdge);
    var dx := aLine.from.x - bLine.from.x;
    var dy := aLine.from.y - bLine.from.y;
    Point(b.x + dx, b.y + dy)
  }

  /** `alignFlush`: the gap between the edges' start points along the axis
      of `a`'s edge — x for left and right, y otherwise — whatever axis
      `b`'s edge runs along. When both edges run along the same axis it is
      the gap app-claude measures. */
  function AlignFlush(a: Rect, aEdge: string, b: Rect, bEdge: string): (gap: real)
    ensures IsHorizontal(EdgeNamed(aEdge)) == IsHorizontal(EdgeNamed(bEdge)) ==>
              gap == ClaudeAlign.AlignFlush(a, EdgeNamed(aEdge), b, EdgeNamed(bEdge))
    ensures !IsHorizontal(EdgeNamed(aEdge)) ==>
              gap == ClaudeAlign.EdgeCoord(a, EdgeNamed(aEdge)) - RectEdge(b, bEdge).from.x
    ensures IsHorizontal(EdgeNamed(aEdge)) ==>
              gap == ClaudeAlign.EdgeCoord(a, EdgeNamed(aEdge)) - RectEdge(b, bEdge).from.y
  {
    var aLine := RectEdge(a, aEdge);
    var bLine := RectEdge(b, bEdge);
    if aEdge == "left" || aEdge == "right" then
      aLine.from.x - bLine.from.x
    else
      aLine.from.y - bLine.from.y
  }

  /** After `b` moves to the origin `alignEdge` returns, the gap `alignFlush`
      measures is zero, whatever the two edges are. */
  lemma AlignEdgeMakesFlush(a: Rect, aEdge: string, b: Rect, bEdge: string)
    ensures AlignFlush(a, aEdge, ClaudeAlign.PlacedAt(b, AlignEdge(a, aEdge, b, bEdge)), bEdge) == 0.0
  {
  }

  /** When both edges run along the same axis, app-codex's `alignEdge` moves
      `b` on that axis exactly as app-claude's does; on the other axis it
      also lines up the edges' start corners, where app-claude leaves `b`
      alone. */
  lemma AlignEdgeAgainstClaude(a: Rect, aEdge: string, b: Rect, bEdge: string)
    requires IsHorizontal(EdgeNamed(aEdge)) == IsHorizontal(EdgeNamed(bEdge))
    ensures IsHorizontal(EdgeNamed(bEdge)) ==>
              AlignEdge(a, aEdge, b, bEdge).y == ClaudeAlign.AlignEdge(a, EdgeNamed(aEdge), b, EdgeNamed(bEdge)).y
              && AlignEdge(a, aEdge, b, bEdge).x == a.x + b.x - RectEdge(b, bEdge).from.x
    ensures !IsHorizontal(EdgeNamed(bEdge)) ==>
              AlignEdge(a, aEdge, b, bEdge).x == ClaudeAlign.AlignEdge(a, EdgeNamed(aEdge), b, EdgeNamed(bEdge)).x
              && AlignEdge(a, aEdge, b, bEdge).y == a.y + b.y - RectEdge(b, bEdge).from.y
  {
  }

  // ---------------------------------------------------------------------------
  // Grid
  // ---------------------------------------------------------------------------

  /** `gridPositions` (rows first, separate gaps per axis, and an origin —
      the defaults 0, 0 and (0, 0) passed explicitly): the top-left corner of
      each cell, row by row. */
  method GridPositions(rows: int, cols: int, cellWidth: real, cellHeight: real, gapX: real, gapY: real, origin: Point)
    returns (points: seq<Point>)
    ensures points == GridCells(rows, cols, cellWidth + gapX, cellHeight + gapY, origin)
  {
    var stepX, stepY := cellWidth + gapX, cellHeight + gapY;
    points := [];
    var r := 0;
    while r < rows
      invariant 0 <= r
      invariant r <= rows || r == 0
      invariant cols <= 0 ==> points == []
      invariant cols > 0 ==> |points| == r * cols
      invariant cols > 0 ==> forall k :: 0 <= k < |points| ==> points[k] == GridCell(k, cols, stepX, stepY, origin)
    {
      var c := 0;
      while c < cols
        invariant 0 <= c
        invariant cols > 0 ==> c <= cols
        invariant cols <= 0 ==> points == []
        invariant cols > 0 ==> |points| == r * cols + c
        invariant cols > 0 ==> forall k :: 0 <= k < |points| ==> points[k] == GridCell(k, cols, stepX, stepY, origin)
      {
        GridCellAt(r, c, cols, stepX, stepY, origin);
        points := points + [Point(origin.x + c as real * stepX, origin.y + r as real * stepY)];
        c := c + 1;
      }
      assert cols > 0 ==> r * cols + cols == (r + 1) * cols;
      r := r + 1;
    }
    if rows > 0 && cols > 0 {
      var grid := GridCells(rows, cols, stepX, stepY, origin);
      assert |points| == |grid|;
      forall k | 0 <= k < |points|
        ensures points[k] == grid[k]
      {
      }
    } else if cols > 0 {
      assert r == 0 && |points| == 0;
    }
  }

  // ---------------------------------------------------------------------------
  // Lines and points
  // ---------------------------------------------------------------------------

  /** `horizontal`: the start stays; the end keeps its x and takes the
      start's y. */
  function Horizontal(line: Line): (r: Line)
    ensures r.from == line.from
    ensures r.to.x == line.to.x && r.to.y == r.from.y
  {
    Line(line.from, Point(line.to.x, line.from.y))
  }

  /** `vertical`: the start stays; the end keeps its y and takes the
      start's x. */
  function Vertical(line: Line): (r: Line)
    ensures r.from == line.from
    ensures r.to.y == line.to.y && r.to.x == r.from.x
  {
    Line(line.from, Point(line.from.x, line.to.y))
  }

  /** The two apps flatten a line the same way exactly when it is already
      flat; otherwise app-claude moves both ends to the mean and app-codex
      moves only the end. Flattening twice changes nothing more. */
  lemma HorizontalAgainstClaude(line: Line)
    ensures Horizontal(line) == ClaudeGeometric.Horizontal(line) <==> line.from.y == line.to.y
    ensures Horizontal(Horizontal(line)) == Horizontal(line)
  {
    if Horizontal(line) == ClaudeGeometric.Horizontal(line) {
      assert Horizontal(line).from.y == ClaudeGeometric.Horizontal(line).from.y;
    }
  }

  lemma VerticalAgainstClaude(line: Line)
    ensures Vertical(line) == ClaudeGeometric.Vertical(line) <==> line.from.x == line.to.x
    ensures Vertical(Vertical(line)) == Vertical(line)
  {
    if Vertical(line) == ClaudeGeometric.Vertical(line) {
      assert Vertical(line).from.x == ClaudeGeometric.Vertical(line).from.x;
    }
  }

  /** `midpoint`: halfway along a line or between two points, like
      app-claude's; given a point and no second point it returns a copy of
      the point where app-claude fails. */
  function Midpoint(a: ClaudeGeometric.PointOrLine, b: Option<Point>): (r: Point)
    ensures ClaudeGeometric.Midpoint(a, b).Some? ==> r == ClaudeGeometric.Midpoint(a, b).value
    ensures ClaudeGeometric.Midpoint(a, b).None? ==> r == a.point
  {
    match a
    case ALine(line) => Point((line.from.x + line.to.x) / 2.0, (line.from.y + line.to.y) / 2.0)
    case APoint(p) =>
      if b.None? then Point(p.x, p.y)
      else Point((p.x + b.value.x) / 2.0, (p.y + b.value.y) / 2.0)
  }

  /** `nearestPointOnLine` without clamping: the foot of the perpendicular
      on the infinite line (the start for a segment of no length). */
  function NearestPointOnLine(point: Point, line: Line): (r: Point)
    ensures LengthSq(line) == 0.0 ==> r == line.from
    ensures LengthSq(line) != 0.0 ==> OnLine(r, line) && Dot(Sub(point, r), Direction(line)) == 0.0
  {
    var d := Direction(line);
    var lenSq := Dot(d, d);
    if lenSq == 0.0 then
      line.from
    else
      var t := Dot(Sub(point, line.from), d) / lenSq;
      FootFacts(point, line);
      At(line, t)
  }

  lemma FootFacts(point: Point, line: Line)
    requires LengthSq(line) != 0.0
    ensures OnLine(At(line, FootParameter(point, line)), line)
    ensures Dot(Sub(point, At(line, FootParameter(point, line))), Direction(line)) == 0.0
  {
    var t, d, u := FootParameter(point, line), Direction(line), Sub(point, line.from);
    ClaudeGeometric.AtFacts(line, t);
    assert t * LengthSq(line) == Dot(u, d);
    assert LengthSq(line) == Dot(d, d);
    assert Sub(point, At(line, t)) == Sub(u, Scale(t, d));
    assert Dot(Sub(u, Scale(t, d)), d) == Dot(u, d) - t * Dot(d, d);
  }

  /** The foot is the closest point of the whole infinite line. */
  lemma NearestIsClosestOnLine(point: Point, line: Line, s: real)
    requires LengthSq(line) != 0.0
    ensures DistSq(point, NearestPointOnLine(point, line)) <= DistSq(point, At(line, s))
  {
    var u, d := Sub(point, line.from), Direction(line);
    var uu, dd, ll := Dot(u, u), Dot(u, d), LengthSq(line);
    var q := FootParameter(point, line);
    assert q * ll == dd;
    ClaudeGeometric.DistanceAlong(point, line, s);
    ClaudeGeometric.DistanceAlong(point, line, q);
    ClaudeGeometric.QuadraticGap(uu, dd, ll, s, q);
    LengthSqZero(line);
    SquareTimesPositive(s - q, ll);
    assert (s + q) * ll - 2.0 * dd == (s - q) * ll;
  }

  lemma SquareTimesPositive(a: real, l: real)
    requires l >= 0.0
    ensures a * (a * l) >= 0.0
  {
    Square(a);
    ClaudeGeometric.NonNegative(a * a, l);
    assert a * (a * l) == (a * a) * l;
  }

  /** Where the foot falls within the segment, both apps give the same
      point; elsewhere app-claude gives the nearer end. */
  lemma NearestAgainstClaude(point: Point, line: Line)
    requires LengthSq(line) != 0.0
    ensures 0.0 <= FootParameter(point, line) <= 1.0 ==>
              NearestPointOnLine(point, line) == ClaudeGeometric.NearestPointOnLine(point, line)
    ensures FootParameter(point, line) < 0.0 ==> ClaudeGeometric.NearestPointOnLine(point, line) == line.from
    ensures FootParameter(point, line) > 1.0 ==> ClaudeGeometric.NearestPointOnLine(point, line) == line.to
  {
    assert At(line, 0.0) == line.from;
    assert At(line, 1.0) == line.to;
  }

  // ---------------------------------------------------------------------------
  // Mirroring
  // ---------------------------------------------------------------------------

  /** `mirrorPoint`: twice the unclamped foot minus the point. Across a
      proper axis this is app-claude's reflection; across an axis of no
      length it is the point mirrored about the axis's start, where
      app-claude leaves the point alone. */
  function MirrorPoint(point: Point, axis: Line): (q: Point)
    ensures LengthSq(axis) != 0.0 ==> q == ClaudeMirror.MirrorPoint(point, axis)
    ensures LengthSq(axis) == 0.0 ==> q == ClaudeMirror.MirrorPointAbout(point, axis.from)
  {
    var proj := NearestPointOnLine(point, axis);
    if LengthSq(axis) != 0.0 then
      ClaudeMirror.ReflectThroughFoot(point, axis);
      Point(proj.x * 2.0 - point.x, proj.y * 2.0 - point.y)
    else
      Point(proj.x * 2.0 - point.x, proj.y * 2.0 - point.y)
  }

  /** Mirroring twice gives the point back, for every axis. */
  lemma MirrorPointTwice(p: Point, axis: Line)
    ensures MirrorPoint(MirrorPoint(p, axis), axis) == p
  {
    if LengthSq(axis) != 0.0 {
      ClaudeMirror.ReflectTwice(p, axis);
    } else {
      ClaudeMirror.MirrorPointAboutTwice(p, axis.from);
    }
  }
}

=== FILE: error_collector.dfy ===
/** The error collector of app-claude (app-claude/src/errors/collector.ts): an
    append-only list of reported errors that can be read (as a copy) and
    cleared. The collector is a value here; each operation returns the next
    state. The error records themselves (app-claude/src/errors/types.ts)
    are not part of this model: the collector never looks inside them, so
    they are a type parameter. */
module ErrorCollector {

  datatype Collector<E> = Collector(errors: seq<E>)

  /** A fresh collector holds no errors. */
  function New<E>(): (c: Collector<E>)
    ensures GetErrors(c) == []
    ensures !HasErrors(c)
  {
    Collector([])
  }

  /** `report`: the error goes at the end; everything reported before stays,
      in order. */
  function Report<E>(c: Collector<E>, error: E): (d: Collector<E>)
    ensures |GetErrors(d)| == |GetErrors(c)| + 1
    ensures GetErrors(d)[..|GetErrors(c)|] == GetErrors(c)
    ensures GetErrors(d)[|GetErrors(c)|] == error
    ensures HasErrors(d)
  {
    Collector(c.errors + [error])
  }

  /** `hasErrors`: whether anything was reported since the collector was
      made or last cleared. */
  function HasErrors<E>(c: Collector<E>): (b: bool)
    ensures b <==> GetErrors(c) != []
  {
    |c.errors| > 0
  }

  /** `getErrors`: the reported errors, oldest first. collector.ts hands out a
      copy so that a caller cannot change the collector through it; a
      Dafny sequence is a value, so the same holds by construction. The copy
      loses nothing: a collector built from it is the collector read. */
  function GetErrors<E>(c: Collector<E>): (es: seq<E>)
    ensures Collector(es) == c
  {
    c.errors
  }

  /** `clear`: afterwards nothing is reported. */
  function Clear<E>(c: Collector<E>): (d: Collector<E>)
    ensures GetErrors(d) == []
    ensures !HasErrors(d)
  {
    Collector([])
  }

  // ---------------------------------------------------------------------------
  // Runs of operations
  // ---------------------------------------------------------------------------

  datatype Op<E> = ReportOp(error: E) | ClearOp

  /** The collector after the operations, applied in order. */
  function Run<E>(c: Collector<E>, ops: seq<Op<E>>): Collector<E>
    decreases |ops|
  {
    if ops == [] then c
    else
      var next := match ops[0]
        case ReportOp(e) => Report(c, e)
        case ClearOp => Clear(c);
      Run(next, ops[1..])
  }

  /** The errors the operations report, in order, ignoring clears. */
  function Reported<E>(ops: seq<Op<E>>): seq<E>
    decreases |ops|
  {
    if ops == [] then []
    else
      match ops[0]
      case ReportOp(e) => [e] + Reported(ops[1..])
      case ClearOp => Reported(ops[1..])
  }

  predicate NoClear<E>(ops: seq<Op<E>>) {
    forall i :: 0 <= i < |ops| ==> ops[i].ReportOp?
  }

  /** Running one list of operations and then another is running both. */
  lemma {:induction false} RunAppend<E>(c: Collector<E>, a: seq<Op<E>>, b: seq<Op<E>>)
    ensures Run(c, a + b) == Run(Run(c, a), b)
    decreases |a|
  {
    if a != [] {
      assert (a + b)[0] == a[0];
      assert (a + b)[1..] == a[1..] + b;
      var next := match a[0]
        case ReportOp(e) => Report(c, e)
        case ClearOp => Clear(c);
      RunAppend(next, a[1..], b);
    } else {
      assert a + b == b;
    }
  }

  /** Without a clear, a run keeps what was there and appends what it
      reports. */
  lemma {:induction false} RunWithoutClear<E>(c: Collector<E>, ops: seq<Op<E>>)
    requires NoClear(ops)
    ensures GetErrors(Run(c, ops)) == GetErrors(c) + Reported(ops)
    decreases |ops|
  {
    if ops != [] {
      assert ops[0].ReportOp?;
      assert NoClear(ops[1..]) by {
        forall i | 0 <= i < |ops[1..]|
          ensures ops[1..][i].ReportOp?
        {
          assert ops[1..][i] == ops[i + 1];
        }
      }
      var e := ops[0].error;
      assert Run(c, ops) == Run(Report(c, e), ops[1..]);
      assert Reported(ops) == [e] + Reported(ops[1..]);
      RunWithoutClear(Report(c, e), ops[1..]);
      assert GetErrors(Report(c, e)) == GetErrors(c) + [e];
      assert (GetErrors(c) + [e]) + Reported(ops[1..]) == GetErrors(c) + ([e] + Reported(ops[1..]));
    }
  }

  /** After the last clear of a run, the collector holds exactly what was
      reported after it, whatever came before. */
  lemma AfterLastClear<E>(c: Collector<E>, before: seq<Op<E>>, after: seq<Op<E>>)
    requires NoClear(after)
    ensures GetErrors(Run(c, before + [ClearOp] + after)) == Reported(after)
  {
    RunAppend(c, before + [ClearOp], after);
    RunAppend(c, before, [ClearOp]);
    RunWithoutClear(Clear(Run(c, before)), after);
  }

  /** A fresh collector that only receives reports holds them all, in the
      order they came. */
  lemma FreshRun<E>(ops: seq<Op<E>>)
    requires NoClear(ops)
    ensures GetErrors(Run(New(), ops)) == Reported(ops)
    ensures HasErrors(Run(New(), ops)) <==> ops != []
  {
    RunWithoutClear(New(), ops);
    if ops != [] {
      assert ops[0].ReportOp?;
      assert Reported(ops) == [ops[0].error] + Reported(ops[1..]);
    }
  }

  /** The scenarios of the tests: three reports are kept in order; after a
      clear nothing is left. */
  lemma CollectorExamples<E>(a: E, b: E, c: E)
    ensures GetErrors(Report(Report(Report(New(), a), b), c)) == [a, b, c]
    ensures !HasErrors(Clear(Report(Report(New(), a), b)))
  {
  }
}

=== FILE: expr_grammar.dfy ===
/** What the parser's grammar means: a printer from trees to token streams that
    inserts parentheses only where precedence and left associativity demand
    them, and the proof that the parser reads every printed tree back exactly.
    The round trip is what pins down that `*` and `/` bind tighter than `+` and
    `-`, that both levels associate to the left, and that parentheses group
    (app-claude/src/claude-render/primitives/ExprParser.ts, `expr`, `term`,
    `factor`). */
module ExprGrammar {
  import opened Results
  import opened ExprLexer
  import opened ExprParser

  // ---------------------------------------------------------------------------
  // Trees the printer can render
  // ---------------------------------------------------------------------------

  function Size(e: Expr): (n: nat)
    ensures n >= 1
  {
    match e
    case Binop(_, l, r) => 1 + Size(l) + Size(r)
    case _ => 1
  }

  predicate Additive(op: Op) {
    op == Add || op == Sub
  }

  /** A tree has a NUMBER, REF or SELF_REF text for every leaf: literals are
      integers (or NaN, written `.`) and reference ids hold no dot, since the
      parser splits a REF at its first dot. */
  predicate Printable(e: Expr) {
    match e
    case Literal(Finite(v)) => v == v.Floor as real
    case Literal(NonFinite) => true
    case Ref(id, _) => '.' !in id
    case SelfRef(_) => true
    case Binop(_, l, r) => Printable(l) && Printable(r)
  }

  // ---------------------------------------------------------------------------
  // Number texts
  // ---------------------------------------------------------------------------

  /** The decimal digits of `n`, most significant first. */
  function NatText(n: nat): (s: string)
    ensures |s| > 0 && AllDigits(s) && DigitsValue(s) == n
  {
    var last := (('0' as int) + n % 10) as char;
    if n < 10 then
      assert [last][..0] == [];
      [last]
    else
      var s := NatText(n / 10) + [last];
      assert s[..|s| - 1] == NatText(n / 10);
      s
  }

  function IntText(n: int): string {
    if n < 0 then "-" + NatText(-n) else NatText(n)
  }

  lemma NatTextIsBody(n: nat)
    ensures IsNumberBody(NatText(n))
    ensures BodyValue(NatText(n)) == Finite(n as real)
  {
    var s := NatText(n);
    assert s[0] != '.';
    var d := DotIndex(s);
    assert d == |s|;
    assert s[..d] == s;
  }

  lemma IntTextValue(n: int)
    ensures IsNumberText(IntText(n))
    ensures NumberValue(IntText(n)) == Finite(n as real)
  {
    if n < 0 {
      NegativeTextValue(-n);
    } else {
      NatTextIsBody(n);
    }
  }

  /** A minus sign before the digits of `n` reads back as `-n`. */
  lemma NegativeTextValue(n: nat)
    requires n > 0
    ensures IsNumberText("-" + NatText(n))
    ensures NumberValue("-" + NatText(n)) == Finite(-(n as real))
  {
    NatTextIsBody(n);
    var t := "-" + NatText(n);
    assert t[1..] == NatText(n);
  }

  // ---------------------------------------------------------------------------
  // Printer
  // ---------------------------------------------------------------------------

  const Eof := Token(EOF, "", 0)
  const OpenParen := Token(LPAREN, "(", 0)
  const CloseParen := Token(RPAREN, ")", 0)

  function OpToken(op: Op): Token {
    match op
    case Add => Token(PLUS, "+", 0)
    case Sub => Token(MINUS, "-", 0)
    case Mul => Token(STAR, "*", 0)
    case Div => Token(SLASH, "/", 0)
  }

  function LeafToken(e: Expr): Token {
    match e
    case Literal(Finite(v)) => Token(NUMBER, IntText(v.Floor), 0)
    case Literal(NonFinite) => Token(NUMBER, ".", 0)
    case Ref(id, anchor) => Token(REF, "#" + id + "." + anchor, 0)
    case SelfRef(anchor) => Token(SELF_REF, SelfPrefix + anchor, 0)
    case Binop(_, _, _) => Eof
  }

  predicate IsSum(e: Expr) {
    e.Binop? && Additive(e.op)
  }

  predicate IsProduct(e: Expr) {
    e.Binop? && !Additive(e.op)
  }

  /** Ranks that order the three printers (and the three round-trip lemmas)
      on one tree: each calls another only on the same tree or a smaller one. */
  function SumRank(e: Expr): nat { 2 }
  function ProductRank(e: Expr): nat { if IsSum(e) then 4 else 1 }
  function FactorRank(e: Expr): nat { if e.Binop? then 3 else 0 }

  /** An `expr`: left operand at the same level, right operand one level tighter. */
  function PrintSum(e: Expr): seq<Token>
    decreases e, SumRank(e)
  {
    if IsSum(e) then PrintSum(e.left) + [OpToken(e.op)] + PrintProduct(e.right)
    else PrintProduct(e)
  }

  function PrintProduct(e: Expr): seq<Token>
    decreases e, ProductRank(e)
  {
    if IsProduct(e) then PrintProduct(e.left) + [OpToken(e.op)] + PrintFactor(e.right)
    else PrintFactor(e)
  }

  /** A `factor`: a leaf token, or a parenthesised `expr`. */
  function PrintFactor(e: Expr): seq<Token>
    decreases e, FactorRank(e)
  {
    if e.Binop? then [OpenParen] + PrintSum(e) + [CloseParen]
    else [LeafToken(e)]
  }

  // ---------------------------------------------------------------------------
  // Where a printed tree lies in a token stream
  // ---------------------------------------------------------------------------

  /** How many tokens the printer emits for `e` at each level. */
  function SumLen(e: Expr): nat
    decreases e, SumRank(e)
  {
    if IsSum(e) then SumLen(e.left) + 1 + ProductLen(e.right) else ProductLen(e)
  }

  function ProductLen(e: Expr): nat
    decreases e, ProductRank(e)
  {
    if IsProduct(e) then ProductLen(e.left) + 1 + FactorLen(e.right) else FactorLen(e)
  }

  function FactorLen(e: Expr): nat
    decreases e, FactorRank(e)
  {
    if e.Binop? then SumLen(e) + 2 else 1
  }

  /** The tokens of `toks` from `p` spell `e` as an `expr`, and at least one
      token follows them. Stated position by position, as the printer lays
      the tokens out; what makes a leaf token read back is left to the
      factor rule. */
  predicate SumAt(toks: seq<Token>, p: nat, e: Expr)
    decreases e, SumRank(e)
  {
    && p + SumLen(e) < |toks|
    && if IsSum(e) then
         && SumAt(toks, p, e.left)
         && toks[p + SumLen(e.left)].kind == OpToken(e.op).kind
         && ProductAt(toks, p + SumLen(e.left) + 1, e.right)
       else ProductAt(toks, p, e)
  }

  /** The tokens from `p` spell `e` as a `term`. */
  predicate ProductAt(toks: seq<Token>, p: nat, e: Expr)
    decreases e, ProductRank(e)
  {
    && p + ProductLen(e) < |toks|
    && if IsProduct(e) then
         && ProductAt(toks, p, e.left)
         && toks[p + ProductLen(e.left)].kind == OpToken(e.op).kind
         && FactorAt(toks, p + ProductLen(e.left) + 1, e.right)
       else FactorAt(toks, p, e)
  }

  /** The tokens from `p` spell `e` as a `factor`: a leaf token, or an `expr`
      in parentheses. */
  predicate FactorAt(toks: seq<Token>, p: nat, e: Expr)
    decreases e, FactorRank(e)
  {
    && p + FactorLen(e) < |toks|
    && if e.Binop? then
         && toks[p].kind == LPAREN
         && SumAt(toks, p + 1, e)
         && toks[p + 1 + SumLen(e)].kind == RPAREN
       else ReadsLeaf(toks, p, e)
  }

  /** The factor rule reads the token at `p` as the leaf `e`. */
  predicate ReadsLeaf(toks: seq<Token>, p: nat, e: Expr) {
    p < |toks| && IsLeafKind(toks[p].kind) && Readable(toks[p]) && LeafOf(toks[p]) == e
  }

  // ---------------------------------------------------------------------------
  // The printer lays trees out that way
  // ---------------------------------------------------------------------------

  /** `s` lies in `toks` from index `p`, with at least one token after it. */
  predicate At(toks: seq<Token>, p: nat, s: seq<Token>) {
    p + |s| < |toks| && toks[p..p + |s|] == s
  }

  lemma AtSplit(toks: seq<Token>, p: nat, a: seq<Token>, b: seq<Token>)
    requires At(toks, p, a + b)
    ensures At(toks, p, a) && At(toks, p + |a|, b)
  {
    assert toks[p..p + |a|] == (a + b)[..|a|];
    assert toks[p + |a|..p + |a| + |b|] == (a + b)[|a|..];
  }

  lemma AtOne(toks: seq<Token>, p: nat, t: Token)
    requires At(toks, p, [t])
    ensures toks[p] == t
  {
    assert toks[p] == toks[p..p + 1][0];
  }

  /** Where the three parts of `l + [t] + r` lie when the whole lies at `p`. */
  lemma AtParts(toks: seq<Token>, p: nat, l: seq<Token>, t: Token, r: seq<Token>)
    requires At(toks, p, l + [t] + r)
    ensures At(toks, p, l) && toks[p + |l|] == t && At(toks, p + |l| + 1, r)
  {
    AtSplit(toks, p, l + [t], r);
    AtSplit(toks, p, l, [t]);
    AtOne(toks, p + |l|, t);
  }

  /** Where `s` and its parentheses lie when `(s)` lies at `p`. */
  lemma AtParen(toks: seq<Token>, p: nat, s: seq<Token>)
    requires At(toks, p, [OpenParen] + s + [CloseParen])
    ensures toks[p] == OpenParen && At(toks, p + 1, s) && toks[p + 1 + |s|] == CloseParen
  {
    var w := [OpenParen] + s + [CloseParen];
    assert toks[p] == toks[p..p + |w|][0] == w[0];
    assert w[1..1 + |s|] == s by {
      assert w == [OpenParen] + (s + [CloseParen]);
      assert w[1..] == s + [CloseParen];
    }
    assert toks[p + 1..p + 1 + |s|] == s by {
      forall i | 0 <= i < |s|
        ensures toks[p + 1 + i] == s[i]
      {
        assert toks[p + 1 + i] == toks[p..p + |w|][1 + i] == w[1 + i];
      }
    }
    assert toks[p + 1 + |s|] == toks[p..p + |w|][1 + |s|] == w[1 + |s|];
  }

  /** The printer emits `SumLen(e)`, `ProductLen(e)` and `FactorLen(e)` tokens. */
  lemma {:induction false} PrintedLengths(e: Expr)
    ensures |PrintSum(e)| == SumLen(e) && |PrintProduct(e)| == ProductLen(e) && |PrintFactor(e)| == FactorLen(e)
  {
    if e.Binop? {
      PrintedLengths(e.left);
      PrintedLengths(e.right);
      if IsSum(e) {
        assert |PrintSum(e)| == SumLen(e);
        assert PrintProduct(e) == PrintFactor(e) == [OpenParen] + PrintSum(e) + [CloseParen];
      } else {
        assert |PrintProduct(e)| == ProductLen(e);
        assert PrintSum(e) == PrintProduct(e);
        assert PrintFactor(e) == [OpenParen] + PrintSum(e) + [CloseParen];
      }
    } else {
      assert PrintSum(e) == PrintProduct(e) == PrintFactor(e) == [LeafToken(e)];
      assert SumLen(e) == ProductLen(e) == FactorLen(e) == 1;
    }
  }

  lemma {:induction false} PrintedSum(toks: seq<Token>, p: nat, e: Expr)
    requires Printable(e) && At(toks, p, PrintSum(e))
    ensures SumAt(toks, p, e)
    decreases e, SumRank(e), 1
  {
    if IsSum(e) {
      PrintedSumOp(toks, p, e);
    } else {
      PrintedProduct(toks, p, e);
    }
  }

  lemma {:induction false} PrintedSumOp(toks: seq<Token>, p: nat, e: Expr)
    requires IsSum(e) && Printable(e) && At(toks, p, PrintSum(e))
    ensures SumAt(toks, p, e)
    decreases e, SumRank(e), 0
  {
    var q := SumOperandsAt(toks, p, e);
    PrintedSum(toks, p, e.left);
    PrintedProduct(toks, q, e.right);
    SumAtIntro(toks, p, e);
  }

  /** Where the parts of a printed sum lie; `q` is where its right operand starts. */
  lemma SumOperandsAt(toks: seq<Token>, p: nat, e: Expr) returns (q: nat)
    requires IsSum(e) && At(toks, p, PrintSum(e))
    ensures q == p + SumLen(e.left) + 1 && q < |toks|
    ensures At(toks, p, PrintSum(e.left)) && toks[q - 1].kind == OpToken(e.op).kind
    ensures At(toks, q, PrintProduct(e.right))
  {
    AtParts(toks, p, PrintSum(e.left), OpToken(e.op), PrintProduct(e.right));
    PrintedLengths(e.left);
    q := p + SumLen(e.left) + 1;
  }

  /** `SumAt` for a sum, from its parts. */
  lemma SumAtIntro(toks: seq<Token>, p: nat, e: Expr)
    requires IsSum(e) && SumAt(toks, p, e.left)
    requires toks[p + SumLen(e.left)].kind == OpToken(e.op).kind
    requires ProductAt(toks, p + SumLen(e.left) + 1, e.right)
    ensures SumAt(toks, p, e)
  {
  }

  lemma {:induction false} PrintedProduct(toks: seq<Token>, p: nat, e: Expr)
    requires Printable(e) && At(toks, p, PrintProduct(e))
    ensures ProductAt(toks, p, e)
    decreases e, ProductRank(e), 1
  {
    if IsProduct(e) {
      PrintedProductOp(toks, p, e);
    } else {
      PrintedFactor(toks, p, e);
    }
  }

  lemma {:induction false} PrintedProductOp(toks: seq<Token>, p: nat, e: Expr)
    requires IsProduct(e) && Printable(e) && At(toks, p, PrintProduct(e))
    ensures ProductAt(toks, p, e)
    decreases e, ProductRank(e), 0
  {
    var q := ProductOperandsAt(toks, p, e);
    PrintedProduct(toks, p, e.left);
    PrintedFactor(toks, q, e.right);
    ProductAtIntro(toks, p, e);
  }

  /** Where the parts of a printed product lie; `q` is where its right operand starts. */
  lemma ProductOperandsAt(toks: seq<Token>, p: nat, e: Expr) returns (q: nat)
    requires IsProduct(e) && At(toks, p, PrintProduct(e))
    ensures q == p + ProductLen(e.left) + 1 && q < |toks|
    ensures At(toks, p, PrintProduct(e.left)) && toks[q - 1].kind == OpToken(e.op).kind
    ensures At(toks, q, PrintFactor(e.right))
  {
    AtParts(toks, p, PrintProduct(e.left), OpToken(e.op), PrintFactor(e.right));
    PrintedLengths(e.left);
    q := p + ProductLen(e.left) + 1;
  }

  /** `ProductAt` for a product, from its parts. */
  lemma ProductAtIntro(toks: seq<Token>, p: nat, e: Expr)
    requires IsProduct(e) && ProductAt(toks, p, e.left)
    requires toks[p + ProductLen(e.left)].kind == OpToken(e.op).kind
    requires FactorAt(toks, p + ProductLen(e.left) + 1, e.right)
    ensures ProductAt(toks, p, e)
  {
  }

  lemma {:induction false} PrintedFactor(toks: seq<Token>, p: nat, e: Expr)
    requires Printable(e) && At(toks, p, PrintFactor(e))
    ensures FactorAt(toks, p, e)
    decreases e, FactorRank(e), 1
  {
    if e.Binop? {
      AtParen(toks, p, PrintSum(e));
      PrintedLengths(e);
      PrintedSum(toks, p + 1, e);
    } else {
      AtOne(toks, p, LeafToken(e));
      LeafReadable(e);
      LeafRoundTrip(e);
    }
  }

  /** A sequence lies where it was put. */
  lemma AtWithin(before: seq<Token>, s: seq<Token>, after: seq<Token>)
    requires |after| > 0
    ensures At(before + s + after, |before|, s)
  {
    assert (before + s + after)[|before|..|before| + |s|] == s;
  }

  // ---------------------------------------------------------------------------
  // Round trip
  // ---------------------------------------------------------------------------

  /** Not `*` or `/`: the token ends a `term`. */
  predicate EndsTerm(kind: TokenType) {
    kind != STAR && kind != SLASH
  }

  /** Not an operator: the token ends an `expr`. */
  predicate EndsExpr(kind: TokenType) {
    EndsTerm(kind) && kind != PLUS && kind != MINUS
  }

  /** An `expr` is its first `term` followed by the `expr` loop. */
  lemma SumUnfold(toks: Stream, p: nat, first: Expr, q: nat)
    requires p < |toks| && q < |toks|
    requires ParseProduct(toks, p) == Ok((first, q))
    ensures ParseSum(toks, p) == SumTail(toks, q, first)
  {
  }

  /** A `term` is its first `factor` followed by the `term` loop. */
  lemma ProductUnfold(toks: Stream, p: nat, first: Expr, q: nat)
    requires p < |toks| && q < |toks|
    requires ParseFactor(toks, p) == Ok((first, q))
    ensures ParseProduct(toks, p) == ProductTail(toks, q, first)
  {
  }

  /** One turn of the `expr` loop: a `+` or `-`, then a `term`. */
  lemma SumStep(toks: Stream, q: nat, acc: Expr, op: Op, operand: Expr)
    requires q + 1 + ProductLen(operand) < |toks|
    requires Additive(op) && toks[q].kind == OpToken(op).kind
    requires ParseProduct(toks, q + 1) == Ok((operand, q + 1 + ProductLen(operand)))
    ensures SumTail(toks, q, acc) == SumTail(toks, q + 1 + ProductLen(operand), Binop(op, acc, operand))
  {
  }

  /** One turn of the `term` loop: a `*` or `/`, then a `factor`. */
  lemma ProductStep(toks: Stream, q: nat, acc: Expr, op: Op, operand: Expr)
    requires q + 1 + FactorLen(operand) < |toks|
    requires !Additive(op) && toks[q].kind == OpToken(op).kind
    requires ParseFactor(toks, q + 1) == Ok((operand, q + 1 + FactorLen(operand)))
    ensures ProductTail(toks, q, acc) == ProductTail(toks, q + 1 + FactorLen(operand), Binop(op, acc, operand))
  {
  }

  /** The `expr` loop stops at a token that is not `+`, `-`, `*` or `/`. */
  lemma SumStop(toks: Stream, q: nat, acc: Expr)
    requires q < |toks| && EndsExpr(toks[q].kind)
    ensures SumTail(toks, q, acc) == Ok((acc, q))
  {
  }

  /** The `term` loop stops at a token that is not `*` or `/`. */
  lemma ProductStop(toks: Stream, q: nat, acc: Expr)
    requires q < |toks| && EndsTerm(toks[q].kind)
    ensures ProductTail(toks, q, acc) == Ok((acc, q))
  {
  }

  /** A `)` closes a parenthesised `expr`. */
  lemma ParenUnfold(toks: Stream, p: nat, e: Expr, q: nat)
    requires p + 1 < |toks| && q < |toks|
    requires toks[p].kind == LPAREN && ParseSum(toks, p + 1) == Ok((e, q)) && toks[q].kind == RPAREN
    ensures ParseFactor(toks, p) == Ok((e, q + 1))
  {
  }

  /** A printed REF text splits back, at its first dot, into id and anchor. */
  lemma RefTextSplits(id: string, anchor: string)
    requires '.' !in id
    ensures IndexOf("#" + id + "." + anchor, '.') == 1 + |id|
    ensures Slice("#" + id + "." + anchor, 1, 1 + |id|) == id
    ensures Slice("#" + id + "." + anchor, 2 + |id|, |"#" + id + "." + anchor|) == anchor
  {
    var text := "#" + id + "." + anchor;
    assert text[1 + |id|] == '.';
    assert text[..1 + |id|] == "#" + id;
    assert text[1..1 + |id|] == id;
    assert text[2 + |id|..] == anchor;
  }

  /** A printed leaf token reads back as the leaf it was printed from. */
  lemma LeafRoundTrip(e: Expr)
    requires Printable(e) && !e.Binop? && Readable(LeafToken(e))
    ensures IsLeafKind(LeafToken(e).kind) && LeafOf(LeafToken(e)) == e
  {
    match e
    case Literal(Finite(v)) =>
      IntTextValue(v.Floor);
    case Literal(NonFinite) =>
    case Ref(id, anchor) =>
      RefTextSplits(id, anchor);
    case SelfRef(anchor) =>
      assert (SelfPrefix + anchor)[6..] == anchor;
      assert Slice(SelfPrefix + anchor, 6, |SelfPrefix + anchor|) == anchor;
  }

  /** Ranks ordering the round-trip lemmas that work on one tree. A
      parenthesised factor re-enters the parser at `expr`, so the order
      depends on the tree's kind; each list runs from the lemma called first. */
  function SumTripRank(e: Expr): nat { if IsSum(e) then 3 else if IsProduct(e) then 6 else 7 }
  function SumOnRank(e: Expr): nat { if IsSum(e) then 2 else if IsProduct(e) then 5 else 6 }
  function SumFirstRank(e: Expr): nat { if IsSum(e) then 0 else if IsProduct(e) then 4 else 5 }
  function SumNextRank(e: Expr): nat { if IsSum(e) then 1 else 0 }
  function ProductTripRank(e: Expr): nat { if IsSum(e) then 7 else if IsProduct(e) then 3 else 4 }
  function ProductOnRank(e: Expr): nat { if IsSum(e) then 6 else if IsProduct(e) then 2 else 3 }
  function ProductFirstRank(e: Expr): nat { if IsSum(e) then 5 else if IsProduct(e) then 0 else 2 }
  function ProductNextRank(e: Expr): nat { if IsProduct(e) then 1 else 0 }
  function FactorTripRank(e: Expr): nat { if IsSum(e) then 4 else if IsProduct(e) then 7 else 1 }

  /** The parser reads a printed leaf or parenthesised tree back exactly,
      whatever follows it. */
  lemma {:induction false} FactorRoundTrip(toks: Stream, p: nat, e: Expr)
    requires FactorAt(toks, p, e)
    ensures ParseFactor(toks, p) == Ok((e, p + FactorLen(e)))
    decreases Size(e), FactorTripRank(e)
  {
    if e.Binop? {
      var q := p + 1 + SumLen(e);
      assert ParseSum(toks, p + 1) == Ok((e, q)) by {
        SumRoundTrip(toks, p + 1, e);
      }
      ParenUnfold(toks, p, e, q);
    }
  }

  /** A `term` that is a single factor: the loop starts right after it. */
  lemma {:induction false} ProductFirst(toks: Stream, p: nat, e: Expr)
    requires !IsProduct(e) && FactorAt(toks, p, e)
    ensures ParseProduct(toks, p) == ProductTail(toks, p + FactorLen(e), e)
    decreases Size(e), ProductFirstRank(e)
  {
    FactorRoundTrip(toks, p, e);
    ProductUnfold(toks, p, e, p + FactorLen(e));
  }

  /** The `term` loop, holding the left operand of `e` just before its
      operator, reads the operator and the right operand. */
  lemma {:induction false} ProductNext(toks: Stream, p: nat, e: Expr)
    requires IsProduct(e) && ProductAt(toks, p, e)
    ensures ProductTail(toks, p + ProductLen(e.left), e.left) == ProductTail(toks, p + ProductLen(e), e)
    decreases Size(e), ProductNextRank(e)
  {
    var m := p + ProductLen(e.left);
    assert m < |toks| && toks[m].kind == OpToken(e.op).kind && FactorAt(toks, m + 1, e.right);
    assert p + ProductLen(e) == m + 1 + FactorLen(e.right);
    ProductOperand(toks, m, e.left, e.op, e.right);
  }

  /** One turn of the `term` loop over a printed factor. */
  lemma {:induction false} ProductOperand(toks: Stream, m: nat, acc: Expr, op: Op, operand: Expr)
    requires !Additive(op) && m < |toks|
    requires toks[m].kind == OpToken(op).kind && FactorAt(toks, m + 1, operand)
    ensures ProductTail(toks, m, acc) == ProductTail(toks, m + 1 + FactorLen(operand), Binop(op, acc, operand))
    decreases Size(operand), 8
  {
    FactorRoundTrip(toks, m + 1, operand);
    ProductStep(toks, m, acc, op, operand);
  }

  /** Reading a printed `term` leaves the `term` loop just after it, holding
      the whole tree: the loop has folded every `*` and `/` to the left. */
  lemma {:induction false} ProductReadsOn(toks: Stream, p: nat, e: Expr)
    requires ProductAt(toks, p, e)
    ensures ParseProduct(toks, p) == ProductTail(toks, p + ProductLen(e), e)
    decreases Size(e), ProductOnRank(e)
  {
    if IsProduct(e) {
      ProductReadsOn(toks, p, e.left);
      ProductNext(toks, p, e);
    } else {
      ProductFirst(toks, p, e);
    }
  }

  /** The parser reads a printed `term` back exactly when the token after it
      is not `*` or `/`. */
  lemma {:induction false} ProductRoundTrip(toks: Stream, p: nat, e: Expr)
    requires ProductAt(toks, p, e)
    requires EndsTerm(toks[p + ProductLen(e)].kind)
    ensures ParseProduct(toks, p) == Ok((e, p + ProductLen(e)))
    decreases Size(e), ProductTripRank(e)
  {
    ProductReadsOn(toks, p, e);
    ProductStop(toks, p + ProductLen(e), e);
  }

  /** An `expr` that is a single `term`: the loop starts right after it. */
  lemma {:induction false} SumFirst(toks: Stream, p: nat, e: Expr)
    requires !IsSum(e) && ProductAt(toks, p, e)
    requires EndsTerm(toks[p + ProductLen(e)].kind)
    ensures ParseSum(toks, p) == SumTail(toks, p + ProductLen(e), e)
    decreases Size(e), SumFirstRank(e)
  {
    ProductRoundTrip(toks, p, e);
    SumUnfold(toks, p, e, p + ProductLen(e));
  }

  /** The `expr` loop, holding the left operand of `e` just before its
      operator, reads the operator and the right operand. */
  lemma {:induction false} SumNext(toks: Stream, p: nat, e: Expr)
    requires IsSum(e) && SumAt(toks, p, e)
    requires EndsTerm(toks[p + SumLen(e)].kind)
    ensures SumTail(toks, p + SumLen(e.left), e.left) == SumTail(toks, p + SumLen(e), e)
    decreases Size(e), SumNextRank(e)
  {
    SumOperand(toks, p + SumLen(e.left), e.left, e.op, e.right);
  }

  /** One turn of the `expr` loop over a printed `term`. */
  lemma {:induction false} SumOperand(toks: Stream, m: nat, acc: Expr, op: Op, operand: Expr)
    requires Additive(op) && m < |toks|
    requires toks[m].kind == OpToken(op).kind && ProductAt(toks, m + 1, operand)
    requires EndsTerm(toks[m + 1 + ProductLen(operand)].kind)
    ensures SumTail(toks, m, acc) == SumTail(toks, m + 1 + ProductLen(operand), Binop(op, acc, operand))
    decreases Size(operand), 8
  {
    ProductRoundTrip(toks, m + 1, operand);
    SumStep(toks, m, acc, op, operand);
  }

  /** Reading a printed `expr` that is not followed by `*` or `/` leaves the
      `expr` loop just after it, holding the whole tree. */
  lemma {:induction false} SumReadsOn(toks: Stream, p: nat, e: Expr)
    requires SumAt(toks, p, e)
    requires EndsTerm(toks[p + SumLen(e)].kind)
    ensures ParseSum(toks, p) == SumTail(toks, p + SumLen(e), e)
    decreases Size(e), SumOnRank(e)
  {
    if IsSum(e) {
      SumReadsOn(toks, p, e.left);
      SumNext(toks, p, e);
    } else {
      SumFirst(toks, p, e);
    }
  }

  /** The parser reads a printed `expr` back exactly when the token after it
      is not an operator. */
  lemma {:induction false} SumRoundTrip(toks: Stream, p: nat, e: Expr)
    requires SumAt(toks, p, e)
    requires EndsExpr(toks[p + SumLen(e)].kind)
    ensures ParseSum(toks, p) == Ok((e, p + SumLen(e)))
    decreases Size(e), SumTripRank(e)
  {
    SumReadsOn(toks, p, e);
    SumStop(toks, p + SumLen(e), e);
  }

  /** Every NUMBER token the printer emits has a text `parseFloat` reads. */
  predicate NumbersReadable(ts: seq<Token>) {
    forall k {:trigger Readable(ts[k])} :: 0 <= k < |ts| ==> Readable(ts[k])
  }

  lemma {:induction false} PrintedNumbersReadable(e: Expr)
    requires Printable(e)
    ensures NumbersReadable(PrintSum(e)) && NumbersReadable(PrintProduct(e)) && NumbersReadable(PrintFactor(e))
  {
    match e
    case Binop(_, l, r) =>
      PrintedNumbersReadable(l);
      PrintedNumbersReadable(r);
    case _ =>
      LeafReadable(e);
      assert PrintSum(e) == PrintProduct(e) == PrintFactor(e) == [LeafToken(e)];
  }

  /** Every leaf prints as a token the parser can read. */
  lemma LeafReadable(e: Expr)
    requires Printable(e) && !e.Binop?
    ensures Readable(LeafToken(e))
  {
    match e
    case Literal(Finite(v)) =>
      IntTextValue(v.Floor);
    case Literal(NonFinite) =>
      assert IsNumberBody(".");
    case _ =>
  }

  /** The whole printed stream, terminated as the tokenizer terminates it. */
  function Print(e: Expr): seq<Token> {
    PrintSum(e) + [Eof]
  }

  /** Parsing inverts printing: every printable tree comes back unchanged. */
  lemma RoundTrip(e: Expr)
    requires Printable(e)
    ensures WellFormedStream(Print(e))
    ensures ParseTokens(Print(e)) == Ok(e)
  {
    var toks := Print(e);
    assert NumbersReadable([Eof]) by {
      assert Readable([Eof][0]);
    }
    ReadableStream(e, [Eof]);
    assert SumLen(e) == |PrintSum(e)| && SumAt(toks, 0, e) by {
      PrintedAt([], e, [Eof]);
      assert [] + PrintSum(e) + [Eof] == toks;
    }
    assert toks[SumLen(e)] == Eof;
    SumRoundTrip(toks, 0, e);
  }

  /** Anything but an operator or the end after a complete expression is a
      trailing token, reported at its own position. */
  lemma TrailingTokenRejected(e: Expr, t: Token)
    requires Printable(e)
    requires t.kind in {NUMBER, REF, SELF_REF, LPAREN, RPAREN}
    requires t.kind == NUMBER ==> IsNumberText(t.text)
    ensures WellFormedStream(PrintSum(e) + [t, Eof])
    ensures ParseTokens(PrintSum(e) + [t, Eof]) == Err(ParseError(t.pos, TrailingToken(t)))
  {
    var toks := PrintSum(e) + [t, Eof];
    assert NumbersReadable([t, Eof]) by {
      assert Readable([t, Eof][0]) && Readable([t, Eof][1]);
    }
    ReadableStream(e, [t, Eof]);
    assert SumLen(e) == |PrintSum(e)| && SumAt(toks, 0, e) by {
      PrintedAt([], e, [t, Eof]);
      assert [] + PrintSum(e) + [t, Eof] == toks;
    }
    assert toks[SumLen(e)] == t;
    SumRoundTrip(toks, 0, e);
  }

  /** An opening parenthesis that is never closed is reported at the end of input. */
  lemma UnclosedParenRejected(e: Expr, end: nat)
    requires Printable(e)
    ensures WellFormedStream([OpenParen] + PrintSum(e) + [Token(EOF, "", end)])
    ensures ParseTokens([OpenParen] + PrintSum(e) + [Token(EOF, "", end)])
         == Err(ParseError(end, ExpectedToken(RPAREN, Token(EOF, "", end))))
  {
    var close := Token(EOF, "", end);
    var toks := [OpenParen] + PrintSum(e) + [close];
    var q := 1 + |PrintSum(e)|;
    assert WellFormedStream(toks) by {
      ParenthesizedStream(e, close);
    }
    assert SumLen(e) == |PrintSum(e)| && SumAt(toks, 1, e) by {
      PrintedAt([OpenParen], e, [close]);
    }
    assert toks[q] == close && toks[0] == OpenParen;
    SumRoundTrip(toks, 1, e);
    UnclosedStep(toks, q, e);
  }

  /** A printed expression between `(` and an end token is a stream the
      parser accepts as input. */
  lemma ParenthesizedStream(e: Expr, close: Token)
    requires Printable(e) && close.kind == EOF
    ensures WellFormedStream([OpenParen] + PrintSum(e) + [close])
  {
    PrintedNumbersReadable(e);
    assert NumbersReadable([OpenParen]) by {
      assert Readable([OpenParen][0]);
    }
    ReadableConcat([OpenParen], PrintSum(e));
    assert NumbersReadable([close]) by {
      assert Readable([close][0]);
    }
    ReadableConcat([OpenParen] + PrintSum(e), [close]);
    var toks := [OpenParen] + PrintSum(e) + [close];
    assert toks[|toks| - 1] == close;
  }

  /** A `(` whose expression runs into the end of input fails on the missing
      `)`, and the failure reaches the top. */
  lemma UnclosedStep(toks: Stream, q: nat, e: Expr)
    requires 0 < q < |toks|
    requires toks[0].kind == LPAREN && ParseSum(toks, 1) == Ok((e, q))
    requires toks[q].kind == EOF
    ensures ParseTokens(toks) == Err(ParseError(toks[q].pos, ExpectedToken(RPAREN, toks[q])))
  {
    assert ParseFactor(toks, 0) == Err(ParseError(toks[q].pos, ExpectedToken(RPAREN, toks[q])));
    assert ParseProduct(toks, 0) == Err(ParseError(toks[q].pos, ExpectedToken(RPAREN, toks[q])));
  }

  /** Readable numbers on both sides make readable numbers in the whole. */
  lemma ReadableConcat(a: seq<Token>, b: seq<Token>)
    requires NumbersReadable(a) && NumbersReadable(b)
    ensures NumbersReadable(a + b)
  {
    forall k | 0 <= k < |a + b|
      ensures Readable((a + b)[k])
    {
      if k < |a| {
        assert (a + b)[k] == a[k];
      } else {
        assert (a + b)[k] == b[k - |a|];
      }
    }
  }

  /** A printed expression followed by tokens ending in EOF is a stream the
      parser accepts as input. */
  lemma ReadableStream(e: Expr, tail: seq<Token>)
    requires Printable(e) && NumbersReadable(tail)
    requires |tail| > 0 && tail[|tail| - 1].kind == EOF
    ensures WellFormedStream(PrintSum(e) + tail)
  {
    PrintedNumbersReadable(e);
    ReadableConcat(PrintSum(e), tail);
    assert (PrintSum(e) + tail)[|PrintSum(e) + tail| - 1] == tail[|tail| - 1];
  }

  /** A printed expression lies, position by position, wherever it was put. */
  lemma PrintedAt(before: seq<Token>, e: Expr, after: seq<Token>)
    requires Printable(e) && |after| > 0
    ensures SumLen(e) == |PrintSum(e)| && SumAt(before + PrintSum(e) + after, |before|, e)
  {
    AtWithin(before, PrintSum(e), after);
    PrintedLengths(e);
    PrintedSum(before + PrintSum(e) + after, |before|, e);
  }

  // ---------------------------------------------------------------------------
  // From input text
  // ---------------------------------------------------------------------------

  /** Two token lists that agree in everything but positions. */
  predicate SameText(a: seq<Token>, b: seq<Token>) {
    && |a| == |b|
    && forall k :: 0 <= k < |a| ==> a[k].kind == b[k].kind && a[k].text == b[k].text
  }

  /** Lists that agree up to positions still do after one more such token each. */
  lemma SameTextAppend(a: seq<Token>, b: seq<Token>, x: Token, y: Token)
    requires SameText(a, b) && x.kind == y.kind && x.text == y.text
    ensures SameText(a + [x], b + [y])
  {
  }

  /** Where a tree lies does not depend on token positions. */
  lemma {:induction false} SumAtMoves(a: seq<Token>, b: seq<Token>, p: nat, e: Expr)
    requires SameText(a, b) && SumAt(a, p, e)
    ensures SumAt(b, p, e)
    decreases e, SumRank(e)
  {
    if IsSum(e) {
      SumAtMoves(a, b, p, e.left);
      ProductAtMoves(a, b, p + SumLen(e.left) + 1, e.right);
    } else {
      ProductAtMoves(a, b, p, e);
    }
  }

  lemma {:induction false} ProductAtMoves(a: seq<Token>, b: seq<Token>, p: nat, e: Expr)
    requires SameText(a, b) && ProductAt(a, p, e)
    ensures ProductAt(b, p, e)
    decreases e, ProductRank(e)
  {
    if IsProduct(e) {
      ProductAtMoves(a, b, p, e.left);
      FactorAtMoves(a, b, p + ProductLen(e.left) + 1, e.right);
    } else {
      FactorAtMoves(a, b, p, e);
    }
  }

  lemma {:induction false} FactorAtMoves(a: seq<Token>, b: seq<Token>, p: nat, e: Expr)
    requires SameText(a, b) && FactorAt(a, p, e)
    ensures FactorAt(b, p, e)
    decreases e, FactorRank(e)
  {
    if e.Binop? {
      SumAtMoves(a, b, p + 1, e);
    } else {
      assert a[p].kind == b[p].kind && a[p].text == b[p].text;
    }
  }

  /** `parseExpr` on any text that tokenizes to a printed tree, positions
      aside, returns that tree. */
  lemma ParsesRetokenized(input: string, e: Expr)
    requires Printable(e)
    requires Tokenize(input).Ok? && SameText(Tokenize(input).value, Print(e))
    ensures ParseExpr(input) == Ok(e)
  {
    var toks := Tokenize(input).value;
    TokenizedIsWellFormed(input, toks);
    assert SumLen(e) == |PrintSum(e)| && SumAt(Print(e), 0, e) by {
      PrintedAt([], e, [Eof]);
      assert [] + PrintSum(e) + [Eof] == Print(e);
    }
    SumAtMoves(Print(e), toks, 0, e);
    assert Print(e)[SumLen(e)] == Eof;
    SumRoundTrip(toks, 0, e);
  }

  function Num(n: int): Expr {
    Literal(Finite(n as real))
  }

  /** `1 + 2 * 3` groups as `1 + (2 * 3)`. */
  lemma ProductBindsTighter()
    ensures ParseTokens([Token(NUMBER, "1", 0), Token(PLUS, "+", 0), Token(NUMBER, "2", 0),
                         Token(STAR, "*", 0), Token(NUMBER, "3", 0), Eof])
         == Ok(Binop(Add, Num(1), Binop(Mul, Num(2), Num(3))))
  {
    var e := Binop(Add, Num(1), Binop(Mul, Num(2), Num(3)));
    SumOfProductPrinted();
    RoundTrip(e);
  }

  /** How `1 + (2 * 3)` prints: no parentheses are needed. */
  lemma SumOfProductPrinted()
    ensures PrintSum(Binop(Add, Num(1), Binop(Mul, Num(2), Num(3))))
         == [Token(NUMBER, "1", 0), Token(PLUS, "+", 0), Token(NUMBER, "2", 0), Token(STAR, "*", 0), Token(NUMBER, "3", 0)]
    ensures Print(Binop(Add, Num(1), Binop(Mul, Num(2), Num(3))))
         == [Token(NUMBER, "1", 0), Token(PLUS, "+", 0), Token(NUMBER, "2", 0),
             Token(STAR, "*", 0), Token(NUMBER, "3", 0), Eof]
  {
    assert IntText(1) == "1" && IntText(2) == "2" && IntText(3) == "3";
  }

  /** `(1 + 2) * 3` keeps its grouping. */
  lemma ParenthesesGroup()
    ensures ParseTokens([OpenParen, Token(NUMBER, "1", 0), Token(PLUS, "+", 0), Token(NUMBER, "2", 0),
                         CloseParen, Token(STAR, "*", 0), Token(NUMBER, "3", 0), Eof])
         == Ok(Binop(Mul, Binop(Add, Num(1), Num(2)), Num(3)))
  {
    GroupedSumPrinted();
    RoundTrip(Binop(Mul, Binop(Add, Num(1), Num(2)), Num(3)));
  }

  /** How `(1 + 2) * 3` prints: the sum needs its parentheses. */
  lemma GroupedSumPrinted()
    ensures PrintSum(Binop(Mul, Binop(Add, Num(1), Num(2)), Num(3)))
         == [OpenParen, Token(NUMBER, "1", 0), Token(PLUS, "+", 0), Token(NUMBER, "2", 0),
             CloseParen, Token(STAR, "*", 0), Token(NUMBER, "3", 0)]
    ensures Print(Binop(Mul, Binop(Add, Num(1), Num(2)), Num(3)))
         == [OpenParen, Token(NUMBER, "1", 0), Token(PLUS, "+", 0), Token(NUMBER, "2", 0),
             CloseParen, Token(STAR, "*", 0), Token(NUMBER, "3", 0), Eof]
  {
    assert IntText(1) == "1" && IntText(2) == "2" && IntText(3) == "3";
  }

  /** `10 - 3 - 2` groups as `(10 - 3) - 2`. */
  lemma SubtractionAssociatesLeft()
    ensures ParseTokens([Token(NUMBER, "10", 0), Token(MINUS, "-", 0), Token(NUMBER, "3", 0),
                         Token(MINUS, "-", 0), Token(NUMBER, "2", 0), Eof])
         == Ok(Binop(Sub, Binop(Sub, Num(10), Num(3)), Num(2)))
  {
    DifferencePrinted();
    RoundTrip(Binop(Sub, Binop(Sub, Num(10), Num(3)), Num(2)));
  }

  /** How `(10 - 3) - 2` prints: left nesting needs no parentheses. */
  lemma DifferencePrinted()
    ensures PrintSum(Binop(Sub, Binop(Sub, Num(10), Num(3)), Num(2)))
         == [Token(NUMBER, "10", 0), Token(MINUS, "-", 0), Token(NUMBER, "3", 0), Token(MINUS, "-", 0), Token(NUMBER, "2", 0)]
    ensures Print(Binop(Sub, Binop(Sub, Num(10), Num(3)), Num(2)))
         == [Token(NUMBER, "10", 0), Token(MINUS, "-", 0), Token(NUMBER, "3", 0),
             Token(MINUS, "-", 0), Token(NUMBER, "2", 0), Eof]
  {
    assert IntText(10) == "10" && IntText(2) == "2" && IntText(3) == "3";
  }

  /** Empty input is one EOF token, which cannot start an expression. */
  lemma EmptyInputRejected()
    ensures ParseExpr("") == Err(ParseError(0, UnexpectedToken(Token(EOF, "", 0))))
  {
  }

  /** `42 42`: the second number is a trailing token, reported where it starts. */
  lemma TrailingNumberInText(s: string)
    requires s == "42 42"
    ensures ParseExpr(s) == Err(ParseError(3, TrailingToken(Token(NUMBER, "42", 3))))
  {
    TwoNumbersTokenized(s);
    var toks: Stream := [Token(NUMBER, "42", 0), Token(NUMBER, "42", 3)] + [Token(EOF, "", 5)];
    var leaf := LeafOf(toks[0]);
    assert ParseFactor(toks, 0) == Ok((leaf, 1));
    assert ProductTail(toks, 1, leaf) == Ok((leaf, 1));
    assert SumTail(toks, 1, leaf) == Ok((leaf, 1));
    assert ParseSum(toks, 0) == Ok((leaf, 1));
  }

  /** `1+2*3` parses as `1 + (2 * 3)`. */
  lemma ProductBindsTighterInText(s: string)
    requires s == "1+2*3"
    ensures ParseExpr(s) == Ok(Binop(Add, Num(1), Binop(Mul, Num(2), Num(3))))
  {
    SumOfProductSameText(s, Binop(Add, Num(1), Binop(Mul, Num(2), Num(3))));
    ParsesRetokenized(s, Binop(Add, Num(1), Binop(Mul, Num(2), Num(3))));
  }

  /** The tokens of `1+2*3` are the printed tree's, up to positions. */
  lemma SumOfProductSameText(s: string, e: Expr)
    requires s == "1+2*3" && e == Binop(Add, Num(1), Binop(Mul, Num(2), Num(3)))
    ensures Tokenize(s).Ok? && SameText(Tokenize(s).value, Print(e))
  {
    SumOfProductTokenized(s);
    SumOfProductPrinted();
    SumOfProductTexts();
    var a := [Token(NUMBER, "1", 0), Token(PLUS, "+", 1), Token(NUMBER, "2", 2),
              Token(STAR, "*", 3), Token(NUMBER, "3", 4)];
    var b := [Token(NUMBER, "1", 0), Token(PLUS, "+", 0), Token(NUMBER, "2", 0),
              Token(STAR, "*", 0), Token(NUMBER, "3", 0)];
    SameTextAppend(a, b, Token(EOF, "", 5), Eof);
  }

  /** The tokens of `1+2*3` before EOF agree with the printed ones but for positions. */
  lemma SumOfProductTexts()
    ensures SameText([Token(NUMBER, "1", 0), Token(PLUS, "+", 1), Token(NUMBER, "2", 2),
                      Token(STAR, "*", 3), Token(NUMBER, "3", 4)],
                     [Token(NUMBER, "1", 0), Token(PLUS, "+", 0), Token(NUMBER, "2", 0),
                      Token(STAR, "*", 0), Token(NUMBER, "3", 0)])
  {
  }

  /** `(1+2)*3` parses as `(1 + 2) * 3`. */
  lemma ParenthesesGroupInText(s: string)
    requires s == "(1+2)*3"
    ensures ParseExpr(s) == Ok(Binop(Mul, Binop(Add, Num(1), Num(2)), Num(3)))
  {
    GroupedSumSameText(s, Binop(Mul, Binop(Add, Num(1), Num(2)), Num(3)));
    ParsesRetokenized(s, Binop(Mul, Binop(Add, Num(1), Num(2)), Num(3)));
  }

  /** The tokens of `(1+2)*3` are the printed tree's, up to positions. */
  lemma GroupedSumSameText(s: string, e: Expr)
    requires s == "(1+2)*3" && e == Binop(Mul, Binop(Add, Num(1), Num(2)), Num(3))
    ensures Tokenize(s).Ok? && SameText(Tokenize(s).value, Print(e))
  {
    GroupedSumTokenized(s);
    GroupedSumPrinted();
    var a := [Token(LPAREN, "(", 0), Token(NUMBER, "1", 1), Token(PLUS, "+", 2),
              Token(NUMBER, "2", 3), Token(RPAREN, ")", 4), Token(STAR, "*", 5),
              Token(NUMBER, "3", 6)];
    var b := [OpenParen, Token(NUMBER, "1", 0), Token(PLUS, "+", 0), Token(NUMBER, "2", 0),
              CloseParen, Token(STAR, "*", 0), Token(NUMBER, "3", 0)];
    GroupedSumTexts();
    SameTextAppend(a, b, Token(EOF, "", 7), Eof);
  }

  /** The tokens of `(1+2)*3` before EOF agree with the printed ones but for positions. */
  lemma GroupedSumTexts()
    ensures SameText([Token(LPAREN, "(", 0), Token(NUMBER, "1", 1), Token(PLUS, "+", 2),
                      Token(NUMBER, "2", 3), Token(RPAREN, ")", 4), Token(STAR, "*", 5),
                      Token(NUMBER, "3", 6)],
                     [OpenParen, Token(NUMBER, "1", 0), Token(PLUS, "+", 0), Token(NUMBER, "2", 0),
                      CloseParen, Token(STAR, "*", 0), Token(NUMBER, "3", 0)])
  {
  }

  /** `10-3-2` parses as `(10 - 3) - 2`. */
  lemma SubtractionAssociatesLeftInText(s: string)
    requires s == "10-3-2"
    ensures ParseExpr(s) == Ok(Binop(Sub, Binop(Sub, Num(10), Num(3)), Num(2)))
  {
    DifferenceSameText(s, Binop(Sub, Binop(Sub, Num(10), Num(3)), Num(2)));
    ParsesRetokenized(s, Binop(Sub, Binop(Sub, Num(10), Num(3)), Num(2)));
  }

  /** The tokens of `10-3-2` are the printed tree's, up to positions. */
  lemma DifferenceSameText(s: string, e: Expr)
    requires s == "10-3-2" && e == Binop(Sub, Binop(Sub, Num(10), Num(3)), Num(2))
    ensures Tokenize(s).Ok? && SameText(Tokenize(s).value, Print(e))
  {
    DifferenceTokenized(s);
    DifferencePrinted();
    DifferenceTexts();
    var a := [Token(NUMBER, "10", 0), Token(MINUS, "-", 2), Token(NUMBER, "3", 3),
              Token(MINUS, "-", 4), Token(NUMBER, "2", 5)];
    var b := [Token(NUMBER, "10", 0), Token(MINUS, "-", 0), Token(NUMBER, "3", 0),
              Token(MINUS, "-", 0), Token(NUMBER, "2", 0)];
    SameTextAppend(a, b, Token(EOF, "", 6), Eof);
  }

  /** The tokens of `10-3-2` before EOF agree with the printed ones but for positions. */
  lemma DifferenceTexts()
    ensures SameText([Token(NUMBER, "10", 0), Token(MINUS, "-", 2), Token(NUMBER, "3", 3),
                      Token(MINUS, "-", 4), Token(NUMBER, "2", 5)],
                     [Token(NUMBER, "10", 0), Token(MINUS, "-", 0), Token(NUMBER, "3", 0),
                      Token(MINUS, "-", 0), Token(NUMBER, "2", 0)])
  {
  }
}

=== FILE: expr_lexer.dfy ===
/** The character-level tokenizer of the reference-expression language
    (app-claude/src/claude-render/primitives/ExprParser.ts, `tokenize`,
    `scanNumber`, `isDigit`, `isIdChar`, `ParseError`).

    `Tokenize` either fails with a position-carrying `ParseError` or returns a
    token list that `WellTokenized` characterises completely: one `EOF` at the
    very end, every other token lies verbatim in the input at its `pos`, the
    tokens are ordered and disjoint, every non-whitespace character belongs to
    a token, each token's text has the shape its type demands, scanning is
    maximal, and a `-` joins a number exactly in unary position. Conversely,
    every text that has such a token list tokenizes to exactly that list, so
    `tokenize` fails only on text that no tokenization fits. */
module ExprLexer {
  import opened Results

  datatype TokenType =
    | NUMBER | REF | SELF_REF
    | PLUS | MINUS | STAR | SLASH
    | LPAREN | RPAREN
    | EOF

  datatype Token = Token(kind: TokenType, text: string, pos: nat)

  /** Why the tokenizer or the parser gave up. */
  datatype Reason =
    | ExpectedSelf
    | ExpectedDotAfterSelf
    | ExpectedAnchorAfterSelf
    | ExpectedIdAfterHash
    | ExpectedDotAfterId
    | ExpectedAnchorAfterDot
    | UnexpectedChar(ch: char)
    | ExpectedToken(expected: TokenType, got: Token)
    | UnexpectedToken(got: Token)
    | TrailingToken(got: Token)
  {
    /** The reasons only the tokenizer produces. */
    predicate IsLexical() {
      || ExpectedSelf? || ExpectedDotAfterSelf? || ExpectedAnchorAfterSelf?
      || ExpectedIdAfterHash? || ExpectedDotAfterId? || ExpectedAnchorAfterDot?
      || UnexpectedChar?
    }
  }

  /** ExprParser.ts's `ParseError`: a message plus the offending position. */
  datatype ParseError = ParseError(pos: nat, reason: Reason)

  // ---------------------------------------------------------------------------
  // Character classes
  // ---------------------------------------------------------------------------

  predicate IsWhitespace(c: char) {
    c == ' ' || c == '\t' || c == '\n' || c == '\r'
  }

  predicate IsDigit(c: char) {
    '0' <= c <= '9'
  }

  predicate IsIdChar(c: char) {
    ('a' <= c <= 'z') || ('A' <= c <= 'Z') || IsDigit(c) || c == '_' || c == '-'
  }

  /** A character `scanNumber` may consume. */
  predicate IsNumberChar(c: char) {
    IsDigit(c) || c == '.'
  }

  /** A character the anchor part of a reference may contain after its first one. */
  predicate IsAnchorChar(c: char) {
    IsIdChar(c) || c == '.'
  }

  // ---------------------------------------------------------------------------
  // Token shapes
  // ---------------------------------------------------------------------------

  predicate AtMostOneDot(s: string) {
    forall a, b :: 0 <= a < b < |s| && s[a] == '.' ==> s[b] != '.'
  }

  /** Digits with at most one `.` anywhere (so `.5`, `5.` and `.` all qualify). */
  predicate IsNumberBody(s: string) {
    && |s| > 0
    && (forall k :: 0 <= k < |s| ==> IsNumberChar(s[k]))
    && AtMostOneDot(s)
  }

  /** The text of a NUMBER token: an optional leading `-`, then a number body. */
  predicate IsNumberText(t: string) {
    if |t| > 0 && t[0] == '-' then IsNumberBody(t[1..]) else IsNumberBody(t)
  }

  predicate IsIdText(s: string) {
    |s| > 0 && forall k :: 0 <= k < |s| ==> IsIdChar(s[k])
  }

  /** An anchor name: an id character, then id characters and dots (`v0.x`). */
  predicate IsAnchorText(s: string) {
    |s| > 0 && IsIdChar(s[0]) && forall k :: 0 <= k < |s| ==> IsAnchorChar(s[k])
  }

  /** `#id.anchor`, the id being dot-free. */
  predicate IsRefText(t: string) {
    && |t| > 0 && t[0] == '#'
    && exists d :: 1 < d < |t| && t[d] == '.' && IsIdText(t[1..d]) && IsAnchorText(t[d + 1..])
  }

  const SelfPrefix: string := "$self."

  predicate IsSelfRefText(t: string) {
    |t| > 6 && t[..6] == SelfPrefix && IsAnchorText(t[6..])
  }

  /** The text a token of each type may carry. */
  predicate HasShape(t: Token) {
    match t.kind
    case NUMBER => IsNumberText(t.text)
    case REF => IsRefText(t.text)
    case SELF_REF => IsSelfRefText(t.text)
    case PLUS => t.text == "+"
    case MINUS => t.text == "-"
    case STAR => t.text == "*"
    case SLASH => t.text == "/"
    case LPAREN => t.text == "("
    case RPAREN => t.text == ")"
    case EOF => t.text == ""
  }

  // ---------------------------------------------------------------------------
  // Layout of a token list over its input
  // ---------------------------------------------------------------------------

  function End(t: Token): nat {
    t.pos + |t.text|
  }

  /** The token's text is the input's text at the token's position. */
  predicate PlacedIn(input: string, t: Token) {
    End(t) <= |input| && input[t.pos..End(t)] == t.text
  }

  predicate Covers(toks: seq<Token>, j: int) {
    exists k :: 0 <= k < |toks| && toks[k].pos <= j < End(toks[k])
  }

  /** A `-` may start a number: first token, or after an operator or `(`. */
  predicate UnaryPosition(prev: seq<Token>) {
    |prev| == 0 || prev[|prev| - 1].kind in {PLUS, MINUS, STAR, SLASH, LPAREN}
  }

  predicate StartsNumber(input: string, i: int) {
    0 <= i < |input| && IsNumberChar(input[i])
  }

  /** A token beginning with `-` is a NUMBER exactly when the `-` is in unary
      position and a digit or `.` follows it; otherwise it is MINUS. */
  predicate MinusRule(input: string, toks: seq<Token>, k: int)
    requires 0 <= k < |toks|
  {
    |toks[k].text| > 0 && toks[k].text[0] == '-' ==>
      (toks[k].kind == NUMBER <==> UnaryPosition(toks[..k]) && StartsNumber(input, toks[k].pos + 1))
  }

  /** Scanning stops only where the token could not be extended. */
  predicate Maximal(input: string, t: Token) {
    var e := End(t);
    match t.kind
    case NUMBER =>
      e < |input| ==> !IsDigit(input[e]) && (input[e] == '.' ==> '.' in t.text)
    case REF => e < |input| ==> !IsAnchorChar(input[e])
    case SELF_REF => e < |input| ==> !IsAnchorChar(input[e])
    case _ => true
  }

  /** One non-EOF token as the tokenizer produces it. */
  predicate Scanned(input: string, t: Token) {
    t.kind != EOF && |t.text| > 0 && HasShape(t) && PlacedIn(input, t) && Maximal(input, t)
  }

  /** The tokens produced from `input[..i]`. */
  predicate LexedUpTo(input: string, i: nat, toks: seq<Token>) {
    && i <= |input|
    && (forall k :: 0 <= k < |toks| ==> Scanned(input, toks[k]) && End(toks[k]) <= i)
    && (forall k :: 0 <= k < |toks| ==> MinusRule(input, toks, k))
    && (forall k :: 0 <= k < |toks| - 1 ==> End(toks[k]) <= toks[k + 1].pos)
    && (forall j :: 0 <= j < i && !IsWhitespace(input[j]) ==> Covers(toks, j))
  }

  /** A complete, successful tokenization of `input`. */
  predicate WellTokenized(input: string, toks: seq<Token>) {
    && |toks| > 0
    && toks[|toks| - 1] == Token(EOF, "", |input|)
    && LexedUpTo(input, |input|, toks[..|toks| - 1])
  }

  /** `e` names a lexical error whose defect is present in `input` at
      `e.pos`: the characters around `e.pos` are what its reason describes.
      That no tokenization at all fits such a text is `TokenizeExactly`. */
  predicate LexErrorAt(input: string, e: ParseError) {
    && e.pos <= |input|
    && e.reason.IsLexical()
    && match e.reason
       case UnexpectedChar(c) =>
         && e.pos < |input| && input[e.pos] == c
         && !IsWhitespace(c) && !IsNumberChar(c) && c !in "+-*/()#$"
       case ExpectedSelf =>
         e.pos < |input| && input[e.pos] == '$' && !(e.pos + 5 <= |input| && input[e.pos..e.pos + 5] == "$self")
       case ExpectedDotAfterSelf =>
         e.pos >= 5 && input[e.pos - 5..e.pos] == "$self" && !(e.pos < |input| && input[e.pos] == '.')
       case ExpectedAnchorAfterSelf =>
         e.pos >= 6 && input[e.pos - 6..e.pos] == SelfPrefix && !(e.pos < |input| && IsIdChar(input[e.pos]))
       case ExpectedIdAfterHash =>
         e.pos >= 1 && input[e.pos - 1] == '#' && !(e.pos < |input| && IsIdChar(input[e.pos]))
       case ExpectedDotAfterId =>
         HashIdBefore(input, e.pos) && !(e.pos < |input| && IsAnchorChar(input[e.pos]))
       case ExpectedAnchorAfterDot =>
         && e.pos >= 1 && input[e.pos - 1] == '.' && HashIdBefore(input, e.pos - 1)
         && !(e.pos < |input| && IsIdChar(input[e.pos]))
       case _ => false
  }

  /** A `#` at `j`, then a non-empty run of id characters up to `e`. */
  predicate HashIdAt(input: string, j: nat, e: nat) {
    j + 1 < e <= |input| && input[j] == '#' && IsIdText(input[j + 1..e])
  }

  /** The text before `e` ends in `#id`. */
  predicate HashIdBefore(input: string, e: nat) {
    exists j: nat | j < e :: HashIdAt(input, j, e)
  }

  // ---------------------------------------------------------------------------
  // Scanners
  // ---------------------------------------------------------------------------

  /** `scanNumber`: digits and at most one `.`, from `i`; `hasDot` records a dot already seen. */
  function ScanNumber(input: string, i: nat, hasDot: bool): (j: nat)
    requires i <= |input|
    ensures i <= j <= |input|
    ensures forall k :: i <= k < j ==> IsNumberChar(input[k])
    ensures AtMostOneDot(input[i..j])
    ensures hasDot ==> '.' !in input[i..j]
    ensures i < |input| && (IsDigit(input[i]) || (input[i] == '.' && !hasDot)) ==> i < j
    ensures j < |input| ==> !IsDigit(input[j]) && (input[j] == '.' ==> hasDot || '.' in input[i..j])
    decreases |input| - i
  {
    if i < |input| && IsDigit(input[i]) then
      var j := ScanNumber(input, i + 1, hasDot);
      assert input[i..j] == [input[i]] + input[i + 1..j];
      j
    else if i < |input| && input[i] == '.' && !hasDot then
      var j := ScanNumber(input, i + 1, true);
      assert input[i..j] == [input[i]] + input[i + 1..j];
      j
    else
      i
  }

  /** The end of the run of id characters starting at `k`. */
  function IdRun(input: string, k: nat): (j: nat)
    requires k <= |input|
    ensures k <= j <= |input|
    ensures forall m :: k <= m < j ==> IsIdChar(input[m])
    ensures j < |input| ==> !IsIdChar(input[j])
    decreases |input| - k
  {
    if k < |input| && IsIdChar(input[k]) then IdRun(input, k + 1) else k
  }

  /** The end of the run of id characters and dots starting at `k`. */
  function AnchorRun(input: string, k: nat): (j: nat)
    requires k <= |input|
    ensures k <= j <= |input|
    ensures forall m :: k <= m < j ==> IsAnchorChar(input[m])
    ensures j < |input| ==> !IsAnchorChar(input[j])
    decreases |input| - k
  {
    if k < |input| && IsAnchorChar(input[k]) then AnchorRun(input, k + 1) else k
  }

  /** `#id.anchor` starting at `i`. */
  function ScanRef(input: string, i: nat): (r: Result<Token, ParseError>)
    requires i < |input| && input[i] == '#'
    ensures r.Ok? ==> r.value.kind == REF && r.value.pos == i && Scanned(input, r.value)
    ensures r.Err? ==> LexErrorAt(input, r.error) && i < r.error.pos
  {
    var idEnd := IdRun(input, i + 1);
    if idEnd == i + 1 then
      Err(ParseError(idEnd, ExpectedIdAfterHash))
    else if idEnd >= |input| || input[idEnd] != '.' then
      HashIdScanned(input, i);
      Err(ParseError(idEnd, ExpectedDotAfterId))
    else if idEnd + 1 >= |input| || !IsIdChar(input[idEnd + 1]) then
      HashIdScanned(input, i);
      Err(ParseError(idEnd + 1, ExpectedAnchorAfterDot))
    else
      RefTokenScanned(input, i, idEnd);
      Ok(Token(REF, input[i..AnchorRun(input, idEnd + 2)], i))
  }

  /** The `#` at `i` and the id characters after it form a `#id`. */
  lemma HashIdScanned(input: string, i: nat)
    requires i < |input| && input[i] == '#' && IdRun(input, i + 1) > i + 1
    ensures HashIdAt(input, i, IdRun(input, i + 1))
  {
    var id := input[i + 1..IdRun(input, i + 1)];
    forall k | 0 <= k < |id|
      ensures IsIdChar(id[k])
    {
      assert id[k] == input[i + 1 + k];
    }
  }

  lemma RefTokenScanned(input: string, i: nat, idEnd: nat)
    requires i < |input| && input[i] == '#'
    requires idEnd == IdRun(input, i + 1) && idEnd != i + 1
    requires idEnd + 1 < |input| && input[idEnd] == '.' && IsIdChar(input[idEnd + 1])
    ensures Scanned(input, Token(REF, input[i..AnchorRun(input, idEnd + 2)], i))
  {
    var j := AnchorRun(input, idEnd + 2);
    var t := Token(REF, input[i..j], i);
    var d := idEnd - i;
    assert t.text[d] == '.';
    assert IsIdText(t.text[1..d]) by {
      forall k | 0 <= k < |t.text[1..d]|
        ensures IsIdChar(t.text[1..d][k])
      {
        assert t.text[1..d][k] == input[i + 1 + k];
      }
    }
    var anchor := t.text[d + 1..];
    assert IsAnchorText(anchor) by {
      assert anchor[0] == input[idEnd + 1];
      forall k | 0 <= k < |anchor|
        ensures IsAnchorChar(anchor[k])
      {
        assert anchor[k] == input[idEnd + 1 + k];
      }
    }
    assert IsRefText(t.text);
    assert PlacedIn(input, t);
  }

  /** `$self.anchor` starting at `i`. */
  function ScanSelfRef(input: string, i: nat): (r: Result<Token, ParseError>)
    requires i < |input| && input[i] == '$'
    ensures r.Ok? ==> r.value.kind == SELF_REF && r.value.pos == i && Scanned(input, r.value)
    ensures r.Err? ==> LexErrorAt(input, r.error) && i <= r.error.pos
  {
    if !(i + 5 <= |input| && input[i..i + 5] == "$self") then
      Err(ParseError(i, ExpectedSelf))
    else if i + 5 >= |input| || input[i + 5] != '.' then
      Err(ParseError(i + 5, ExpectedDotAfterSelf))
    else if i + 6 >= |input| || !IsIdChar(input[i + 6]) then
      AnchorMissingAfterSelf(input, i);
      Err(ParseError(i + 6, ExpectedAnchorAfterSelf))
    else
      SelfTokenScanned(input, i);
      Ok(Token(SELF_REF, input[i..AnchorRun(input, i + 7)], i))
  }

  lemma AnchorMissingAfterSelf(input: string, i: nat)
    requires i + 5 < |input| && input[i..i + 5] == "$self" && input[i + 5] == '.'
    requires !(i + 6 < |input| && IsIdChar(input[i + 6]))
    ensures LexErrorAt(input, ParseError(i + 6, ExpectedAnchorAfterSelf))
  {
    assert input[i..i + 6] == input[i..i + 5] + [input[i + 5]];
  }

  lemma SelfTokenScanned(input: string, i: nat)
    requires i + 6 < |input| && input[i..i + 5] == "$self" && input[i + 5] == '.' && IsIdChar(input[i + 6])
    ensures Scanned(input, Token(SELF_REF, input[i..AnchorRun(input, i + 7)], i))
  {
    var j := AnchorRun(input, i + 7);
    var text := input[i..j];
    assert text[..6] == input[i..i + 5] + [input[i + 5]];
    assert text[6..] == input[i + 6..j];
    assert IsAnchorText(text[6..]) by {
      forall k | 0 <= k < |text[6..]|
        ensures IsAnchorChar(text[6..][k])
      {
        assert text[6..][k] == input[i + 6 + k];
      }
    }
  }

  /** A NUMBER token from `start`; the number body begins at `bodyStart`. */
  function NumberToken(input: string, start: nat, bodyStart: nat): (t: Token)
    requires start <= bodyStart < |input| && IsNumberChar(input[bodyStart])
    requires bodyStart == start || (bodyStart == start + 1 && input[start] == '-')
    ensures t.kind == NUMBER && t.pos == start && Scanned(input, t)
  {
    NumberTokenScanned(input, start, bodyStart);
    Token(NUMBER, input[start..ScanNumber(input, bodyStart, false)], start)
  }

  lemma NumberTokenScanned(input: string, start: nat, bodyStart: nat)
    requires start <= bodyStart < |input| && IsNumberChar(input[bodyStart])
    requires bodyStart == start || (bodyStart == start + 1 && input[start] == '-')
    ensures Scanned(input, Token(NUMBER, input[start..ScanNumber(input, bodyStart, false)], start))
  {
    var j := ScanNumber(input, bodyStart, false);
    var t := Token(NUMBER, input[start..j], start);
    assert IsNumberText(t.text) by {
      NumberBodyScanned(input, bodyStart);
      SignedNumberText(input, start, bodyStart, j);
    }
    assert End(t) == j;
    assert j < |input| ==> !IsDigit(input[j]) && (input[j] == '.' ==> '.' in input[bodyStart..j]);
    if j < |input| && input[j] == '.' {
      DotInside(input, start, bodyStart, j);
    }
  }

  lemma SignedNumberText(input: string, start: nat, bodyStart: nat, j: nat)
    requires start <= bodyStart <= j <= |input| && IsNumberBody(input[bodyStart..j])
    requires bodyStart == start || (bodyStart == start + 1 && input[start] == '-')
    ensures IsNumberText(input[start..j])
  {
    var text := input[start..j];
    if bodyStart == start + 1 {
      assert text[0] == '-' && text[1..] == input[bodyStart..j];
    } else {
      assert text == input[bodyStart..j];
    }
  }

  lemma DotInside(input: string, start: nat, bodyStart: nat, j: nat)
    requires start <= bodyStart <= j <= |input| && '.' in input[bodyStart..j]
    ensures '.' in input[start..j]
  {
    var m :| bodyStart <= m < j && input[m] == '.';
    assert input[start..j][m - start] == '.';
  }

  lemma NumberBodyScanned(input: string, i: nat)
    requires i < |input| && IsNumberChar(input[i])
    ensures IsNumberBody(input[i..ScanNumber(input, i, false)])
  {
    var j := ScanNumber(input, i, false);
    forall k | 0 <= k < |input[i..j]|
      ensures IsNumberChar(input[i..j][k])
    {
      assert input[i..j][k] == input[i + k];
    }
  }

  /** The token that starts at the non-whitespace character `input[i]`,
      `prev` being the tokens already produced. */
  function NextToken(input: string, i: nat, prev: seq<Token>): (r: Result<Token, ParseError>)
    requires i < |input| && !IsWhitespace(input[i])
    ensures r.Ok? ==> r.value.pos == i && Scanned(input, r.value)
    ensures r.Ok? && r.value.text[0] == '-' ==>
              (r.value.kind == NUMBER <==> UnaryPosition(prev) && StartsNumber(input, i + 1))
    ensures r.Err? ==> LexErrorAt(input, r.error) && i <= r.error.pos
  {
    var ch := input[i];
    if ch == '+' then Ok(Token(PLUS, "+", i))
    else if ch == '-' then
      if UnaryPosition(prev) && StartsNumber(input, i + 1) then
        Ok(NumberToken(input, i, i + 1))
      else
        Ok(Token(MINUS, "-", i))
    else if ch == '*' then Ok(Token(STAR, "*", i))
    else if ch == '/' then Ok(Token(SLASH, "/", i))
    else if ch == '(' then Ok(Token(LPAREN, "(", i))
    else if ch == ')' then Ok(Token(RPAREN, ")", i))
    else if IsNumberChar(ch) then Ok(NumberToken(input, i, i))
    else if ch == '$' then ScanSelfRef(input, i)
    else if ch == '#' then ScanRef(input, i)
    else Err(ParseError(i, UnexpectedChar(ch)))
  }

  // ---------------------------------------------------------------------------
  // The tokenizer loop
  // ---------------------------------------------------------------------------

  lemma SkipWhitespace(input: string, i: nat, acc: seq<Token>)
    requires LexedUpTo(input, i, acc) && i < |input| && IsWhitespace(input[i])
    ensures LexedUpTo(input, i + 1, acc)
  {
  }

  lemma Append(input: string, acc: seq<Token>, t: Token)
    requires LexedUpTo(input, t.pos, acc)
    requires Scanned(input, t)
    requires t.text[0] == '-' ==> (t.kind == NUMBER <==> UnaryPosition(acc) && StartsNumber(input, t.pos + 1))
    ensures LexedUpTo(input, End(t), acc + [t])
  {
    AppendScanned(input, acc, t);
    AppendMinus(input, acc, t);
    AppendCovers(input, acc, t);
  }

  lemma AppendScanned(input: string, acc: seq<Token>, t: Token)
    requires forall k :: 0 <= k < |acc| ==> Scanned(input, acc[k]) && End(acc[k]) <= t.pos
    requires forall k :: 0 <= k < |acc| - 1 ==> End(acc[k]) <= acc[k + 1].pos
    requires Scanned(input, t)
    ensures forall k :: 0 <= k < |acc + [t]| ==> Scanned(input, (acc + [t])[k]) && End((acc + [t])[k]) <= End(t)
    ensures forall k :: 0 <= k < |acc + [t]| - 1 ==> End((acc + [t])[k]) <= (acc + [t])[k + 1].pos
  {
    var acc' := acc + [t];
    forall k | 0 <= k < |acc'|
      ensures Scanned(input, acc'[k]) && End(acc'[k]) <= End(t)
    {
      if k < |acc| {
        assert acc'[k] == acc[k];
      }
    }
    forall k | 0 <= k < |acc'| - 1
      ensures End(acc'[k]) <= acc'[k + 1].pos
    {
      assert acc'[k] == acc[k];
    }
  }

  lemma AppendMinus(input: string, acc: seq<Token>, t: Token)
    requires forall k :: 0 <= k < |acc| ==> MinusRule(input, acc, k)
    requires |t.text| > 0
    requires t.text[0] == '-' ==> (t.kind == NUMBER <==> UnaryPosition(acc) && StartsNumber(input, t.pos + 1))
    ensures forall k :: 0 <= k < |acc + [t]| ==> MinusRule(input, acc + [t], k)
  {
    var acc' := acc + [t];
    forall k | 0 <= k < |acc'|
      ensures MinusRule(input, acc', k)
    {
      assert acc'[..k] == if k < |acc| then acc[..k] else acc;
      if k < |acc| {
        assert MinusRule(input, acc, k);
      }
    }
  }

  lemma AppendCovers(input: string, acc: seq<Token>, t: Token)
    requires t.pos <= |input| && End(t) <= |input|
    requires forall j :: 0 <= j < t.pos && !IsWhitespace(input[j]) ==> Covers(acc, j)
    ensures forall j :: 0 <= j < End(t) && !IsWhitespace(input[j]) ==> Covers(acc + [t], j)
  {
    var acc' := acc + [t];
    forall j | 0 <= j < End(t) && !IsWhitespace(input[j])
      ensures Covers(acc', j)
    {
      if j < t.pos {
        var k :| 0 <= k < |acc| && acc[k].pos <= j < End(acc[k]);
        assert acc'[k] == acc[k];
      } else {
        assert acc'[|acc|] == t;
      }
    }
  }

  function Lex(input: string, i: nat, acc: seq<Token>): (r: Result<seq<Token>, ParseError>)
    requires LexedUpTo(input, i, acc)
    ensures r.Ok? ==> WellTokenized(input, r.value) && acc <= r.value
    ensures r.Err? ==> LexErrorAt(input, r.error) && i <= r.error.pos
    decreases |input| - i
  {
    if i == |input| then
      var toks := acc + [Token(EOF, "", i)];
      assert toks[..|toks| - 1] == acc;
      Ok(toks)
    else if IsWhitespace(input[i]) then
      SkipWhitespace(input, i, acc);
      Lex(input, i + 1, acc)
    else
      match NextToken(input, i, acc)
      case Err(e) => Err(e)
      case Ok(t) =>
        Append(input, acc, t);
        Lex(input, End(t), acc + [t])
  }

  /** `tokenize`: the whole input, or the first lexical error. */
  function Tokenize(input: string): (r: Result<seq<Token>, ParseError>)
    ensures r.Ok? ==> WellTokenized(input, r.value)
    ensures r.Err? ==> LexErrorAt(input, r.error)
  {
    Lex(input, 0, [])
  }

  /** `toks` is what the scanner finds from `i` on, whitespace skipped,
      `acc` being the tokens found before `i`. */
  predicate Scans(input: string, i: nat, acc: seq<Token>, toks: seq<Token>)
    decreases |input| - i
  {
    if i >= |input| then toks == []
    else if IsWhitespace(input[i]) then Scans(input, i + 1, acc, toks)
    else
      && |toks| > 0
      && NextToken(input, i, acc) == Ok(toks[0])
      && Scans(input, End(toks[0]), acc + [toks[0]], toks[1..])
  }

  /** The tokenizer loop returns exactly the tokens the scanner finds, then EOF. */
  lemma {:induction false} LexScans(input: string, i: nat, acc: seq<Token>, toks: seq<Token>)
    requires LexedUpTo(input, i, acc) && Scans(input, i, acc, toks)
    ensures Lex(input, i, acc) == Ok(acc + toks + [Token(EOF, "", |input|)])
    decreases |input| - i, 1
  {
    if i >= |input| {
      assert acc + toks == acc;
    } else if IsWhitespace(input[i]) {
      LexSpace(input, i, acc);
      LexScans(input, i + 1, acc, toks);
    } else {
      LexScansToken(input, i, acc, toks);
    }
  }

  /** `LexScans` where a token starts at `i`. */
  lemma {:induction false} LexScansToken(input: string, i: nat, acc: seq<Token>, toks: seq<Token>)
    requires LexedUpTo(input, i, acc) && i < |input| && !IsWhitespace(input[i])
    requires Scans(input, i, acc, toks)
    ensures Lex(input, i, acc) == Ok(acc + toks + [Token(EOF, "", |input|)])
    decreases |input| - i, 0
  {
    ScansStep(input, i, acc, toks);
    LexScans(input, End(toks[0]), acc + [toks[0]], toks[1..]);
    SplitFirst(acc, toks, Token(EOF, "", |input|));
  }

  lemma SplitFirst<T>(acc: seq<T>, xs: seq<T>, last: T)
    requires |xs| > 0
    ensures acc + [xs[0]] + xs[1..] + [last] == acc + xs + [last]
  {
    assert [xs[0]] + xs[1..] == xs;
  }

  /** The first token found extends both the lexed prefix and the scan. */
  lemma ScansStep(input: string, i: nat, acc: seq<Token>, toks: seq<Token>)
    requires LexedUpTo(input, i, acc) && i < |input| && !IsWhitespace(input[i])
    requires Scans(input, i, acc, toks)
    ensures |toks| > 0 && i < End(toks[0])
    ensures LexedUpTo(input, End(toks[0]), acc + [toks[0]])
    ensures Scans(input, End(toks[0]), acc + [toks[0]], toks[1..])
    ensures Lex(input, i, acc) == Lex(input, End(toks[0]), acc + [toks[0]])
  {
    LexToken(input, i, acc, toks[0]);
  }

  /** One scanning step: the token found at `i` extends the tokens so far. */
  lemma LexToken(input: string, i: nat, acc: seq<Token>, t: Token)
    requires LexedUpTo(input, i, acc) && i < |input| && !IsWhitespace(input[i])
    requires NextToken(input, i, acc) == Ok(t)
    ensures LexedUpTo(input, End(t), acc + [t])
    ensures Lex(input, i, acc) == Lex(input, End(t), acc + [t])
  {
    Append(input, acc, t);
  }

  /** Whitespace between tokens is skipped and produces nothing. */
  lemma LexSpace(input: string, i: nat, acc: seq<Token>)
    requires LexedUpTo(input, i, acc) && i < |input| && IsWhitespace(input[i])
    ensures LexedUpTo(input, i + 1, acc)
    ensures Lex(input, i, acc) == Lex(input, i + 1, acc)
  {
    SkipWhitespace(input, i, acc);
  }

  /** `Tokenize` returns the tokens the scanner finds from the start, then EOF. */
  lemma TokenizeScans(input: string, toks: seq<Token>)
    requires Scans(input, 0, [], toks)
    ensures Tokenize(input) == Ok(toks + [Token(EOF, "", |input|)])
  {
    LexScans(input, 0, [], toks);
    assert [] + toks == toks;
  }

  /** Unfolds `Scans` once along a fixed token list `toks`, of which the
      first `k` are already found. */
  lemma ScansNext(input: string, i: nat, toks: seq<Token>, k: nat)
    requires i < |input| && !IsWhitespace(input[i]) && k < |toks|
    requires NextToken(input, i, toks[..k]) == Ok(toks[k])
    requires Scans(input, End(toks[k]), toks[..k + 1], toks[k + 1..])
    ensures Scans(input, i, toks[..k], toks[k..])
  {
    assert toks[..k] + [toks[k]] == toks[..k + 1];
    assert toks[k..][1..] == toks[k + 1..];
  }

  // ---------------------------------------------------------------------------
  // Completeness: valid text tokenizes, and only into its own token list
  // ---------------------------------------------------------------------------

  /** `scanNumber` stops exactly at the end of a maximal number body. */
  lemma {:induction false} ScanNumberExact(input: string, b: nat, e: nat, hasDot: bool)
    requires b <= e <= |input|
    requires forall k :: b <= k < e ==> IsNumberChar(input[k])
    requires AtMostOneDot(input[b..e])
    requires hasDot ==> '.' !in input[b..e]
    requires e < |input| ==> !IsDigit(input[e]) && (input[e] == '.' ==> hasDot || '.' in input[b..e])
    ensures ScanNumber(input, b, hasDot) == e
    decreases e - b
  {
    if b < e {
      var v, w := input[b..e], input[b + 1..e];
      assert v == [input[b]] + w;
      assert AtMostOneDot(w) by {
        forall x, y | 0 <= x < y < |w| && w[x] == '.'
          ensures w[y] != '.'
        {
          assert v[x + 1] == '.';
        }
      }
      if input[b] == '.' {
        assert '.' !in w by {
          forall y | 0 <= y < |w|
            ensures w[y] != '.'
          {
            assert v[y + 1] == w[y];
          }
        }
        ScanNumberExact(input, b + 1, e, true);
      } else {
        ScanNumberExact(input, b + 1, e, hasDot);
      }
    }
  }

  /** The id run from `k` ends exactly where the id characters do. */
  lemma {:induction false} IdRunExact(input: string, k: nat, e: nat)
    requires k <= e <= |input|
    requires forall m :: k <= m < e ==> IsIdChar(input[m])
    requires e < |input| ==> !IsIdChar(input[e])
    ensures IdRun(input, k) == e
    decreases e - k
  {
    if k < e {
      IdRunExact(input, k + 1, e);
    }
  }

  /** The anchor run from `k` ends exactly where the anchor characters do. */
  lemma {:induction false} AnchorRunExact(input: string, k: nat, e: nat)
    requires k <= e <= |input|
    requires forall m :: k <= m < e ==> IsAnchorChar(input[m])
    requires e < |input| ==> !IsAnchorChar(input[e])
    ensures AnchorRun(input, k) == e
    decreases e - k
  {
    if k < e {
      AnchorRunExact(input, k + 1, e);
    }
  }

  /** A scanned token's first character is not whitespace. */
  lemma FirstChar(input: string, t: Token)
    requires Scanned(input, t)
    ensures t.pos < |input| && input[t.pos] == t.text[0] && !IsWhitespace(input[t.pos])
  {
    assert input[t.pos..End(t)][0] == input[t.pos];
    if t.kind == NUMBER && t.text[0] != '-' {
      assert IsNumberChar(t.text[0]);
    }
  }

  /** A NUMBER the scanner could have produced at its position is what it produces there. */
  lemma NumberUnique(input: string, t: Token, acc: seq<Token>)
    requires Scanned(input, t) && t.kind == NUMBER
    requires t.text[0] == '-' ==> UnaryPosition(acc) && StartsNumber(input, t.pos + 1)
    ensures NextToken(input, t.pos, acc) == Ok(t)
  {
    FirstChar(input, t);
    var i, e := t.pos, End(t);
    var b := if t.text[0] == '-' then i + 1 else i;
    var body := input[b..e];
    assert body == if t.text[0] == '-' then t.text[1..] else t.text;
    forall k | b <= k < e
      ensures IsNumberChar(input[k])
    {
      assert input[k] == body[k - b];
    }
    if e < |input| && input[e] == '.' {
      var m :| 0 <= m < |t.text| && t.text[m] == '.';
      assert m >= b - i;
      assert body[m - (b - i)] == '.';
    }
    ScanNumberExact(input, b, e, false);
    assert NextToken(input, i, acc) == Ok(Token(NUMBER, input[i..e], i));
  }

  /** A REF the scanner could have produced at its position is what it produces there. */
  lemma RefUnique(input: string, t: Token, acc: seq<Token>)
    requires Scanned(input, t) && t.kind == REF
    ensures NextToken(input, t.pos, acc) == Ok(t)
  {
    FirstChar(input, t);
    RefScanned(input, t);
  }

  lemma RefScanned(input: string, t: Token)
    requires Scanned(input, t) && t.kind == REF
    ensures input[t.pos] == '#' && ScanRef(input, t.pos) == Ok(t)
  {
    var d :| 1 < d < |t.text| && t.text[d] == '.' && IsIdText(t.text[1..d]) && IsAnchorText(t.text[d + 1..]);
    RefRuns(input, t, d);
    ScanRefFromRuns(input, t, d);
  }

  /** `ScanRef` once its id run, dot, anchor start and anchor run are known. */
  lemma ScanRefFromRuns(input: string, t: Token, d: nat)
    requires d > 1 && t.pos + d + 1 < |input| && input[t.pos] == '#'
    requires IdRun(input, t.pos + 1) == t.pos + d && input[t.pos + d] == '.'
    requires IsIdChar(input[t.pos + d + 1]) && AnchorRun(input, t.pos + d + 2) == End(t)
    ensures ScanRef(input, t.pos) == Ok(Token(REF, input[t.pos..End(t)], t.pos))
  {
  }

  /** The runs `ScanRef` finds in a REF token whose first dot is at `d`. */
  lemma RefRuns(input: string, t: Token, d: nat)
    requires PlacedIn(input, t) && Maximal(input, t) && t.kind == REF
    requires 1 < d < |t.text| && t.text[0] == '#' && t.text[d] == '.'
    requires IsIdText(t.text[1..d]) && IsAnchorText(t.text[d + 1..])
    ensures t.pos + d + 1 < |input| && input[t.pos] == '#'
    ensures IdRun(input, t.pos + 1) == t.pos + d && input[t.pos + d] == '.'
    ensures IsIdChar(input[t.pos + d + 1]) && AnchorRun(input, t.pos + d + 2) == End(t)
  {
    assert input[t.pos] == t.text[0];
    RefIdRun(input, t, d);
    RefAnchorRun(input, t, d);
  }

  /** The id of a REF token is the id run after its `#`. */
  lemma RefIdRun(input: string, t: Token, d: nat)
    requires PlacedIn(input, t)
    requires 1 < d < |t.text| && t.text[d] == '.' && IsIdText(t.text[1..d])
    ensures IdRun(input, t.pos + 1) == t.pos + d && input[t.pos + d] == '.'
  {
    var i := t.pos;
    var id := t.text[1..d];
    forall m | i + 1 <= m < i + d
      ensures IsIdChar(input[m])
    {
      assert input[m] == id[m - i - 1];
    }
    assert input[i + d] == t.text[d];
    IdRunExact(input, i + 1, i + d);
  }

  /** The anchor of a REF token is the anchor run after its dot. */
  lemma RefAnchorRun(input: string, t: Token, d: nat)
    requires PlacedIn(input, t) && Maximal(input, t) && t.kind == REF
    requires 1 < d < |t.text| && IsAnchorText(t.text[d + 1..])
    ensures t.pos + d + 1 < |input| && IsIdChar(input[t.pos + d + 1])
    ensures AnchorRun(input, t.pos + d + 2) == End(t)
  {
    var i, e := t.pos, End(t);
    var anchor := t.text[d + 1..];
    assert input[i + d + 1] == anchor[0];
    forall m | i + d + 2 <= m < e
      ensures IsAnchorChar(input[m])
    {
      assert input[m] == anchor[m - i - d - 1];
    }
    AnchorRunExact(input, i + d + 2, e);
  }

  /** A SELF_REF the scanner could have produced at its position is what it produces there. */
  lemma SelfRefUnique(input: string, t: Token, acc: seq<Token>)
    requires Scanned(input, t) && t.kind == SELF_REF
    ensures NextToken(input, t.pos, acc) == Ok(t)
  {
    FirstChar(input, t);
    var i, e := t.pos, End(t);
    assert input[i..i + 5] == t.text[..5] == "$self";
    assert input[i + 5] == t.text[5] == '.';
    assert input[i + 6] == t.text[6..][0];
    forall m | i + 7 <= m < e
      ensures IsAnchorChar(input[m])
    {
      assert input[m] == t.text[6..][m - i - 6];
    }
    AnchorRunExact(input, i + 7, e);
  }

  /** An operator or parenthesis the scanner could have produced is what it produces. */
  lemma OperatorUnique(input: string, t: Token, acc: seq<Token>)
    requires Scanned(input, t) && t.kind in {PLUS, MINUS, STAR, SLASH, LPAREN, RPAREN}
    requires t.kind == MINUS ==> !(UnaryPosition(acc) && StartsNumber(input, t.pos + 1))
    ensures NextToken(input, t.pos, acc) == Ok(t)
  {
    FirstChar(input, t);
  }

  /** Any token the scanner could have produced at its position, with the
      minus rule holding for it after `acc`, is exactly what it produces. */
  lemma NextTokenUnique(input: string, t: Token, acc: seq<Token>)
    requires Scanned(input, t)
    requires t.text[0] == '-' ==> (t.kind == NUMBER <==> UnaryPosition(acc) && StartsNumber(input, t.pos + 1))
    ensures t.pos < |input| && !IsWhitespace(input[t.pos])
    ensures NextToken(input, t.pos, acc) == Ok(t)
  {
    FirstChar(input, t);
    match t.kind
    case NUMBER => NumberUnique(input, t, acc);
    case REF => RefUnique(input, t, acc);
    case SELF_REF => SelfRefUnique(input, t, acc);
    case _ => OperatorUnique(input, t, acc);
  }

  /** Adjacent tokens in order make all tokens in order. */
  lemma {:induction false} Ordered(toks: seq<Token>, a: nat, b: nat)
    requires forall k :: 0 <= k < |toks| - 1 ==> End(toks[k]) <= toks[k + 1].pos
    requires a < b < |toks|
    ensures End(toks[a]) <= toks[b].pos
    decreases b - a
  {
    if a + 1 < b {
      Ordered(toks, a + 1, b);
    }
  }

  /** The scanner, started at `i` after the first `n` tokens of a
      well-formed `body`, finds exactly the rest of `body`. */
  lemma {:induction false} ScansWell(input: string, body: seq<Token>, n: nat, i: nat)
    requires LexedUpTo(input, |input|, body)
    requires n <= |body| && i <= |input|
    requires n < |body| ==> i <= body[n].pos
    requires forall k :: 0 <= k < n ==> End(body[k]) <= i
    ensures Scans(input, i, body[..n], body[n..])
    decreases |input| - i
  {
    if i >= |input| {
      ScansEnd(input, body, n, i);
    } else if IsWhitespace(input[i]) {
      ScansSpace(input, body, n, i);
    } else {
      ScansToken(input, body, n, i);
    }
  }

  /** `ScansWell` at the end of the input: every token has been found. */
  lemma ScansEnd(input: string, body: seq<Token>, n: nat, i: nat)
    requires LexedUpTo(input, |input|, body)
    requires n <= |body| && i == |input|
    requires n < |body| ==> i <= body[n].pos
    ensures Scans(input, i, body[..n], body[n..])
  {
    if n < |body| {
      FirstChar(input, body[n]);
    }
  }

  /** `ScansWell` at whitespace: it is skipped. */
  lemma {:induction false} ScansSpace(input: string, body: seq<Token>, n: nat, i: nat)
    requires LexedUpTo(input, |input|, body)
    requires n <= |body| && i < |input| && IsWhitespace(input[i])
    requires n < |body| ==> i <= body[n].pos
    requires forall k :: 0 <= k < n ==> End(body[k]) <= i
    ensures Scans(input, i, body[..n], body[n..])
    decreases |input| - i, 0
  {
    if n < |body| {
      FirstChar(input, body[n]);
    }
    ScansWell(input, body, n, i + 1);
  }

  /** `ScansWell` where a token starts at `i`: it is `body[n]`. */
  lemma {:induction false} ScansToken(input: string, body: seq<Token>, n: nat, i: nat)
    requires LexedUpTo(input, |input|, body)
    requires n <= |body| && i < |input| && !IsWhitespace(input[i])
    requires n < |body| ==> i <= body[n].pos
    requires forall k :: 0 <= k < n ==> End(body[k]) <= i
    ensures Scans(input, i, body[..n], body[n..])
    decreases |input| - i, 0
  {
    TokenStartsAt(input, body, n, i);
    assert MinusRule(input, body, n);
    NextTokenUnique(input, body[n], body[..n]);
    var e := End(body[n]);
    if n + 1 < |body| {
      assert End(body[n]) <= body[n + 1].pos;
    }
    ScansWell(input, body, n + 1, e);
    ScansUnfold(input, body, n, i);
  }

  /** The first non-whitespace character after the first `n` tokens starts
      token `n`. */
  lemma TokenStartsAt(input: string, body: seq<Token>, n: nat, i: nat)
    requires LexedUpTo(input, |input|, body)
    requires n <= |body| && i < |input| && !IsWhitespace(input[i])
    requires n < |body| ==> i <= body[n].pos
    requires forall k :: 0 <= k < n ==> End(body[k]) <= i
    ensures n < |body| && body[n].pos == i
  {
    assert Covers(body, i);
    var k :| 0 <= k < |body| && body[k].pos <= i < End(body[k]);
    if n < k {
      Ordered(body, n, k);
    }
  }

  lemma ScansUnfold(input: string, body: seq<Token>, n: nat, i: nat)
    requires n < |body| && i < |input| && !IsWhitespace(input[i])
    requires NextToken(input, i, body[..n]) == Ok(body[n])
    requires Scans(input, End(body[n]), body[..n + 1], body[n + 1..])
    ensures Scans(input, i, body[..n], body[n..])
  {
    assert body[..n] + [body[n]] == body[..n + 1];
    assert body[n..][1..] == body[n + 1..];
  }

  /** Valid text tokenizes: whenever `toks` is a well-formed tokenization of
      `input`, `tokenize` returns exactly `toks`. */
  lemma TokenizeComplete(input: string, toks: seq<Token>)
    requires WellTokenized(input, toks)
    ensures Tokenize(input) == Ok(toks)
  {
    var body := toks[..|toks| - 1];
    BodyScans(input, body);
    TokenizeScans(input, body);
    SplitLast(toks);
  }

  /** A well-formed token list is what the scanner finds from the start. */
  lemma BodyScans(input: string, body: seq<Token>)
    requires LexedUpTo(input, |input|, body)
    ensures Scans(input, 0, [], body)
  {
    ScansWell(input, body, 0, 0);
    assert body[..0] == [] && body[0..] == body;
  }

  lemma SplitLast<T>(s: seq<T>)
    requires |s| > 0
    ensures s == s[..|s| - 1] + [s[|s| - 1]]
  {
  }

  /** `tokenize` succeeds exactly on the texts that have a well-formed
      tokenization, and that tokenization is unique; so every error it
      reports is reported on text no tokenization fits. */
  lemma TokenizeExactly(input: string)
    ensures Tokenize(input).Ok? <==> exists toks :: WellTokenized(input, toks)
    ensures forall toks :: WellTokenized(input, toks) ==> Tokenize(input) == Ok(toks)
    ensures Tokenize(input).Err? ==> forall toks :: !WellTokenized(input, toks)
  {
    forall toks | WellTokenized(input, toks)
      ensures Tokenize(input) == Ok(toks)
    {
      TokenizeComplete(input, toks);
    }
    if Tokenize(input).Ok? {
      assert WellTokenized(input, Tokenize(input).value);
    }
  }

  /** A digit with no digit or dot after it is a one-character NUMBER. */
  lemma DigitTokenized(input: string, i: nat, prev: seq<Token>)
    requires i < |input| && IsDigit(input[i])
    requires i + 1 < |input| ==> !IsNumberChar(input[i + 1])
    ensures NextToken(input, i, prev) == Ok(Token(NUMBER, [input[i]], i))
  {
    assert ScanNumber(input, i + 1, false) == i + 1;
    assert input[i..i + 1] == [input[i]];
  }

  // ---------------------------------------------------------------------------
  // Examples
  // ---------------------------------------------------------------------------

  /** `42 42`: two numbers, the space between them dropped. */
  lemma TwoNumbersTokenized(s: string)
    requires s == "42 42"
    ensures Tokenize(s) == Ok([Token(NUMBER, "42", 0), Token(NUMBER, "42", 3)] + [Token(EOF, "", 5)])
  {
    var toks := [Token(NUMBER, "42", 0), Token(NUMBER, "42", 3)];
    assert Scans(s, 5, toks[..2], toks[2..]);
    assert ScanNumber(s, 3, false) == 5 && s[3..5] == "42";
    ScansNext(s, 3, toks, 1);
    assert ScanNumber(s, 0, false) == 2 && s[0..2] == "42";
    ScansNext(s, 0, toks, 0);
    TokenizeScans(s, toks);
  }

  /** `1+2*3`: five tokens with no whitespace between them. */
  lemma SumOfProductTokenized(s: string)
    requires s == "1+2*3"
    ensures Tokenize(s) == Ok([Token(NUMBER, "1", 0), Token(PLUS, "+", 1), Token(NUMBER, "2", 2),
                               Token(STAR, "*", 3), Token(NUMBER, "3", 4)] + [Token(EOF, "", 5)])
  {
    var toks := [Token(NUMBER, "1", 0), Token(PLUS, "+", 1), Token(NUMBER, "2", 2),
                 Token(STAR, "*", 3), Token(NUMBER, "3", 4)];
    SumOfProductScans(s, toks);
    TokenizeScans(s, toks);
  }

  lemma SumOfProductScans(s: string, toks: seq<Token>)
    requires s == "1+2*3"
    requires toks == [Token(NUMBER, "1", 0), Token(PLUS, "+", 1), Token(NUMBER, "2", 2),
                      Token(STAR, "*", 3), Token(NUMBER, "3", 4)]
    ensures Scans(s, 0, [], toks)
  {
    SumOfProductScansFrom(s, toks);
    DigitTokenized(s, 2, toks[..2]);
    ScansNext(s, 2, toks, 2);
    ScansNext(s, 1, toks, 1);
    DigitTokenized(s, 0, toks[..0]);
    ScansNext(s, 0, toks, 0);
    assert toks[..0] == [] && toks[0..] == toks;
  }

  lemma SumOfProductScansFrom(s: string, toks: seq<Token>)
    requires s == "1+2*3"
    requires toks == [Token(NUMBER, "1", 0), Token(PLUS, "+", 1), Token(NUMBER, "2", 2),
                      Token(STAR, "*", 3), Token(NUMBER, "3", 4)]
    ensures Scans(s, 3, toks[..3], toks[3..])
  {
    assert Scans(s, 5, toks[..5], toks[5..]);
    DigitTokenized(s, 4, toks[..4]);
    ScansNext(s, 4, toks, 4);
    ScansNext(s, 3, toks, 3);
  }

  /** `(1+2)*3`: parentheses are tokens of their own. */
  lemma GroupedSumTokenized(s: string)
    requires s == "(1+2)*3"
    ensures Tokenize(s) == Ok([Token(LPAREN, "(", 0), Token(NUMBER, "1", 1), Token(PLUS, "+", 2),
                               Token(NUMBER, "2", 3), Token(RPAREN, ")", 4), Token(STAR, "*", 5),
                               Token(NUMBER, "3", 6)] + [Token(EOF, "", 7)])
  {
    var toks := [Token(LPAREN, "(", 0), Token(NUMBER, "1", 1), Token(PLUS, "+", 2),
                 Token(NUMBER, "2", 3), Token(RPAREN, ")", 4), Token(STAR, "*", 5),
                 Token(NUMBER, "3", 6)];
    GroupedSumScans(s, toks);
    TokenizeScans(s, toks);
  }

  lemma GroupedSumScans(s: string, toks: seq<Token>)
    requires s == "(1+2)*3"
    requires toks == [Token(LPAREN, "(", 0), Token(NUMBER, "1", 1), Token(PLUS, "+", 2),
                      Token(NUMBER, "2", 3), Token(RPAREN, ")", 4), Token(STAR, "*", 5),
                      Token(NUMBER, "3", 6)]
    ensures Scans(s, 0, [], toks)
  {
    GroupedSumScansFrom(s, toks);
    ScansNext(s, 2, toks, 2);
    GroupedSumScansHead(s, toks);
    assert toks[..0] == [] && toks[0..] == toks;
  }

  lemma GroupedSumScansHead(s: string, toks: seq<Token>)
    requires s == "(1+2)*3"
    requires toks == [Token(LPAREN, "(", 0), Token(NUMBER, "1", 1), Token(PLUS, "+", 2),
                      Token(NUMBER, "2", 3), Token(RPAREN, ")", 4), Token(STAR, "*", 5),
                      Token(NUMBER, "3", 6)]
    requires Scans(s, 2, toks[..2], toks[2..])
    ensures Scans(s, 0, toks[..0], toks[0..])
  {
    DigitTokenized(s, 1, toks[..1]);
    ScansNext(s, 1, toks, 1);
    ScansNext(s, 0, toks, 0);
  }

  lemma GroupedSumScansFrom(s: string, toks: seq<Token>)
    requires s == "(1+2)*3"
    requires toks == [Token(LPAREN, "(", 0), Token(NUMBER, "1", 1), Token(PLUS, "+", 2),
                      Token(NUMBER, "2", 3), Token(RPAREN, ")", 4), Token(STAR, "*", 5),
                      Token(NUMBER, "3", 6)]
    ensures Scans(s, 3, toks[..3], toks[3..])
  {
    GroupedSumScansTail(s, toks);
    ScansNext(s, 4, toks, 4);
    DigitTokenized(s, 3, toks[..3]);
    ScansNext(s, 3, toks, 3);
  }

  lemma GroupedSumScansTail(s: string, toks: seq<Token>)
    requires s == "(1+2)*3"
    requires toks == [Token(LPAREN, "(", 0), Token(NUMBER, "1", 1), Token(PLUS, "+", 2),
                      Token(NUMBER, "2", 3), Token(RPAREN, ")", 4), Token(STAR, "*", 5),
                      Token(NUMBER, "3", 6)]
    ensures Scans(s, 5, toks[..5], toks[5..])
  {
    assert Scans(s, 7, toks[..7], toks[7..]);
    DigitTokenized(s, 6, toks[..6]);
    ScansNext(s, 6, toks, 6);
    ScansNext(s, 5, toks, 5);
  }

  /** `10-3-2`: a `-` right after a number is the binary operator. */
  lemma DifferenceTokenized(s: string)
    requires s == "10-3-2"
    ensures Tokenize(s) == Ok([Token(NUMBER, "10", 0), Token(MINUS, "-", 2), Token(NUMBER, "3", 3),
                               Token(MINUS, "-", 4), Token(NUMBER, "2", 5)] + [Token(EOF, "", 6)])
  {
    var toks := [Token(NUMBER, "10", 0), Token(MINUS, "-", 2), Token(NUMBER, "3", 3),
                 Token(MINUS, "-", 4), Token(NUMBER, "2", 5)];
    DifferenceScans(s, toks);
    TokenizeScans(s, toks);
  }

  lemma DifferenceScans(s: string, toks: seq<Token>)
    requires s == "10-3-2"
    requires toks == [Token(NUMBER, "10", 0), Token(MINUS, "-", 2), Token(NUMBER, "3", 3),
                      Token(MINUS, "-", 4), Token(NUMBER, "2", 5)]
    ensures Scans(s, 0, [], toks)
  {
    DifferenceScansFrom(s, toks);
    assert !UnaryPosition(toks[..1]);
    ScansNext(s, 2, toks, 1);
    assert ScanNumber(s, 0, false) == 2 && s[0..2] == "10";
    ScansNext(s, 0, toks, 0);
    assert toks[..0] == [] && toks[0..] == toks;
  }

  lemma DifferenceScansFrom(s: string, toks: seq<Token>)
    requires s == "10-3-2"
    requires toks == [Token(NUMBER, "10", 0), Token(MINUS, "-", 2), Token(NUMBER, "3", 3),
                      Token(MINUS, "-", 4), Token(NUMBER, "2", 5)]
    ensures Scans(s, 3, toks[..2], toks[2..])
  {
    assert Scans(s, 6, toks[..5], toks[5..]);
    DigitTokenized(s, 5, toks[..4]);
    ScansNext(s, 5, toks, 4);
    assert !UnaryPosition(toks[..3]);
    ScansNext(s, 4, toks, 3);
    DigitTokenized(s, 3, toks[..2]);
    ScansNext(s, 3, toks, 2);
  }

  /** `10 & 5`: the `&` after the first number starts no token. */
  lemma AmpersandRejected(s: string)
    requires s == "10 & 5"
    ensures Tokenize(s) == Err(ParseError(3, UnexpectedChar('&')))
  {
    var t := Token(NUMBER, "10", 0);
    LeadingTen(s);
    LexToken(s, 0, [], t);
    var acc := [] + [t];
    assert |s| == 6 && s[2] == ' ' && s[3] == '&';
    LexSpace(s, 2, acc);
    assert NextToken(s, 3, acc) == Err(ParseError(3, UnexpectedChar('&')));
    LexFails(s, 3, acc);
  }

  /** Where the scanner fails, the tokenizer loop fails with the same error. */
  lemma LexFails(input: string, i: nat, acc: seq<Token>)
    requires LexedUpTo(input, i, acc) && i < |input| && !IsWhitespace(input[i])
    requires NextToken(input, i, acc).Err?
    ensures Lex(input, i, acc) == Err(NextToken(input, i, acc).error)
  {
  }

  lemma LeadingTen(s: string)
    requires s == "10 & 5"
    ensures NextToken(s, 0, []) == Ok(Token(NUMBER, "10", 0))
  {
    ScanNumberExact(s, 0, 2, false);
    assert s[0..2] == "10";
  }

  /** `#box`: a shape id with no `.anchor` after it fails where the dot belongs. */
  lemma HashWithoutDotRejected(s: string)
    requires s == "#box"
    ensures Tokenize(s) == Err(ParseError(4, ExpectedDotAfterId))
  {
    IdRunExact(s, 1, 4);
  }

  /** `$self` with no `.anchor` fails where the dot belongs. */
  lemma SelfWithoutDotRejected(s: string)
    requires s == "$self"
    ensures Tokenize(s) == Err(ParseError(5, ExpectedDotAfterSelf))
  {
    assert s[0..5] == "$self";
  }
}

=== FILE: expr_parser.dfy ===
/** The recursive-descent parser and the tree evaluator of the reference-expression
    language (app-claude/src/claude-render/primitives/ExprParser.ts, `parseExpr`,
    `evaluate`, `parseAndEvaluate`, `collectAnchors`).

    Grammar as the code implements it (there is no unary-minus rule in the
    parser; a leading `-` only ever reaches it inside a NUMBER token):
      expr   = term (('+' | '-') term)*
      term   = factor (('*' | '/') factor)*
      factor = NUMBER | REF | SELF_REF | '(' expr ')' */
module ExprParser {
  import opened Results
  import opened ExprLexer

  // ---------------------------------------------------------------------------
  // Values
  // ---------------------------------------------------------------------------

  /** A JavaScript number without rounding: a finite value, or one of NaN and
      the two infinities, which the model does not tell apart. */
  datatype Num = Finite(value: real) | NonFinite

  function Negate(n: Num): Num {
    match n
    case Finite(v) => Finite(-v)
    case NonFinite => NonFinite
  }

  function DigitValue(c: char): nat
    requires IsDigit(c)
  {
    c as int - '0' as int
  }

  predicate AllDigits(s: string) {
    forall k :: 0 <= k < |s| ==> IsDigit(s[k])
  }

  /** The value of a run of decimal digits (0 for the empty run). */
  function DigitsValue(s: string): nat
    requires AllDigits(s)
  {
    if |s| == 0 then 0 else DigitsValue(s[..|s| - 1]) * 10 + DigitValue(s[|s| - 1])
  }

  function Pow10(n: nat): (p: nat)
    ensures p > 0
  {
    if n == 0 then 1 else 10 * Pow10(n - 1)
  }

  /** The index of the body's dot, or its length when it has none. */
  function DotIndex(s: string): (d: nat)
    ensures d <= |s|
    ensures d < |s| ==> s[d] == '.'
    ensures forall k :: 0 <= k < d ==> s[k] != '.'
  {
    if |s| == 0 then 0 else if s[0] == '.' then 0 else 1 + DotIndex(s[1..])
  }

  /** `parseFloat` of a number body: `.` alone is NaN; otherwise the integer
      digits before the dot plus the fraction digits after it. */
  function BodyValue(s: string): (v: Num)
    requires IsNumberBody(s)
    ensures v.NonFinite? <==> s == "."
    ensures v.Finite? ==> v.value >= 0.0
  {
    if s == "." then NonFinite
    else
      var d := DotIndex(s);
      assert forall k :: d < k < |s| ==> s[k] != '.';
      var whole := DigitsValue(s[..d]);
      var frac := if d < |s| then s[d + 1..] else "";
      Finite(whole as real + DigitsValue(frac) as real / Pow10(|frac|) as real)
  }

  /** `parseFloat` of a NUMBER token's text: NaN only for a lone dot, signed
      or not; otherwise a value whose sign is the text's. */
  function NumberValue(t: string): (n: Num)
    requires IsNumberText(t)
    ensures n.NonFinite? <==> t == "." || t == "-."
    ensures n.Finite? && t[0] == '-' ==> n.value <= 0.0
    ensures n.Finite? && t[0] != '-' ==> n.value >= 0.0
  {
    if |t| > 0 && t[0] == '-' then Negate(BodyValue(t[1..])) else BodyValue(t)
  }

  /** Appending digits shifts a run's value: `w` followed by `f` is worth
      `w` times ten to the `|f|`, plus `f`. */
  lemma {:induction false} DigitsAppend(w: string, f: string)
    requires AllDigits(w) && AllDigits(f)
    ensures AllDigits(w + f)
    ensures DigitsValue(w + f) == DigitsValue(w) * Pow10(|f|) + DigitsValue(f)
    decreases |f|
  {
    if |f| == 0 {
      assert w + f == w;
    } else {
      var g, c := f[..|f| - 1], f[|f| - 1];
      DigitsAppend(w, g);
      assert (w + f)[..|w + f| - 1] == w + g && (w + f)[|w + f| - 1] == c;
      ShiftStep(DigitsValue(w), DigitsValue(g), Pow10(|g|), DigitValue(c));
    }
  }

  lemma ShiftStep(a: nat, b: nat, q: nat, c: nat)
    ensures (a * q + b) * 10 + c == a * (10 * q) + (b * 10 + c)
  {
  }

  /** The first dot of a text is where `DotIndex` stops. */
  lemma {:induction false} DotIndexAt(s: string, d: nat)
    requires d < |s| && s[d] == '.'
    requires forall k :: 0 <= k < d ==> s[k] != '.'
    ensures DotIndex(s) == d
    decreases d
  {
    if d > 0 {
      DotIndexAt(s[1..], d - 1);
    }
  }

  /** `parseFloat` of a decimal literal `w.f` (either side may be empty, not
      both): its digits read as one integer, shifted right by the number of
      fraction digits. A leading `-` negates it. */
  lemma DecimalValue(w: string, f: string)
    requires AllDigits(w) && AllDigits(f) && |w| + |f| > 0
    ensures AllDigits(w + f)
    ensures IsNumberText(w + "." + f) && IsNumberText("-" + w + "." + f)
    ensures NumberValue(w + "." + f) == Finite(DigitsValue(w + f) as real / Pow10(|f|) as real)
    ensures NumberValue("-" + w + "." + f) == Finite(-(DigitsValue(w + f) as real / Pow10(|f|) as real))
  {
    var s := w + "." + f;
    DecimalBody(w, f);
    assert s[0] != '-' by {
      if |w| > 0 { assert s[0] == w[0]; } else { assert s[0] == '.'; }
    }
    var t := "-" + s;
    assert t == "-" + w + "." + f && t[1..] == s;
  }

  /** The body `w.f` is a number body whose value is its digits shifted. */
  lemma DecimalBody(w: string, f: string)
    requires AllDigits(w) && AllDigits(f) && |w| + |f| > 0
    ensures AllDigits(w + f) && IsNumberBody(w + "." + f)
    ensures BodyValue(w + "." + f) == Finite(DigitsValue(w + f) as real / Pow10(|f|) as real)
  {
    var s := w + "." + f;
    DecimalShape(w, f);
    assert s[..|w|] == w && s[|w| + 1..] == f;
    DigitsAppend(w, f);
    ShiftValue(DigitsValue(w), DigitsValue(f), Pow10(|f|));
  }

  /** `w.f` is a number body whose only dot sits after `w`. */
  lemma DecimalShape(w: string, f: string)
    requires AllDigits(w) && AllDigits(f) && |w| + |f| > 0
    ensures IsNumberBody(w + "." + f) && DotIndex(w + "." + f) == |w|
  {
    var s := w + "." + f;
    assert forall k :: 0 <= k < |w| ==> s[k] == w[k];
    assert forall k :: |w| < k < |s| ==> s[k] == f[k - |w| - 1];
    DotIndexAt(s, |w|);
  }

  lemma ShiftValue(a: nat, b: nat, p: nat)
    requires p > 0
    ensures (a * p + b) as real / p as real == a as real + b as real / p as real
  {
    var x, y, z := a as real, b as real, p as real;
    assert (a * p + b) as real == x * z + y;
    assert (x * z + y) / z == x * z / z + y / z;
    assert x * z / z == x;
  }

  /** A single digit is worth its digit value. */
  lemma OneDigit(d: string)
    requires |d| == 1 && IsDigit(d[0])
    ensures AllDigits(d) && DigitsValue(d) == DigitValue(d[0])
  {
    assert d[..0] == [];
  }

  /** `3.14`, the decimal literal of the tests. */
  lemma PiLiteral(t: string)
    requires t == "3.14"
    ensures NumberValue(t) == Finite(3.14)
  {
    var w, f1, f2 := "3", "1", "4";
    var f := f1 + f2;
    OneDigit(w);
    OneDigit(f1);
    OneDigit(f2);
    DigitsAppend(f1, f2);
    DecimalValue(w, f);
    DigitsAppend(w, f);
    assert Pow10(2) == 100 && DigitsValue(w + f) == 314;
    assert t == w + "." + f;
  }

  /** `0.5`, the factor of the tests. */
  lemma HalfLiteral(t: string)
    requires t == "0.5"
    ensures NumberValue(t) == Finite(0.5)
  {
    var w, f := "0", "5";
    OneDigit(w);
    OneDigit(f);
    DecimalValue(w, f);
    DigitsAppend(w, f);
    assert Pow10(1) == 10 && DigitsValue(w + f) == 5;
    assert t == w + "." + f;
  }

  /** `.5`, with no integer digits. */
  lemma LeadingDotLiteral(t: string)
    requires |t| == 2 && t[0] == '.' && t[1] == '5'
    ensures NumberValue(t) == Finite(0.5)
  {
    var w: string, f := [], t[1..];
    OneDigit(f);
    DecimalBody(w, f);
    assert w + f == f && Pow10(1) == 10;
    assert t == w + "." + f;
  }

  /** `5.`, with no fraction digits. */
  lemma DotEndedLiteral(t: string)
    requires t == "5."
    ensures NumberValue(t) == Finite(5.0)
  {
    var w, f := "5", "";
    OneDigit(w);
    DecimalValue(w, f);
    assert w + f == w;
    assert t == w + "." + f;
  }

  /** `-2.5`, a signed literal. */
  lemma NegativeLiteral(t: string)
    requires t == "-2.5"
    ensures NumberValue(t) == Finite(-2.5)
  {
    var w, f := "2", "5";
    OneDigit(w);
    OneDigit(f);
    DecimalValue(w, f);
    DigitsAppend(w, f);
    assert Pow10(1) == 10 && DigitsValue(w + f) == 25;
    assert t == "-" + w + "." + f;
  }

  // ---------------------------------------------------------------------------
  // AST
  // ---------------------------------------------------------------------------

  datatype Op = Add | Sub | Mul | Div

  datatype Expr =
    | Literal(value: Num)
    | Ref(id: string, anchor: string)
    | SelfRef(anchor: string)
    | Binop(op: Op, left: Expr, right: Expr)

  // ---------------------------------------------------------------------------
  // JavaScript string helpers used by the parser
  // ---------------------------------------------------------------------------

  /** `String.prototype.indexOf` for one character: -1 when absent. */
  function IndexOf(s: string, c: char): (k: int)
    ensures -1 <= k < |s|
    ensures k >= 0 ==> s[k] == c && c !in s[..k]
    ensures k == -1 ==> c !in s
  {
    if |s| == 0 then -1
    else if s[0] == c then 0
    else
      var k := IndexOf(s[1..], c);
      assert s == [s[0]] + s[1..];
      if k == -1 then -1
      else
        assert s[..k + 1] == [s[0]] + s[1..][..k];
        k + 1
  }

  /** How `String.prototype.slice` normalises an index. */
  function SliceIndex(len: nat, k: int): (r: nat)
    ensures r <= len
  {
    if k < 0 then (if len + k < 0 then 0 else len + k) else if k > len then len else k
  }

  /** `s.slice(start, end)`. */
  function Slice(s: string, start: int, end: int): string {
    var a := SliceIndex(|s|, start);
    var b := SliceIndex(|s|, end);
    if a < b then s[a..b] else ""
  }

  // ---------------------------------------------------------------------------
  // Parser
  // ---------------------------------------------------------------------------

  /** What the parser relies on: an EOF at the end (it is peeked, never
      consumed) and NUMBER texts `parseFloat` can read. */
  predicate WellFormedStream(toks: seq<Token>) {
    && |toks| > 0
    && toks[|toks| - 1].kind == EOF
    && forall k {:trigger Readable(toks[k])} :: 0 <= k < |toks| ==> Readable(toks[k])
  }

  /** A token `parseFloat` can read if it is a NUMBER. */
  predicate Readable(t: Token) {
    t.kind == NUMBER ==> IsNumberText(t.text)
  }

  /** A token stream the parser accepts as input. */
  type Stream = toks: seq<Token> | WellFormedStream(toks) witness [Token(EOF, "", 0)]

  /** A parser error names a token of the stream at or after `p` and sits at its position. */
  predicate ParserErrorFrom(toks: seq<Token>, p: nat, e: ParseError) {
    && p <= |toks|
    && !e.reason.IsLexical()
    && e.reason.got in toks[p..]
    && e.pos == e.reason.got.pos
  }

  function AddOp(kind: TokenType): Op
    requires kind == PLUS || kind == MINUS
  {
    if kind == PLUS then Add else Sub
  }

  function MulOp(kind: TokenType): Op
    requires kind == STAR || kind == SLASH
  {
    if kind == STAR then Mul else Div
  }

  /** `expr = term (('+' | '-') term)*`, from token `p`; returns the tree and
      the index of the first token not consumed. */
  function ParseSum(toks: Stream, p: nat): (r: Result<(Expr, nat), ParseError>)
    requires p < |toks|
    ensures r.Ok? ==> p < r.value.1 < |toks|
    decreases |toks| - p, 2
  {
    var first :- ParseProduct(toks, p);
    SumTail(toks, first.1, first.0)
  }

  /** The `(('+' | '-') term)*` loop, `left` being the tree built so far. */
  function SumTail(toks: Stream, p: nat, left: Expr): (r: Result<(Expr, nat), ParseError>)
    requires p < |toks|
    ensures r.Ok? ==> p <= r.value.1 < |toks|
    decreases |toks| - p, 0
  {
    var kind := toks[p].kind;
    if kind == PLUS || kind == MINUS then
      var right :- ParseProduct(toks, p + 1);
      SumTail(toks, right.1, Binop(AddOp(kind), left, right.0))
    else
      Ok((left, p))
  }

  /** `term = factor (('*' | '/') factor)*`. */
  function ParseProduct(toks: Stream, p: nat): (r: Result<(Expr, nat), ParseError>)
    requires p < |toks|
    ensures r.Ok? ==> p < r.value.1 < |toks|
    decreases |toks| - p, 1
  {
    var first :- ParseFactor(toks, p);
    ProductTail(toks, first.1, first.0)
  }

  function ProductTail(toks: Stream, p: nat, left: Expr): (r: Result<(Expr, nat), ParseError>)
    requires p < |toks|
    ensures r.Ok? ==> p <= r.value.1 < |toks|
    decreases |toks| - p, 0
  {
    var kind := toks[p].kind;
    if kind == STAR || kind == SLASH then
      var right :- ParseFactor(toks, p + 1);
      ProductTail(toks, right.1, Binop(MulOp(kind), left, right.0))
    else
      Ok((left, p))
  }

  /** NUMBER, REF and SELF_REF tokens each stand for one leaf of the tree. */
  predicate IsLeafKind(kind: TokenType) {
    kind == NUMBER || kind == REF || kind == SELF_REF
  }

  /** The leaf a NUMBER, REF or SELF_REF token reads as. A REF splits at its
      first dot; a SELF_REF drops its six-character `$self.` prefix. */
  function LeafOf(tok: Token): Expr
    requires IsLeafKind(tok.kind) && Readable(tok)
  {
    if tok.kind == NUMBER then Literal(NumberValue(tok.text))
    else if tok.kind == REF then
      var dot := IndexOf(tok.text, '.');
      Ref(Slice(tok.text, 1, dot), Slice(tok.text, dot + 1, |tok.text|))
    else SelfRef(Slice(tok.text, 6, |tok.text|))
  }

  /** `factor = NUMBER | REF | SELF_REF | '(' expr ')'`. */
  function ParseFactor(toks: Stream, p: nat): (r: Result<(Expr, nat), ParseError>)
    requires p < |toks|
    ensures r.Ok? ==> p < r.value.1 < |toks|
    decreases |toks| - p, 0
  {
    var tok := toks[p];
    if IsLeafKind(tok.kind) then
      assert Readable(toks[p]);
      Ok((LeafOf(tok), p + 1))
    else if tok.kind == LPAREN then
      var inner :- ParseSum(toks, p + 1);
      var close := toks[inner.1];
      if close.kind != RPAREN then
        Err(ParseError(close.pos, ExpectedToken(RPAREN, close)))
      else
        Ok((inner.0, inner.1 + 1))
    else
      Err(ParseError(tok.pos, UnexpectedToken(tok)))
  }

  /** The body of `parseExpr` after tokenizing: one expression, then EOF.
      A parse error names one of the stream's tokens at that token's
      position, and is never a lexical one. */
  function ParseTokens(toks: Stream): (r: Result<Expr, ParseError>)
    ensures r.Err? ==> ParserErrorFrom(toks, 0, r.error)
  {
    SumErrors(toks, 0);
    var result :- ParseSum(toks, 0);
    var next := toks[result.1];
    if next.kind != EOF then
      assert toks[0..][result.1] == next;
      Err(ParseError(next.pos, TrailingToken(next)))
    else
      Ok(result.0)
  }

  /** An error found from a later token is also one found from an earlier one. */
  lemma ErrorFromLater(toks: seq<Token>, p: nat, q: nat, e: ParseError)
    requires p <= q && ParserErrorFrom(toks, q, e)
    ensures ParserErrorFrom(toks, p, e)
  {
    var k :| 0 <= k < |toks[q..]| && toks[q..][k] == e.reason.got;
    assert toks[p..][q - p + k] == e.reason.got;
  }

  /** Every error the parser reports names a token at or after the one it
      started from (`got`), at that token's position, and is never a lexical
      one. */
  lemma {:induction false} SumErrors(toks: Stream, p: nat)
    requires p < |toks|
    ensures ParseSum(toks, p).Err? ==> ParserErrorFrom(toks, p, ParseSum(toks, p).error)
    decreases |toks| - p, 2
  {
    ProductErrors(toks, p);
    var first := ParseProduct(toks, p);
    if first.Ok? {
      SumTailErrors(toks, first.value.1, first.value.0);
      if ParseSum(toks, p).Err? {
        ErrorFromLater(toks, p, first.value.1, ParseSum(toks, p).error);
      }
    }
  }

  lemma {:induction false} SumTailErrors(toks: Stream, p: nat, left: Expr)
    requires p < |toks|
    ensures SumTail(toks, p, left).Err? ==> ParserErrorFrom(toks, p, SumTail(toks, p, left).error)
    decreases |toks| - p, 0
  {
    var kind := toks[p].kind;
    if kind == PLUS || kind == MINUS {
      ProductErrors(toks, p + 1);
      var right := ParseProduct(toks, p + 1);
      if right.Err? {
        ErrorFromLater(toks, p, p + 1, right.error);
      } else {
        var next := Binop(AddOp(kind), left, right.value.0);
        SumTailErrors(toks, right.value.1, next);
        if SumTail(toks, right.value.1, next).Err? {
          ErrorFromLater(toks, p, right.value.1, SumTail(toks, right.value.1, next).error);
        }
      }
    }
  }

  lemma {:induction false} ProductErrors(toks: Stream, p: nat)
    requires p < |toks|
    ensures ParseProduct(toks, p).Err? ==> ParserErrorFrom(toks, p, ParseProduct(toks, p).error)
    decreases |toks| - p, 1
  {
    FactorErrors(toks, p);
    var first := ParseFactor(toks, p);
    if first.Ok? {
      ProductTailErrors(toks, first.value.1, first.value.0);
      if ParseProduct(toks, p).Err? {
        ErrorFromLater(toks, p, first.value.1, ParseProduct(toks, p).error);
      }
    }
  }

  lemma {:induction false} ProductTailErrors(toks: Stream, p: nat, left: Expr)
    requires p < |toks|
    ensures ProductTail(toks, p, left).Err? ==> ParserErrorFrom(toks, p, ProductTail(toks, p, left).error)
    decreases |toks| - p, 0
  {
    var kind := toks[p].kind;
    if kind == STAR || kind == SLASH {
      FactorErrors(toks, p + 1);
      var right := ParseFactor(toks, p + 1);
      if right.Err? {
        ErrorFromLater(toks, p, p + 1, right.error);
      } else {
        var next := Binop(MulOp(kind), left, right.value.0);
        ProductTailErrors(toks, right.value.1, next);
        if ProductTail(toks, right.value.1, next).Err? {
          ErrorFromLater(toks, p, right.value.1, ProductTail(toks, right.value.1, next).error);
        }
      }
    }
  }

  lemma {:induction false} FactorErrors(toks: Stream, p: nat)
    requires p < |toks|
    ensures ParseFactor(toks, p).Err? ==> ParserErrorFrom(toks, p, ParseFactor(toks, p).error)
    decreases |toks| - p, 0
  {
    var tok := toks[p];
    if tok.kind == LPAREN {
      SumErrors(toks, p + 1);
      var inner := ParseSum(toks, p + 1);
      if inner.Err? {
        ErrorFromLater(toks, p, p + 1, inner.error);
      } else {
        var q := inner.value.1;
        assert toks[p..][q - p] == toks[q];
      }
    } else {
      assert toks[p..][0] == tok;
    }
  }

  lemma TokenizedIsWellFormed(input: string, toks: seq<Token>)
    requires WellTokenized(input, toks)
    ensures WellFormedStream(toks)
  {
    var body := toks[..|toks| - 1];
    forall k | 0 <= k < |toks|
      ensures Readable(toks[k])
    {
      if k < |body| {
        assert body[k] == toks[k];
      }
    }
  }

  /** `parseExpr`: tokenize, then parse; either stage may fail with a
      `ParseError`. A lexical error is reported exactly when the text has no
      well-formed tokenization. */
  function ParseExpr(input: string): (r: Result<Expr, ParseError>)
    ensures Tokenize(input).Err? ==> r == Err(Tokenize(input).error)
    ensures r.Err? && r.error.reason.IsLexical() <==> forall toks :: !WellTokenized(input, toks)
    ensures r.Err? && r.error.reason.IsLexical() ==> LexErrorAt(input, r.error)
  {
    TokenizeExactly(input);
    match Tokenize(input)
    case Err(e) => Err(e)
    case Ok(toks) =>
      TokenizedIsWellFormed(input, toks);
      ParseTokens(toks)
  }

  // ---------------------------------------------------------------------------
  // Evaluator
  // ---------------------------------------------------------------------------

  /** The id a `$self` reference is looked up under. */
  const SelfId: string := "$self"

  /** One arithmetic step on JavaScript numbers: division by zero and any
      non-finite operand give a non-finite result. */
  function Apply(op: Op, a: Num, b: Num): (r: Num)
    ensures r.Finite? <==> a.Finite? && b.Finite? && !(op == Div && b.value == 0.0)
  {
    if a.NonFinite? || b.NonFinite? then NonFinite
    else
      match op
      case Add => Finite(a.value + b.value)
      case Sub => Finite(a.value - b.value)
      case Mul => Finite(a.value * b.value)
      case Div => if b.value == 0.0 then NonFinite else Finite(a.value / b.value)
  }

  /** `evaluate`: a caller-supplied lookup answers every reference; its
      failures propagate unchanged; a binop evaluates left, then right. */
  function Evaluate<E>(e: Expr, lookup: (string, string) -> Result<real, E>): (r: Result<Num, E>)
    ensures Leaves(e) == [] ==> r.Ok?
  {
    match e
    case Literal(v) => Ok(v)
    case Ref(id, anchor) =>
      var v :- lookup(id, anchor);
      Ok(Finite(v))
    case SelfRef(anchor) =>
      var v :- lookup(SelfId, anchor);
      Ok(Finite(v))
    case Binop(op, l, r) =>
      var a :- Evaluate(l, lookup);
      var b :- Evaluate(r, lookup);
      Ok(Apply(op, a, b))
  }

  /** Either stage of `parseAndEvaluate` can fail: the parser, or the lookup. */
  datatype Failure<+E> = Syntax(syntax: ParseError) | Lookup(cause: E)

  /** `parseAndEvaluate`. */
  function ParseAndEvaluate<E>(input: string, lookup: (string, string) -> Result<real, E>): (r: Result<Num, Failure<E>>)
    ensures r.Err? && r.error.Syntax? <==> ParseExpr(input).Err?
    ensures ParseExpr(input).Ok? ==>
              (r.Ok? <==> Evaluate(ParseExpr(input).value, lookup).Ok?)
              && (r.Ok? ==> r.value == Evaluate(ParseExpr(input).value, lookup).value)
  {
    match ParseExpr(input)
    case Err(e) => Err(Syntax(e))
    case Ok(ast) =>
      match Evaluate(ast, lookup)
      case Err(e) => Err(Lookup(e))
      case Ok(v) => Ok(v)
  }

  // ---------------------------------------------------------------------------
  // References of a tree
  // ---------------------------------------------------------------------------

  /** The (id, anchor) pairs `Evaluate` looks up, left to right; `$self`
      references appear under `SelfId`. */
  function Leaves(e: Expr): seq<(string, string)> {
    match e
    case Literal(_) => []
    case Ref(id, anchor) => [(id, anchor)]
    case SelfRef(anchor) => [(SelfId, anchor)]
    case Binop(_, l, r) => Leaves(l) + Leaves(r)
  }

  /** `collectAnchors`: the anchor of every reference leaf, left to right. */
  function CollectAnchors(e: Expr): (anchors: seq<string>)
    ensures |anchors| == |Leaves(e)|
  {
    match e
    case Literal(_) => []
    case Ref(_, anchor) => [anchor]
    case SelfRef(anchor) => [anchor]
    case Binop(_, l, r) => CollectAnchors(l) + CollectAnchors(r)
  }

  /** The first lookup failure among `leaves`, in order. */
  function FirstFailure<E>(leaves: seq<(string, string)>, lookup: (string, string) -> Result<real, E>): Option<E> {
    if |leaves| == 0 then None
    else if lookup(leaves[0].0, leaves[0].1).Err? then Some(lookup(leaves[0].0, leaves[0].1).error)
    else FirstFailure(leaves[1..], lookup)
  }

  lemma {:induction false} FirstFailureAppend<E>(a: seq<(string, string)>, b: seq<(string, string)>, lookup: (string, string) -> Result<real, E>)
    ensures FirstFailure(a + b, lookup) == if FirstFailure(a, lookup).Some? then FirstFailure(a, lookup) else FirstFailure(b, lookup)
    decreases |a|
  {
    if |a| > 0 {
      assert (a + b)[1..] == a[1..] + b;
      FirstFailureAppend(a[1..], b, lookup);
    } else {
      assert a + b == b;
    }
  }

  /** `collectAnchors` lists exactly the anchors the evaluator looks up, in
      the order it looks them up, one per reference leaf. */
  lemma {:induction false} CollectAnchorsMatchesLeaves(e: Expr)
    ensures |CollectAnchors(e)| == |Leaves(e)|
    ensures forall k :: 0 <= k < |Leaves(e)| ==> CollectAnchors(e)[k] == Leaves(e)[k].1
  {
    match e
    case Binop(_, l, r) =>
      CollectAnchorsMatchesLeaves(l);
      CollectAnchorsMatchesLeaves(r);
    case _ =>
  }

  /** Evaluation fails exactly when some looked-up leaf fails, and then with
      the error of the first failing leaf in left-to-right order. */
  lemma {:induction false} EvaluateFailsAtFirstFailingLeaf<E>(e: Expr, lookup: (string, string) -> Result<real, E>)
    ensures Evaluate(e, lookup).Err? <==> FirstFailure(Leaves(e), lookup).Some?
    ensures Evaluate(e, lookup).Err? ==> Evaluate(e, lookup).error == FirstFailure(Leaves(e), lookup).value
  {
    match e
    case Binop(_, l, r) =>
      EvaluateFailsAtFirstFailingLeaf(l, lookup);
      EvaluateFailsAtFirstFailingLeaf(r, lookup);
      FirstFailureAppend(Leaves(l), Leaves(r), lookup);
    case _ =>
  }

  /** Evaluation consults the lookup only at the tree's leaves: two lookups
      that agree there give the same outcome. */
  lemma {:induction false} EvaluateIsLocal<E>(e: Expr, f: (string, string) -> Result<real, E>, g: (string, string) -> Result<real, E>)
    requires forall k :: 0 <= k < |Leaves(e)| ==> f(Leaves(e)[k].0, Leaves(e)[k].1) == g(Leaves(e)[k].0, Leaves(e)[k].1)
    ensures Evaluate(e, f) == Evaluate(e, g)
  {
    match e
    case Binop(_, l, r) =>
      assert forall k :: 0 <= k < |Leaves(l)| ==> Leaves(l)[k] == Leaves(e)[k];
      assert forall k :: 0 <= k < |Leaves(r)| ==> Leaves(r)[k] == Leaves(e)[|Leaves(l)| + k];
      EvaluateIsLocal(l, f, g);
      EvaluateIsLocal(r, f, g);
    case Ref(id, anchor) =>
      assert Leaves(e)[0] == (id, anchor);
    case SelfRef(anchor) =>
      assert Leaves(e)[0] == (SelfId, anchor);
    case Literal(_) =>
  }
}

=== FILE: geometry.dfy ===
/** The shape records the constraint helpers of both apps work on (the
    constraints' `types` module is not part of this model; its records are
    read off their uses), with coordinates as exact reals, plus the vector
    vocabulary the contracts are stated in. */
module Geometry {

  datatype Point = Point(x: real, y: real)

  datatype Rect = Rect(x: real, y: real, width: real, height: real)

  datatype Circle = Circle(cx: real, cy: real, r: real)

  datatype Arc = Arc(cx: real, cy: real, r: real, startAngle: real, endAngle: real)

  datatype Line = Line(from: Point, to: Point)

  datatype Corner = TopLeft | TopRight | BottomLeft | BottomRight

  datatype Edge = Top | Bottom | Left | Right

  /** `Rect | Circle`, told apart at run time by `'width' in shape` / `'r' in shape`. */
  datatype Shape = RectShape(rect: Rect) | CircleShape(circle: Circle)

  /** `Circle | Arc`, told apart by `'startAngle' in shape`. */
  datatype Round = RoundCircle(circle: Circle) | RoundArc(arc: Arc)

  /** Top and bottom edges run along x; left and right along y. */
  predicate IsHorizontal(e: Edge) {
    e == Top || e == Bottom
  }

  // ---------------------------------------------------------------------------
  // Vector vocabulary
  // ---------------------------------------------------------------------------

  function Add(a: Point, b: Point): Point {
    Point(a.x + b.x, a.y + b.y)
  }

  function Sub(a: Point, b: Point): Point {
    Point(a.x - b.x, a.y - b.y)
  }

  function Scale(k: real, a: Point): Point {
    Point(k * a.x, k * a.y)
  }

  function Dot(a: Point, b: Point): real {
    a.x * b.x + a.y * b.y
  }

  function Cross(a: Point, b: Point): real {
    a.x * b.y - a.y * b.x
  }

  /** The squared distance between two points. */
  function DistSq(a: Point, b: Point): real {
    Dot(Sub(a, b), Sub(a, b))
  }

  /** The point halfway between `a` and `b`. */
  function Mid(a: Point, b: Point): Point {
    Point((a.x + b.x) / 2.0, (a.y + b.y) / 2.0)
  }

  function Direction(l: Line): Point {
    Sub(l.to, l.from)
  }

  function LengthSq(l: Line): real {
    Dot(Direction(l), Direction(l))
  }

  /** `p` lies on the infinite line through `l`'s endpoints (any `p` does when they coincide). */
  predicate OnLine(p: Point, l: Line) {
    Cross(Sub(p, l.from), Direction(l)) == 0.0
  }

  /** The point at parameter `t` along `l`: `from` at 0, `to` at 1. */
  function At(l: Line, t: real): Point {
    Add(l.from, Scale(t, Direction(l)))
  }

  /** The parameter along a segment of proper length at which the foot of
      the perpendicular from `p` lies. */
  function FootParameter(p: Point, l: Line): real
    requires LengthSq(l) != 0.0
  {
    Dot(Sub(p, l.from), Direction(l)) / LengthSq(l)
  }

  lemma Positive(a: real, b: real)
    requires a > 0.0 && b > 0.0
    ensures a * b > 0.0
  {
  }

  lemma Square(v: real)
    ensures v * v >= 0.0
    ensures v != 0.0 ==> v * v > 0.0
  {
    if v < 0.0 {
      Positive(-v, -v);
      assert v * v == (-v) * (-v);
    } else if v > 0.0 {
      Positive(v, v);
    }
  }

  /** A vector's dot product with itself is never negative. */
  lemma DotSelf(d: Point)
    ensures Dot(d, d) >= 0.0
  {
    Square(d.x);
    Square(d.y);
    assert Dot(d, d) == d.x * d.x + d.y * d.y;
  }

  /** A squared length is never negative, and it is zero for a segment whose
      endpoints coincide. */
  lemma LengthSqZero(l: Line)
    ensures LengthSq(l) >= 0.0
    ensures l.from == l.to ==> LengthSq(l) == 0.0
  {
    var d := Direction(l);
    DotSelf(d);
    assert LengthSq(l) == Dot(d, d);
    if l.from == l.to {
      assert d == Point(0.0, 0.0);
    }
  }

  // ---------------------------------------------------------------------------
  // Number helpers of JavaScript's Math
  // ---------------------------------------------------------------------------

  function Abs(v: real): real {
    if v < 0.0 then -v else v
  }

  function Min(a: real, b: real): real {
    if a <= b then a else b
  }

  function Max(a: real, b: real): real {
    if a >= b then a else b
  }

  /** `Math.max(0, Math.min(1, t))`. */
  function Clamp01(t: real): real {
    Max(0.0, Min(1.0, t))
  }

  /** Cell `k` of a grid laid out row by row with `cols` cells to a row, one
      step apart, from `origin`: column `k % cols`, row `k / cols`. */
  function GridCell(k: nat, cols: nat, stepX: real, stepY: real, origin: Point): Point
    requires cols > 0
  {
    Point(origin.x + (k % cols) as real * stepX, origin.y + (k / cols) as real * stepY)
  }

  /** The whole grid: `rows * cols` cells. A loop bound that is zero or
      negative lays out nothing. */
  function GridCells(rows: int, cols: int, stepX: real, stepY: real, origin: Point): seq<Point> {
    if rows <= 0 || cols <= 0 then
      []
    else
      seq(rows * cols, k requires 0 <= k < rows * cols => GridCell(k, cols, stepX, stepY, origin))
  }

  lemma MulMonotone(a: int, b: int, c: nat)
    requires a <= b
    ensures a * c <= b * c
  {
  }

  /** Cell `row * cols + col` sits in column `col` of row `row`. */
  lemma GridCellAt(row: nat, col: nat, cols: nat, stepX: real, stepY: real, origin: Point)
    requires col < cols
    ensures GridCell(row * cols + col, cols, stepX, stepY, origin)
         == Point(origin.x + col as real * stepX, origin.y + row as real * stepY)
  {
    var k := row * cols + col;
    var q, r := k / cols, k % cols;
    assert k == q * cols + r;
    if q > row {
      MulMonotone(row + 1, q, cols);
      assert false;
    } else if q < row {
      MulMonotone(q + 1, row, cols);
      assert false;
    }
  }

  /** The index of the cell of row `row` and column `col` in a grid laid out
      row by row. */
  function CellIndex(row: nat, col: nat, cols: nat): nat {
    row * cols + col
  }

  /** The grid has `rows * cols` cells, and the cell of row `row` and column
      `col` sits `col` steps right and `row` steps down from `origin`; so the
      cells of a row share a y and the cells of a column share an x. */
  lemma GridLayout(rows: int, cols: int, stepX: real, stepY: real, origin: Point)
    requires rows > 0 && cols > 0
    ensures |GridCells(rows, cols, stepX, stepY, origin)| == rows * cols
    ensures forall row: nat, col: nat {:trigger CellIndex(row, col, cols)} :: row < rows && col < cols ==>
      CellIndex(row, col, cols) < rows * cols &&
      GridCells(rows, cols, stepX, stepY, origin)[CellIndex(row, col, cols)]
        == Point(origin.x + col as real * stepX, origin.y + row as real * stepY)
  {
    forall row: nat, col: nat | row < rows && col < cols
      ensures CellIndex(row, col, cols) < rows * cols
      ensures GridCells(rows, cols, stepX, stepY, origin)[CellIndex(row, col, cols)]
        == Point(origin.x + col as real * stepX, origin.y + row as real * stepY)
    {
      MulMonotone(row + 1, rows, cols);
      assert (row + 1) * cols == row * cols + cols;
      GridCellAt(row, col, cols, stepX, stepY, origin);
    }
  }
}

=== FILE: results.dfy ===
/** Failure-compatible wrappers used across the model: a thrown exception of the
    source becomes an `Err`, a nullable or optional value becomes an `Option`. */
module Results {

  datatype Option<+T> = None | Some(value: T)

  datatype Result<+T, +E> = Ok(value: T) | Err(error: E) {

    predicate IsFailure() {
      Err?
    }

    function PropagateFailure<U>(): Result<U, E>
      requires Err?
    {
      Err(error)
    }

    function Extract(): T
      requires Ok?
    {
      value
    }
  }
}

=== FILE: solver_context.dfy ===
/** The anchor registry of the render layer
    (app-claude/src/claude-render/primitives/SolverContext.tsx). During one
    render pass, shapes register their named anchors (numbers or points),
    later shapes resolve `#id.anchor` references against them, and
    diagnostics pile up for reading after the pass. The registry is a value
    here; every operation that changes it returns the next registry, and an
    operation that throws in SolverContext.tsx returns an error instead.

    The last part of the module, marked as such, is an extension: the
    expression-valued `resolve(expr, selfId)` and `resolveWithAxisCheck`
    that the tests call, built on the expression evaluator. */
module SolverContext {
  import opened Results
  import opened Geometry
  import ExprParser

  // ---------------------------------------------------------------------------
  // Data
  // ---------------------------------------------------------------------------

  /** A registered anchor: a number or a point. */
  datatype AnchorValue = Scalar(value: real) | PointValue(point: Point)

  /** The anchors one shape registers, by name. */
  type Anchors = map<string, AnchorValue>

  datatype Level = Warning | Error

  datatype Side = LeftSide | TopSide | RightSide | BottomSide

  /** What a diagnostic says. SolverContext.tsx formats these as sentences; the
      model keeps the facts the sentence is made from. */
  datatype Message =
    | Text(text: string)
    | OutOfBounds(side: Side, coord: real, limit: real)
    | CrossAxis(prop: string, anchor: string, anchorAxis: Axis)

  datatype Diagnostic = Diagnostic(level: Level, shapeId: string, message: Message)

  datatype ViewBox = ViewBox(minX: real, minY: real, width: real, height: real)

  /** An axis-aligned bounding box, as `checkBounds` receives it. */
  datatype Bounds = Bounds(left: real, right: real, top: real, bottom: real)

  datatype Registry = Registry(
    anchors: map<string, Anchors>,
    diagnostics: seq<Diagnostic>,
    viewBox: Option<ViewBox>)

  /** Why a reference does not resolve, in the order `resolve` checks them. */
  datatype ResolveError =
    | InvalidRef(text: string)
    | ShapeNotFound(id: string)
    | AnchorNotFound(id: string, anchor: string)
    | ResolvedToPoint(id: string, anchor: string)
    | ResolvedToNumber(id: string, anchor: string)
    | NoSelf(anchor: string)

  /** A fresh registry: no anchors, no diagnostics, no view-box. */
  const Empty := Registry(map[], [], None)

  // ---------------------------------------------------------------------------
  // parseRef
  // ---------------------------------------------------------------------------

  datatype Reference = Reference(id: string, anchor: string)

  /** The characters JavaScript's `.` does not match. */
  predicate IsLineTerminator(c: char) {
    c == '\n' || c == '\r' || c == '\U{2028}' || c == '\U{2029}'
  }

  /** `[^.]+`: at least one character, none of them a dot. */
  predicate ValidId(id: string) {
    |id| > 0 && forall k :: 0 <= k < |id| ==> id[k] != '.'
  }

  /** `.+`: at least one character, none of them a line terminator. */
  predicate ValidAnchor(anchor: string) {
    |anchor| > 0 && forall k :: 0 <= k < |anchor| ==> !IsLineTerminator(anchor[k])
  }

  predicate ValidReference(r: Reference) {
    ValidId(r.id) && ValidAnchor(r.anchor)
  }

  /** The text `#id.anchor` a reference is written as. */
  function RefText(r: Reference): string {
    "#" + r.id + "." + r.anchor
  }

  /** The index of the first dot at or after `i`, or `|s|` when there is none. */
  function FirstDot(s: string, i: nat): (k: nat)
    requires i <= |s|
    ensures i <= k <= |s|
    ensures k < |s| ==> s[k] == '.'
    ensures forall j :: i <= j < k ==> s[j] != '.'
    decreases |s| - i
  {
    if i == |s| || s[i] == '.' then i else FirstDot(s, i + 1)
  }

  /** `parseRef`: a reference reads back from its text, and only a text of
      the form `#id.anchor` reads as one. The id stops at the first dot. */
  function ParseRef(s: string): (r: Result<Reference, ResolveError>)
    ensures r.Ok? ==> ValidReference(r.value) && RefText(r.value) == s
    ensures r.Err? ==> r.error == InvalidRef(s)
  {
    if |s| == 0 || s[0] != '#' then Err(InvalidRef(s))
    else
      var k := FirstDot(s, 1);
      if k == 1 || k == |s| then Err(InvalidRef(s))
      else
        var x := Reference(s[1..k], s[k + 1..]);
        if ValidAnchor(x.anchor) then
          assert RefText(x) == s;
          Ok(x)
        else Err(InvalidRef(s))
  }

  /** Every well-formed reference is read back from its text. */
  lemma ParseRefComplete(x: Reference)
    requires ValidReference(x)
    ensures ParseRef(RefText(x)) == Ok(x)
  {
    var s := RefText(x);
    var k := |x.id| + 1;
    assert s[k] == '.';
    forall j | 1 <= j < k
      ensures s[j] != '.'
    {
      assert s[j] == x.id[j - 1];
    }
    assert FirstDot(s, 1) == k by {
      FirstDotAt(s, 1, k);
    }
    assert s[1..k] == x.id;
    assert s[k + 1..] == x.anchor;
  }

  lemma FirstDotAt(s: string, i: nat, k: nat)
    requires i <= k < |s| && s[k] == '.'
    requires forall j :: i <= j < k ==> s[j] != '.'
    ensures FirstDot(s, i) == k
    decreases k - i
  {
    if i < k {
      FirstDotAt(s, i + 1, k);
    }
  }

  /** `parseRef` accepts a text exactly when it is the text of a well-formed
      reference; the reference is then unique. */
  lemma ParseRefExactly(s: string, x: Reference)
    ensures ParseRef(s) == Ok(x) <==> ValidReference(x) && RefText(x) == s
  {
    if ValidReference(x) && RefText(x) == s {
      ParseRefComplete(x);
    }
  }

  /** The examples of the tests. */
  lemma ParseRefExamples()
    ensures ParseRef("#box.right") == Ok(Reference("box", "right"))
    ensures ParseRef("box.right").Err?
  {
    ParseRefComplete(Reference("box", "right"));
    assert RefText(Reference("box", "right")) == "#box.right";
  }

  /** The id stops at the first dot; the anchor may hold further dots. */
  lemma ParseRefSplitsAtFirstDot()
    ensures ParseRef("#a.v0.x") == Ok(Reference("a", "v0.x"))
  {
    ParseRefComplete(Reference("a", "v0.x"));
    assert RefText(Reference("a", "v0.x")) == "#a.v0.x";
  }

  // ---------------------------------------------------------------------------
  // Registration, diagnostics, view-box
  // ---------------------------------------------------------------------------

  /** The anchor stored under `id` and `anchor`, if any. */
  function Stored(reg: Registry, id: string, anchor: string): Option<AnchorValue> {
    if id in reg.anchors && anchor in reg.anchors[id] then Some(reg.anchors[id][anchor])
    else None
  }

  /** `setViewBox`: only the view-box changes. */
  function SetViewBox(reg: Registry, vb: ViewBox): (s: Registry)
    ensures s.viewBox == Some(vb)
    ensures s.anchors == reg.anchors && s.diagnostics == reg.diagnostics
  {
    reg.(viewBox := Some(vb))
  }

  /** `register`: the id's anchor set is replaced as a whole; anchors of an
      earlier registration under the same id are gone, other ids keep
      theirs, and the diagnostics and view-box do not change. */
  function Register(reg: Registry, id: string, values: Anchors): (s: Registry)
    ensures id in s.anchors
    ensures forall a :: Stored(s, id, a) == (if a in values then Some(values[a]) else None)
    ensures forall other, a :: other != id ==> Stored(s, other, a) == Stored(reg, other, a)
    ensures s.anchors.Keys == reg.anchors.Keys + {id}
    ensures s.diagnostics == reg.diagnostics && s.viewBox == reg.viewBox
  {
    reg.(anchors := reg.anchors[id := values])
  }

  /** `addDiagnostic`: exactly one entry is appended; nothing else changes. */
  function AddDiagnostic(reg: Registry, level: Level, shapeId: string, message: Message): (s: Registry)
    ensures |s.diagnostics| == |reg.diagnostics| + 1
    ensures s.diagnostics[..|reg.diagnostics|] == reg.diagnostics
    ensures s.diagnostics[|reg.diagnostics|] == Diagnostic(level, shapeId, message)
    ensures s.anchors == reg.anchors && s.viewBox == reg.viewBox
  {
    reg.(diagnostics := reg.diagnostics + [Diagnostic(level, shapeId, message)])
  }

  // ---------------------------------------------------------------------------
  // checkBounds
  // ---------------------------------------------------------------------------

  /** The sides in the order `checkBounds` examines them. */
  const SideOrder: seq<Side> := [LeftSide, TopSide, RightSide, BottomSide]

  /** The coordinate of one side of the bounds. */
  function Coord(b: Bounds, side: Side): real {
    match side
    case LeftSide => b.left
    case TopSide => b.top
    case RightSide => b.right
    case BottomSide => b.bottom
  }

  /** The view-box line that side must not cross. */
  function Limit(vb: ViewBox, side: Side): real {
    match side
    case LeftSide => vb.minX
    case TopSide => vb.minY
    case RightSide => vb.minX + vb.width
    case BottomSide => vb.minY + vb.height
  }

  /** A side is outside when it lies strictly beyond its limit: left of the
      left edge, above the top, right of the right edge, below the bottom. */
  predicate Outside(vb: ViewBox, b: Bounds, side: Side) {
    if side == LeftSide || side == TopSide then Coord(b, side) < Limit(vb, side)
    else Coord(b, side) > Limit(vb, side)
  }

  /** The warning `checkBounds` records for one side. */
  function BoundsWarning(vb: ViewBox, b: Bounds, shapeId: string, side: Side): Diagnostic {
    Diagnostic(Warning, shapeId, OutOfBounds(side, Coord(b, side), Limit(vb, side)))
  }

  /** The warning for one side, if it is outside. */
  function SideWarning(vb: ViewBox, b: Bounds, shapeId: string, side: Side): seq<Diagnostic> {
    if Outside(vb, b, side) then [BoundsWarning(vb, b, shapeId, side)] else []
  }

  /** The warnings for the outside sides among `sides`, in their order. */
  function Warnings(vb: ViewBox, b: Bounds, shapeId: string, sides: seq<Side>): seq<Diagnostic> {
    if sides == [] then []
    else SideWarning(vb, b, shapeId, sides[0]) + Warnings(vb, b, shapeId, sides[1..])
  }

  lemma WarningsCons(vb: ViewBox, b: Bounds, shapeId: string, side: Side, rest: seq<Side>)
    ensures Warnings(vb, b, shapeId, [side] + rest) == SideWarning(vb, b, shapeId, side) + Warnings(vb, b, shapeId, rest)
  {
    assert ([side] + rest)[1..] == rest;
  }

  lemma FourSides(vb: ViewBox, b: Bounds, shapeId: string)
    ensures Warnings(vb, b, shapeId, SideOrder)
         == SideWarning(vb, b, shapeId, LeftSide) + SideWarning(vb, b, shapeId, TopSide)
            + SideWarning(vb, b, shapeId, RightSide) + SideWarning(vb, b, shapeId, BottomSide)
  {
    var l, t, r, m := SideWarning(vb, b, shapeId, LeftSide), SideWarning(vb, b, shapeId, TopSide),
                      SideWarning(vb, b, shapeId, RightSide), SideWarning(vb, b, shapeId, BottomSide);
    assert Warnings(vb, b, shapeId, [BottomSide]) == m by {
      WarningsCons(vb, b, shapeId, BottomSide, []);
      assert [BottomSide] + [] == [BottomSide];
    }
    assert Warnings(vb, b, shapeId, [RightSide, BottomSide]) == r + m by {
      WarningsCons(vb, b, shapeId, RightSide, [BottomSide]);
      assert [RightSide] + [BottomSide] == [RightSide, BottomSide];
    }
    assert Warnings(vb, b, shapeId, [TopSide, RightSide, BottomSide]) == t + (r + m) by {
      WarningsCons(vb, b, shapeId, TopSide, [RightSide, BottomSide]);
      assert [TopSide] + [RightSide, BottomSide] == [TopSide, RightSide, BottomSide];
    }
    assert Warnings(vb, b, shapeId, SideOrder) == l + (t + (r + m)) by {
      WarningsCons(vb, b, shapeId, LeftSide, [TopSide, RightSide, BottomSide]);
      assert [LeftSide] + [TopSide, RightSide, BottomSide] == SideOrder;
    }
    assert l + (t + (r + m)) == l + t + r + m;
  }

  /** One of the four checks of `checkBounds`: a warning when the side is
      outside, nothing otherwise. */
  function CheckSide(reg: Registry, vb: ViewBox, b: Bounds, shapeId: string, side: Side): (s: Registry)
    ensures s.diagnostics == reg.diagnostics + SideWarning(vb, b, shapeId, side)
    ensures s.anchors == reg.anchors && s.viewBox == reg.viewBox
  {
    if Outside(vb, b, side) then
      AddDiagnostic(reg, Warning, shapeId, OutOfBounds(side, Coord(b, side), Limit(vb, side)))
    else reg
  }

  /** The checks for `sides`, one after the other. */
  function CheckSides(reg: Registry, vb: ViewBox, b: Bounds, shapeId: string, sides: seq<Side>): (s: Registry)
    ensures s.diagnostics == reg.diagnostics + Warnings(vb, b, shapeId, sides)
    ensures s.anchors == reg.anchors && s.viewBox == reg.viewBox
    decreases |sides|
  {
    if sides == [] then reg
    else
      var next := CheckSide(reg, vb, b, shapeId, sides[0]);
      var rest := CheckSides(next, vb, b, shapeId, sides[1..]);
      ghost var (d, w, ws) := (reg.diagnostics, SideWarning(vb, b, shapeId, sides[0]), Warnings(vb, b, shapeId, sides[1..]));
      assert rest.diagnostics == (d + w) + ws;
      assert (d + w) + ws == d + (w + ws);
      rest
  }

  /** `checkBounds`: without a view-box nothing happens; otherwise one
      warning is appended for each side outside the view-box, left, top,
      right, bottom in that order, and everything else stays. */
  function CheckBounds(reg: Registry, shapeId: string, b: Bounds): (s: Registry)
    ensures reg.viewBox.None? ==> s == reg
    ensures reg.viewBox.Some? ==>
              s.diagnostics == reg.diagnostics + Warnings(reg.viewBox.value, b, shapeId, SideOrder)
    ensures s.anchors == reg.anchors && s.viewBox == reg.viewBox
  {
    match reg.viewBox
    case None => reg
    case Some(vb) => CheckSides(reg, vb, b, shapeId, SideOrder)
  }

  /** The warnings name exactly the sides that are outside, each once and
      all of them for the given shape. */
  lemma {:induction false} WarningsExactly(vb: ViewBox, b: Bounds, shapeId: string, sides: seq<Side>)
    ensures |Warnings(vb, b, shapeId, sides)| <= |sides|
    ensures forall d :: d in Warnings(vb, b, shapeId, sides) ==>
              d.level == Warning && d.shapeId == shapeId && d.message.OutOfBounds?
    ensures forall side :: side in sides && Outside(vb, b, side) ==>
              BoundsWarning(vb, b, shapeId, side) in Warnings(vb, b, shapeId, sides)
    ensures forall side :: BoundsWarning(vb, b, shapeId, side) in Warnings(vb, b, shapeId, sides) ==>
              side in sides && Outside(vb, b, side)
    decreases |sides|
  {
    if sides != [] {
      WarningsExactly(vb, b, shapeId, sides[1..]);
      forall side | side in sides
        ensures side == sides[0] || side in sides[1..]
      {
      }
    }
  }

  /** Bounds inside the view-box on every side add no diagnostic; a shape
      can add at most four. */
  lemma CheckBoundsCount(reg: Registry, shapeId: string, b: Bounds)
    requires reg.viewBox.Some?
    ensures var added := |CheckBounds(reg, shapeId, b).diagnostics| - |reg.diagnostics|;
            0 <= added <= 4
            && (added == 0 <==> forall side :: side in SideOrder ==> !Outside(reg.viewBox.value, b, side))
  {
    var vb := reg.viewBox.value;
    WarningsExactly(vb, b, shapeId, SideOrder);
    if Warnings(vb, b, shapeId, SideOrder) == [] {
    } else {
      var d := Warnings(vb, b, shapeId, SideOrder)[0];
      assert d in Warnings(vb, b, shapeId, SideOrder);
      assert d == BoundsWarning(vb, b, shapeId, d.message.side) by {
        WarningIsBoundsWarning(vb, b, shapeId, SideOrder, d);
      }
    }
  }

  lemma {:induction false} WarningIsBoundsWarning(vb: ViewBox, b: Bounds, shapeId: string, sides: seq<Side>, d: Diagnostic)
    requires d in Warnings(vb, b, shapeId, sides)
    ensures d.message.OutOfBounds? && d == BoundsWarning(vb, b, shapeId, d.message.side)
    decreases |sides|
  {
    if sides != [] && !(Outside(vb, b, sides[0]) && d == BoundsWarning(vb, b, shapeId, sides[0])) {
      WarningIsBoundsWarning(vb, b, shapeId, sides[1..], d);
    }
  }

  /** The example of the tests: a shape poking out on the left and at the
      bottom of a 10 by 10 view-box gets two warnings, in that order. */
  lemma CheckBoundsExample()
    ensures CheckBounds(SetViewBox(Empty, ViewBox(0.0, 0.0, 10.0, 10.0)), "shape-1", Bounds(-1.0, 5.0, 0.0, 12.0)).diagnostics
         == [Diagnostic(Warning, "shape-1", OutOfBounds(LeftSide, -1.0, 0.0)),
             Diagnostic(Warning, "shape-1", OutOfBounds(BottomSide, 12.0, 10.0))]
  {
    var vb, b := ViewBox(0.0, 0.0, 10.0, 10.0), Bounds(-1.0, 5.0, 0.0, 12.0);
    FourSides(vb, b, "shape-1");
    assert SideWarning(vb, b, "shape-1", TopSide) == [];
    assert SideWarning(vb, b, "shape-1", RightSide) == [];
  }

  // ---------------------------------------------------------------------------
  // resolve and resolvePoint
  // ---------------------------------------------------------------------------

  /** The two not-found checks both resolvers share: the shape first, then
      its anchor. */
  function Find(reg: Registry, id: string, anchor: string): (r: Result<AnchorValue, ResolveError>)
    ensures r.Ok? <==> Stored(reg, id, anchor).Some?
    ensures r.Ok? ==> r.value == Stored(reg, id, anchor).value
    ensures r.Err? ==> r.error == (if id in reg.anchors then AnchorNotFound(id, anchor) else ShapeNotFound(id))
  {
    if id !in reg.anchors then Err(ShapeNotFound(id))
    else if anchor !in reg.anchors[id] then Err(AnchorNotFound(id, anchor))
    else Ok(reg.anchors[id][anchor])
  }

  /** The number stored under a parsed reference. */
  function ScalarAt(reg: Registry, id: string, anchor: string): (r: Result<real, ResolveError>)
    ensures r.Ok? ==> Stored(reg, id, anchor) == Some(Scalar(r.value))
    ensures Stored(reg, id, anchor).Some? && Stored(reg, id, anchor).value.Scalar? ==> r.Ok?
    ensures Stored(reg, id, anchor).Some? && Stored(reg, id, anchor).value.PointValue? ==>
              r == Err(ResolvedToPoint(id, anchor))
    ensures Stored(reg, id, anchor).None? ==> r.Err? && r.error == Find(reg, id, anchor).error
  {
    var v :- Find(reg, id, anchor);
    match v
    case Scalar(x) => Ok(x)
    case PointValue(_) => Err(ResolvedToPoint(id, anchor))
  }

  /** The point stored under a parsed reference. */
  function PointAt(reg: Registry, id: string, anchor: string): (r: Result<Point, ResolveError>)
    ensures r.Ok? ==> Stored(reg, id, anchor) == Some(PointValue(r.value))
    ensures Stored(reg, id, anchor).Some? && Stored(reg, id, anchor).value.PointValue? ==> r.Ok?
    ensures Stored(reg, id, anchor).Some? && Stored(reg, id, anchor).value.Scalar? ==>
              r == Err(ResolvedToNumber(id, anchor))
    ensures Stored(reg, id, anchor).None? ==> r.Err? && r.error == Find(reg, id, anchor).error
  {
    var v :- Find(reg, id, anchor);
    match v
    case Scalar(_) => Err(ResolvedToNumber(id, anchor))
    case PointValue(p) => Ok(p)
  }

  /** `resolve`: the number stored under the reference. It fails, in this
      order, on a malformed reference, an unknown shape, an unknown anchor,
      and an anchor that holds a point. */
  function Resolve(reg: Registry, ref: string): (r: Result<real, ResolveError>)
    ensures ParseRef(ref).Err? ==> r == Err(InvalidRef(ref))
    ensures r.Ok? ==> ParseRef(ref).Ok?
                      && Stored(reg, ParseRef(ref).value.id, ParseRef(ref).value.anchor) == Some(Scalar(r.value))
    ensures r.Err? && r.error.ShapeNotFound? ==> ParseRef(ref).Ok? && r.error.id !in reg.anchors
    ensures r.Err? && r.error.AnchorNotFound? ==>
              ParseRef(ref).Ok? && r.error.id in reg.anchors && r.error.anchor !in reg.anchors[r.error.id]
    ensures r.Err? && r.error.ResolvedToPoint? ==>
              Stored(reg, r.error.id, r.error.anchor).Some? && Stored(reg, r.error.id, r.error.anchor).value.PointValue?
    ensures r.Err? ==> !r.error.ResolvedToNumber? && !r.error.NoSelf?
  {
    var x :- ParseRef(ref);
    ScalarAt(reg, x.id, x.anchor)
  }

  /** `resolvePoint`: the dual of `resolve`, for point anchors. */
  function ResolvePoint(reg: Registry, ref: string): (r: Result<Point, ResolveError>)
    ensures ParseRef(ref).Err? ==> r == Err(InvalidRef(ref))
    ensures r.Ok? ==> ParseRef(ref).Ok?
                      && Stored(reg, ParseRef(ref).value.id, ParseRef(ref).value.anchor) == Some(PointValue(r.value))
    ensures r.Err? && r.error.ShapeNotFound? ==> ParseRef(ref).Ok? && r.error.id !in reg.anchors
    ensures r.Err? && r.error.AnchorNotFound? ==>
              ParseRef(ref).Ok? && r.error.id in reg.anchors && r.error.anchor !in reg.anchors[r.error.id]
    ensures r.Err? && r.error.ResolvedToNumber? ==>
              Stored(reg, r.error.id, r.error.anchor).Some? && Stored(reg, r.error.id, r.error.anchor).value.Scalar?
    ensures r.Err? ==> !r.error.ResolvedToPoint? && !r.error.NoSelf?
  {
    var x :- ParseRef(ref);
    PointAt(reg, x.id, x.anchor)
  }

  /** A stored number is found through its reference, a stored point
      through `resolvePoint`. */
  lemma ResolveFindsStored(reg: Registry, x: Reference)
    requires ValidReference(x)
    ensures forall v :: Stored(reg, x.id, x.anchor) == Some(Scalar(v)) ==> Resolve(reg, RefText(x)) == Ok(v)
    ensures forall p :: Stored(reg, x.id, x.anchor) == Some(PointValue(p)) ==> ResolvePoint(reg, RefText(x)) == Ok(p)
  {
    ParseRefComplete(x);
  }

  /** The two resolvers are duals: at most one succeeds; when `resolve`
      succeeds `resolvePoint` reports a number and vice versa; and when both
      fail they fail alike. */
  lemma ResolveDuality(reg: Registry, ref: string)
    ensures !(Resolve(reg, ref).Ok? && ResolvePoint(reg, ref).Ok?)
    ensures Resolve(reg, ref).Ok? ==>
              ResolvePoint(reg, ref) == Err(ResolvedToNumber(ParseRef(ref).value.id, ParseRef(ref).value.anchor))
    ensures ResolvePoint(reg, ref).Ok? ==>
              Resolve(reg, ref) == Err(ResolvedToPoint(ParseRef(ref).value.id, ParseRef(ref).value.anchor))
    ensures Resolve(reg, ref).Err? && ResolvePoint(reg, ref).Err? ==> Resolve(reg, ref).error == ResolvePoint(reg, ref).error
  {
  }

  /** After a second `register` under an id, only the new anchor set
      answers for it: anchors that were only in the first set are not found. */
  lemma RegisterReplaces(reg: Registry, id: string, values: Anchors, anchor: string)
    requires ValidReference(Reference(id, anchor))
    ensures var s := Register(reg, id, values);
            var ref := RefText(Reference(id, anchor));
            && (anchor !in values ==> Resolve(s, ref) == Err(AnchorNotFound(id, anchor)))
            && (forall v :: anchor in values && values[anchor] == Scalar(v) ==> Resolve(s, ref) == Ok(v))
  {
    ParseRefComplete(Reference(id, anchor));
  }

  /** Registering one id leaves every reference to another id resolving as
      before. */
  lemma RegisterKeepsOthers(reg: Registry, id: string, values: Anchors, ref: string)
    requires ParseRef(ref).Ok? ==> ParseRef(ref).value.id != id
    ensures Resolve(Register(reg, id, values), ref) == Resolve(reg, ref)
    ensures ResolvePoint(Register(reg, id, values), ref) == ResolvePoint(reg, ref)
  {
  }

  /** The registry of the tests' resolver scenario. */
  function BoxRegistry(): Registry {
    Register(Empty, "box", map["left" := Scalar(10.0), "width" := Scalar(20.0), "center" := PointValue(Point(15.0, 25.0))])
  }

  /** The scenario of the tests: scalars resolve through `resolve` and are
      refused by `resolvePoint`; an unknown shape is reported. */
  lemma ResolveExamples()
    ensures Resolve(BoxRegistry(), RefText(Reference("box", "left"))) == Ok(10.0)
    ensures Resolve(BoxRegistry(), RefText(Reference("box", "width"))) == Ok(20.0)
  {
    ParseRefComplete(Reference("box", "left"));
    ParseRefComplete(Reference("box", "width"));
  }

  /** The refusals of the scenario: a number asked for as a point, and an
      unknown shape. */
  lemma ResolveRefusals()
    ensures ResolvePoint(BoxRegistry(), RefText(Reference("box", "left"))) == Err(ResolvedToNumber("box", "left"))
    ensures Resolve(BoxRegistry(), RefText(Reference("missing", "left"))) == Err(ShapeNotFound("missing"))
  {
    ParseRefComplete(Reference("box", "left"));
    ParseRefComplete(Reference("missing", "left"));
    assert "missing" !in BoxRegistry().anchors;
  }

  /** The point half of the scenario: a point resolves through
      `resolvePoint` and is refused by `resolve`. */
  lemma ResolvePointExamples()
    ensures ResolvePoint(BoxRegistry(), RefText(Reference("box", "center"))) == Ok(Point(15.0, 25.0))
    ensures Resolve(BoxRegistry(), RefText(Reference("box", "center"))) == Err(ResolvedToPoint("box", "center"))
  {
    ParseRefComplete(Reference("box", "center"));
  }

  // ---------------------------------------------------------------------------
  // reset and the start of a render pass
  // ---------------------------------------------------------------------------

  /** `reset`: anchors and diagnostics are emptied; the view-box stays. */
  function Reset(reg: Registry): (s: Registry)
    ensures s.anchors == map[] && s.diagnostics == []
    ensures s.viewBox == reg.viewBox
  {
    Registry(map[], [], reg.viewBox)
  }

  /** After a reset every well-formed reference names an unknown shape. */
  lemma ResetForgets(reg: Registry, ref: string)
    requires ParseRef(ref).Ok?
    ensures Resolve(Reset(reg), ref) == Err(ShapeNotFound(ParseRef(ref).value.id))
    ensures ResolvePoint(Reset(reg), ref) == Err(ShapeNotFound(ParseRef(ref).value.id))
  {
  }

  /** The start of a render pass in `SolverProvider`: reset, then set the
      view-box only when one is given, so an omitted view-box keeps the
      previous pass's. */
  function BeginPass(reg: Registry, viewBox: Option<ViewBox>): (s: Registry)
    ensures s.anchors == map[] && s.diagnostics == []
    ensures s.viewBox == if viewBox.Some? then viewBox else reg.viewBox
  {
    var cleared := Reset(reg);
    if viewBox.Some? then SetViewBox(cleared, viewBox.value) else cleared
  }

  /** Nothing of a pass leaks into the next one but the view-box: two
      registries with the same view-box start the same pass, and starting
      a pass twice is starting it once. */
  lemma BeginPassForgets(r1: Registry, r2: Registry, viewBox: Option<ViewBox>)
    requires viewBox.Some? || r1.viewBox == r2.viewBox
    ensures BeginPass(r1, viewBox) == BeginPass(r2, viewBox)
    ensures BeginPass(BeginPass(r1, viewBox), viewBox) == BeginPass(r1, viewBox)
  {
  }

  /** The scenario of the tests: after a reset the diagnostics are gone and
      the box no longer resolves. */
  lemma ResetExample()
    ensures var reg := AddDiagnostic(Register(Empty, "box", map["left" := Scalar(1.0)]), Warning, "box", Text("warn"));
            && Reset(reg).diagnostics == []
            && Resolve(Reset(reg), RefText(Reference("box", "left"))) == Err(ShapeNotFound("box"))
  {
    ParseRefComplete(Reference("box", "left"));
  }

  // ---------------------------------------------------------------------------
  // Extension: expression-valued resolve and the axis check
  // ---------------------------------------------------------------------------

  /** Which id a looked-up reference stands for: `$self` is the caller's
      shape when one is given. */
  function Target(id: string, selfId: Option<string>): Option<string> {
    if id != ExprParser.SelfId then Some(id)
    else if selfId.Some? then selfId
    else None
  }

  /** The lookup the evaluator uses against a registry: a number stored
      under the reference, `$self` standing for `selfId`. */
  function LookupIn(reg: Registry, selfId: Option<string>): (lookup: (string, string) -> Result<real, ResolveError>)
    ensures forall id, anchor :: lookup(id, anchor) ==
              if Target(id, selfId).Some? then ScalarAt(reg, Target(id, selfId).value, anchor) else Err(NoSelf(anchor))
  {
    (id: string, anchor: string) =>
      if Target(id, selfId).Some? then ScalarAt(reg, Target(id, selfId).value, anchor) else Err(NoSelf(anchor))
  }

  /** The expression tree evaluated against the registry. */
  function ResolveTree(reg: Registry, e: ExprParser.Expr, selfId: Option<string>): Result<ExprParser.Num, ResolveError> {
    ExprParser.Evaluate(e, LookupIn(reg, selfId))
  }

  /** Expression-valued `resolve(expr, selfId)`: parse, then evaluate with
      the registry's numbers. A syntax error and the first failing
      reference are the two ways it fails. */
  function ResolveExpr(reg: Registry, input: string, selfId: Option<string>): (r: Result<ExprParser.Num, ExprParser.Failure<ResolveError>>)
    ensures r.Err? && r.error.Syntax? <==> ExprParser.ParseExpr(input).Err?
    ensures ExprParser.ParseExpr(input).Ok? ==>
              (r.Ok? <==> ResolveTree(reg, ExprParser.ParseExpr(input).value, selfId).Ok?)
    ensures r.Ok? ==> r.value == ResolveTree(reg, ExprParser.ParseExpr(input).value, selfId).value
  {
    ExprParser.ParseAndEvaluate(input, LookupIn(reg, selfId))
  }

  /** A tree made of one reference resolves like the bare `resolve` of its
      text: same number, same error. */
  lemma TreeOfOneRef(reg: Registry, x: Reference, selfId: Option<string>)
    requires ValidReference(x) && x.id != ExprParser.SelfId
    ensures ResolveTree(reg, ExprParser.Ref(x.id, x.anchor), selfId)
         == match Resolve(reg, RefText(x))
            case Ok(v) => Ok(ExprParser.Finite(v))
            case Err(e) => Err(e)
  {
    ParseRefComplete(x);
  }

  /** `$self.a` resolves like a reference to the caller's shape; without a
      caller's shape it fails. */
  lemma SelfIsCaller(reg: Registry, anchor: string, selfId: string)
    requires selfId != ExprParser.SelfId
    ensures ResolveTree(reg, ExprParser.SelfRef(anchor), Some(selfId))
         == ResolveTree(reg, ExprParser.Ref(selfId, anchor), None)
    ensures ResolveTree(reg, ExprParser.SelfRef(anchor), None) == Err(NoSelf(anchor))
  {
  }

  /** The registry of the tests' expression examples. */
  function TestRegistry(): Registry {
    Register(Register(Empty, "a", map["left" := Scalar(10.0), "right" := Scalar(110.0), "width" := Scalar(100.0),
                                      "top" := Scalar(20.0)]),
             "b", map["width" := Scalar(80.0)])
  }

  /** `$self.width * 2` for shape `a` is 200, as the tree the parser builds
      for it. */
  lemma ResolveSelfExample()
    ensures ResolveTree(TestRegistry(),
              ExprParser.Binop(ExprParser.Mul, ExprParser.SelfRef("width"), ExprParser.Literal(ExprParser.Finite(2.0))),
              Some("a")) == Ok(ExprParser.Finite(200.0))
  {
  }

  /** An unknown shape or anchor fails the lookup. */
  lemma ResolveTreeMisses()
    ensures ResolveTree(TestRegistry(), ExprParser.Ref("missing", "right"), None) == Err(ShapeNotFound("missing"))
    ensures ResolveTree(TestRegistry(), ExprParser.Ref("a", "missing"), None) == Err(AnchorNotFound("a", "missing"))
  {
  }

  /** `#a.width + (#b.width * 2) - 10` is 250, as the tree the parser builds
      for it. */
  lemma ResolveTreeExamples()
    ensures ResolveTree(TestRegistry(),
              ExprParser.Binop(ExprParser.Sub,
                ExprParser.Binop(ExprParser.Add,
                  ExprParser.Ref("a", "width"),
                  ExprParser.Binop(ExprParser.Mul, ExprParser.Ref("b", "width"), ExprParser.Literal(ExprParser.Finite(2.0)))),
                ExprParser.Literal(ExprParser.Finite(10.0))),
              None) == Ok(ExprParser.Finite(250.0))
  {
  }

  datatype Axis = XAxis | YAxis

  /** One warning for each anchor whose known axis differs from the
      property's, in the order the anchors occur. */
  function AxisWarnings(anchors: seq<string>, propAxis: Axis, prop: string, shapeId: string,
                        axisOf: string -> Option<Axis>): seq<Diagnostic>
  {
    if anchors == [] then []
    else
      var a := anchors[0];
      (if axisOf(a).Some? && axisOf(a).value != propAxis
       then [Diagnostic(Warning, shapeId, CrossAxis(prop, a, axisOf(a).value))] else [])
      + AxisWarnings(anchors[1..], propAxis, prop, shapeId, axisOf)
  }

  /** Whether an anchor is on the other axis than the property. */
  predicate CrossesAxis(a: string, propAxis: Axis, axisOf: string -> Option<Axis>) {
    axisOf(a).Some? && axisOf(a).value != propAxis
  }

  /** The warnings are warnings for the shape, and name exactly the crossing
      anchors. */
  lemma {:induction false} AxisWarningsExactly(anchors: seq<string>, propAxis: Axis, prop: string, shapeId: string,
                                               axisOf: string -> Option<Axis>)
    ensures |AxisWarnings(anchors, propAxis, prop, shapeId, axisOf)| <= |anchors|
    ensures forall d :: d in AxisWarnings(anchors, propAxis, prop, shapeId, axisOf) ==>
              d.level == Warning && d.shapeId == shapeId && d.message.CrossAxis?
              && d.message.anchor in anchors && CrossesAxis(d.message.anchor, propAxis, axisOf)
    ensures forall a :: a in anchors && CrossesAxis(a, propAxis, axisOf) ==>
              exists d :: d in AxisWarnings(anchors, propAxis, prop, shapeId, axisOf) && d.message.CrossAxis? && d.message.anchor == a
    decreases |anchors|
  {
    if anchors != [] {
      var a := anchors[0];
      var rest := AxisWarnings(anchors[1..], propAxis, prop, shapeId, axisOf);
      AxisWarningsExactly(anchors[1..], propAxis, prop, shapeId, axisOf);
      var head := if CrossesAxis(a, propAxis, axisOf)
                  then [Diagnostic(Warning, shapeId, CrossAxis(prop, a, axisOf(a).value))] else [];
      assert AxisWarnings(anchors, propAxis, prop, shapeId, axisOf) == head + rest;
      forall b | b in anchors && CrossesAxis(b, propAxis, axisOf)
        ensures exists d: Diagnostic :: d in head + rest && d.message.CrossAxis? && d.message.anchor == b
      {
        if b == a {
          assert head[0] in head + rest;
        } else {
          assert b in anchors[1..];
          var d :| d in rest && d.message.CrossAxis? && d.message.anchor == b;
          assert d in head + rest;
        }
      }
    }
  }

  /** `resolveWithAxisCheck`: the value is that of the expression-valued
      resolve, and one warning per anchor on the other axis is appended
      (none for an expression that does not parse). The naming of anchors
      to axes is not part of the registry, so it is a parameter. */
  function ResolveWithAxisCheck(reg: Registry, input: string, selfId: Option<string>, propAxis: Axis, prop: string,
                                shapeId: string, axisOf: string -> Option<Axis>)
    : (out: (Registry, Result<ExprParser.Num, ExprParser.Failure<ResolveError>>))
    ensures out.1 == ResolveExpr(reg, input, selfId)
    ensures out.0.anchors == reg.anchors && out.0.viewBox == reg.viewBox
    ensures |out.0.diagnostics| >= |reg.diagnostics|
    ensures out.0.diagnostics[..|reg.diagnostics|] == reg.diagnostics
    ensures ExprParser.ParseExpr(input).Err? ==> out.0 == reg
    ensures ExprParser.ParseExpr(input).Ok? ==>
              out.0.diagnostics == reg.diagnostics
                + AxisWarnings(ExprParser.CollectAnchors(ExprParser.ParseExpr(input).value), propAxis, prop, shapeId, axisOf)
  {
    var value := ResolveExpr(reg, input, selfId);
    match ExprParser.ParseExpr(input)
    case Err(_) => (reg, value)
    case Ok(e) =>
      var warnings := AxisWarnings(ExprParser.CollectAnchors(e), propAxis, prop, shapeId, axisOf);
      (reg.(diagnostics := reg.diagnostics + warnings), value)
  }

  /** An expression of one reference gets exactly one warning when its
      anchor is on the other axis and none otherwise. */
  lemma OneRefOneWarning(anchor: string, propAxis: Axis, prop: string, shapeId: string, axisOf: string -> Option<Axis>)
    ensures |AxisWarnings(ExprParser.CollectAnchors(ExprParser.Ref("box", anchor)), propAxis, prop, shapeId, axisOf)|
         == if CrossesAxis(anchor, propAxis, axisOf) then 1 else 0
  {
  }

  /** The scenario of the tests: `#box.top` used for an x property still
      resolves to 5, and the top anchor being on the y axis draws one
      warning. */
  lemma AxisCheckExample(axisOf: string -> Option<Axis>)
    requires axisOf("top") == Some(YAxis)
    ensures var reg := Register(Empty, "box", map["top" := Scalar(5.0), "left" := Scalar(7.0)]);
            var e := ExprParser.Ref("box", "top");
            && ResolveTree(reg, e, None) == Ok(ExprParser.Finite(5.0))
            && AxisWarnings(ExprParser.CollectAnchors(e), XAxis, "left", "shape-1", axisOf)
               == [Diagnostic(Warning, "shape-1", CrossAxis("left", "top", YAxis))]
  {
  }
}
